=== FILE: README.md ===
# psa-arch-tests client test bodies in Dafny

This project models eleven client test bodies of the PSA Architecture Test
Suite. Each test is a straight-line C function that calls the API under test,
compares each answer with an expected value, and returns early at the first
mismatch with that assertion's checkpoint number. The model has two layers.

- **An abstract reference of the API state the tests drive.**
  - `SecureStorage`: the PSA Internal Trusted Storage / Protected Storage object model. Each uid names an object with a capacity and contents.
  - `CryptoTypes`: the six-field key-attributes record of the PSA Cryptography API 1.0.
  - `KeyManagement`: key slots reached by handle.
  - `Operations`: the inactive/active lifecycle of multipart hash and cipher operations.
- **The client-side decision logic of each test**, as pure functions. A test's outcome is a `Verdict`:
  - returned with a `VAL_STATUS_*` value;
  - skipped with a reason;
  - or stopped by a failed assertion at a checkpoint.

  `TEST_ASSERT_*` is the `Expect` gate. It is used with Dafny's `:-` operator, so a failed assertion returns early exactly as the macro does.

For every test, the main theorem says when the test passes against the
reference. It passes exactly when:

- the platform services succeed (crypto initialisation, and rearming the watchdog in every iteration);
- the vector table is non-empty, where the test skips an empty one;
- and every vector agrees with the reference.

"Agrees" is stated as an independent predicate (`VectorAgrees`,
`DecryptAgrees`, `FinishAgrees`, …). It says what the reference answers, not
how the test computes. The expected-status tables of the storage tests and
the vector tables of the crypto tests are parameters. The model never fixes
their contents.

The cryptography itself is an opaque `Engine` record of functions. It
covers key parsing, digests, RSA decryption, signature verification and
cipher output. The theorems hold for every engine. The fault-injection test
(test_i086) gets everything the hardware decides as an input record:

- the IPC answers;
- whether each boot-flag write succeeds;
- what the cross-partition access does.

It keeps the one durable boot-flag slot and a trace of externally visible
events, so ordering ("the flag is armed before the access") can be stated.

Modules:

- `Base`: bytes, `Option`, clamped reads (`Take`), `memset`/`memcpy` on sequences (`Zeros`, `WriteAt`), and `memcmp` (`SameBytes`).
- `Status`: `psa_status_t` and `VAL_STATUS_*` as datatypes.
- `Harness`:
  - verdicts, the `Expect` gate and the vector loop;
  - the common frame of the crypto tests: skip on an empty table, initialise at checkpoint 1, rearm the watchdog at checkpoint 2 in every iteration;
  - the generic pass theorems.
- `FaultInjection`: test_i086.
- `SecureStorage`, `StorageOffsetTest` (test_s008), `OptionalStorageTests` (test_p016, test_p017).
- `CryptoTypes`, `KeyManagement`, `Operations`: the crypto reference.
- `KeyMaterial`: the helpers the crypto tests share: key-data selection, `is_buffer_empty`, salt normalisation, policy setters.
- `AttributesTest` (test_c010), `ImportTest` (test_c002), `HashTests` (test_c015, test_c006), `CipherTest` (test_c037), `AsymmetricTests` (test_c040, test_c042).

The code and the natural reading of the tests disagree in five places. The
first four are listed under "## Findings":

- In test_c002, checkpoint 11 re-checks the export status because the destroy status is discarded.
- In test_c002, the key-type check reads the caller's own attributes record.
- In test_c037, `invalid_operation` is never initialised.
- In test_c040's negative test, the salt pointer is taken from the positive table.
- test_c002 numbers two different assertions as checkpoint 7 (lines 119-120 and 125). The model keeps both numbers as written.

Each of these is modelled as the code has it. For the four findings the
corrected version is modelled too. `AsymmetricTests.DecryptNegativeTest` is
the negative decryption test with the salt it evidently means to pass.
`AsymmetricTests.DecryptNegativeTestAsWritten` is the same test with the salt
slip, and its contract ties the two together.

## Model

| member | source | states |
|---|---|---|
| Base.Zeros | api-tests/dev_apis/crypto/test_c040/test_c040.c:75 | `memset(buf, 0, n)` leaves exactly `n` bytes, each zero |
| Base.Take | api-tests/dev_apis/crypto/test_c002/test_c002.c:100-101 | the first `n` bytes of a buffer, or the whole buffer when it is shorter: what a call given a length reads |
| Base.WriteAt | api-tests/dev_apis/crypto/test_c037/test_c037.c:100-101 | writing at an offset keeps the bytes before it, places the data there, keeps the bytes after it, and grows the buffer only when the write runs past its end |
| Base.WriteAfter | api-tests/dev_apis/crypto/test_c037/test_c037.c:99-101 | copying right after a known prefix leaves the prefix followed by the copy at the front of the buffer |
| Base.WriteAtConsecutive | api-tests/dev_apis/crypto/test_c037/test_c037.c:95-122 | update output written at 0 and then finish output written at `update_length` together read back as their concatenation, which is what the memcmp over `update_length + finish_length` compares |
| Harness.Expect | api-tests/dev_apis/crypto/test_c010/test_c010.c:66 | an assertion lets the test continue exactly when its condition holds, and otherwise ends it with its checkpoint |
| Harness.VerdictOf | api-tests/dev_apis/crypto/test_c010/test_c010.c:133 | a body that runs to the end returns `VAL_STATUS_SUCCESS`; one that stopped returns the verdict it stopped with |
| Harness.Loop | api-tests/dev_apis/crypto/test_c010/test_c010.c:55-131 | a loop past its last vector leaves the state as it is; a loop that stops early stops with what one iteration, at some index from its start on, returned |
| Harness.LoopExitsWithin | api-tests/dev_apis/crypto/test_c010/test_c010.c:55-131 | if every iteration from a reachable state stops only with verdicts of a given kind, so does the loop |
| Harness.LoopsAgree | api-tests/dev_apis/crypto/test_c010/test_c010.c:55-131 | two loops whose iterations agree index by index, in every state they can reach, end the same way |
| Harness.LoopCompletesIff | api-tests/dev_apis/crypto/test_c010/test_c010.c:55-131 | the vector loop runs to the end exactly when every vector's check succeeds, given a state invariant under which success depends on the vector alone |
| Harness.LoopNoEarlyPass | api-tests/dev_apis/crypto/test_c010/test_c010.c:55-131 | a loop whose body never returns success early does not either |
| Harness.Guarded | api-tests/dev_apis/crypto/test_c010/test_c010.c:60-62 | a failed watchdog rearm in iteration `i` ends that iteration at checkpoint 2, and otherwise the iteration is the check itself |
| Harness.RunChecks | api-tests/dev_apis/crypto/test_c040/test_c040.c:170-179 | a failed initialisation ends the test at checkpoint 1; with at least one vector, a failed first watchdog rearm ends it at checkpoint 2 |
| Harness.CryptoTest | api-tests/dev_apis/crypto/test_c010/test_c010.c:44-48 | an empty vector table is skipped with `VAL_STATUS_NO_TESTS` before anything is called; otherwise the test runs the checks |
| Harness.RunChecksPassesIff | api-tests/dev_apis/crypto/test_c040/test_c040.c:163-207 | a test without the skip passes exactly when initialisation succeeds, the watchdog rearms in every iteration, and every vector satisfies the check's success condition |
| Harness.RunChecksAgree | api-tests/dev_apis/crypto/test_c040/test_c040.c:163-207 | two runs whose checks agree vector by vector, in every reachable state, report the same verdict |
| Harness.CryptoTestPassesIff | api-tests/dev_apis/crypto/test_c006/test_c006.c:32-81 | a table-driven crypto test passes exactly when the table is non-empty, initialisation succeeds, the watchdog rearms in every iteration and every vector satisfies the success condition |
| FaultInjection.WriteFlag | api-tests/ff/ipc/test_i086/test_i086.c:73-96 | a successful boot-flag write stores the flag; a failed one leaves the durable slot as it was |
| FaultInjection.FetchAddress | api-tests/ff/ipc/test_i086/test_i086.c:40-61 | a negative handle gives `VAL_STATUS_INVALID_HANDLE`; a failed call gives `VAL_STATUS_CALL_FAILED` and leaves the handle open; success closes the handle exactly once; only IPC events happen |
| FaultInjection.ReadOtherHeapTest | api-tests/ff/ipc/test_i086/test_i086.c:63-99 | without heap support: a skip that touches nothing. A failed fetch: an error before the flag is touched. A failed arming skips the read. A fault resets with the armed flag in the slot. Pass exactly when the read yields `DATA_VALUE`, leaving the flag armed. Any other value records `BOOT_EXPECTED_BUT_FAILED` and gives `VAL_STATUS_SPM_FAILED`, or `VAL_STATUS_ERROR` if that write fails |
| FaultInjection.WriteOtherHeapTest | api-tests/ff/ipc/test_i086/test_i086.c:101-130 | the same skip, fetch and failed-arming rules with `BOOT_EXPECTED_NS`, and a fault resets with that flag in the slot; once the store returns, a reconnection handle above 0 gives `VAL_STATUS_INVALID_HANDLE` and any other handle passes, with the connect as the last event |
| FaultInjection.ArmedAfterWrite | api-tests/ff/ipc/test_i086/test_i086.c:73-83 | in a trace of IPC events, then a boot-flag write, then the rest, every access comes after the write: it is armed when the write succeeded, and a failed write has nothing after it |
| FaultInjection.ReadArmedBeforeAccess | api-tests/ff/ipc/test_i086/test_i086.c:70-83 | in every run of the read test, each read of the other heap is preceded by a successful write of `BOOT_EXPECTED_REENTER_TEST` |
| FaultInjection.WriteArmedBeforeAccess | api-tests/ff/ipc/test_i086/test_i086.c:108-121 | in every run of the write test, each store to the other heap is preceded by a successful write of `BOOT_EXPECTED_NS` |
| SecureStorage.Get | api-tests/dev_apis/internal_trusted_storage/test_s008/test_s008.c:49-78 | a read succeeds exactly when the uid exists and `offset + length` (unbounded, so `0xFFFFFFFF + 10` cannot wrap) is within the size; it then delivers exactly those bytes, and otherwise nothing |
| SecureStorage.Set | api-tests/dev_apis/protected_storage/test_p016/test_p016.c:57-67 | `set` replaces the object: capacity and size both become the data's length; other uids are unchanged |
| SecureStorage.Create | api-tests/dev_apis/protected_storage/test_p016/test_p016.c:42-55 | `create` on a taken uid fails with already-exists and changes nothing; otherwise it makes an empty object of the given capacity |
| SecureStorage.SetExtended | api-tests/dev_apis/protected_storage/test_p017/test_p017.c:45-66 | a partial write succeeds exactly when it starts within the current contents (no gap) and ends within the capacity; the capacity is kept, the size becomes the larger of old size and write end, and the bytes before and after are kept; a failure changes nothing |
| SecureStorage.GetInfo | api-tests/dev_apis/protected_storage/test_p016/test_p016.c:51-55 | `get_info` reports the object's capacity and size, or does-not-exist |
| SecureStorage.Remove | api-tests/dev_apis/protected_storage/test_p016/test_p016.c:74-76 | `remove` succeeds exactly on an existing uid, and afterwards the uid is absent and every other object is unchanged |
| SecureStorage.GetAfterSet | api-tests/dev_apis/internal_trusted_storage/test_s008/test_s008.c:93-117 | after `set`, every read inside the data returns exactly that slice |
| SecureStorage.CreateKeepsExisting | api-tests/dev_apis/protected_storage/test_p016/test_p016.c:46-55 | `create` on an existing object fails and `get_info` reports the object as before |
| SecureStorage.SetAfterRemoveIsFresh | api-tests/dev_apis/protected_storage/test_p016/test_p016.c:74-87 | after `remove`, `set` creates an object whose capacity and size are the data's length, and `create` on it then fails |
| SecureStorage.RemoveForgets | api-tests/dev_apis/protected_storage/test_p016/test_p016.c:89-91 | `remove` succeeds on a uid however it was last stored, and leaves the store with just that uid taken out |
| StorageOffsetTest.FirstSweepValues | api-tests/dev_apis/internal_trusted_storage/test_s008/test_s008.c:96-107 | the first loop reads at offsets 20, 10, 5, 2, 1 with `20 - offset` bytes |
| StorageOffsetTest.SecondSweepValues | api-tests/dev_apis/internal_trusted_storage/test_s008/test_s008.c:109-120 | the second loop reads (18,1), (9,2), (4,4), (2,8), (1,16) |
| StorageOffsetTest.FirstSweepEndsAtEnd | api-tests/dev_apis/internal_trusted_storage/test_s008/test_s008.c:96-107 | every range of the first loop, and of any prefix of it, ends exactly at byte 20 |
| StorageOffsetTest.SecondSweepEndsInside | api-tests/dev_apis/internal_trusted_storage/test_s008/test_s008.c:109-120 | every range of the second loop, and of any prefix of it, ends strictly before byte 20 |
| StorageOffsetTest.ReadBack | api-tests/dev_apis/internal_trusted_storage/test_s008/test_s008.c:102-105 | on the stored buffer, a read inside it can fail only its status check: contents and length always match |
| StorageOffsetTest.ReadToEnd | api-tests/dev_apis/internal_trusted_storage/test_s008/test_s008.c:96-107 | the halving loop terminates, every range it visits ends exactly at byte 20, and it fails only at checkpoint 2 and only when the table does not expect success |
| StorageOffsetTest.ReadInside | api-tests/dev_apis/internal_trusted_storage/test_s008/test_s008.c:109-120 | the second loop terminates, every range ends strictly inside the object, and it fails only at checkpoint 5 and only when the table does not expect success |
| StorageOffsetTest.ValidOffsetSuccess | api-tests/dev_apis/internal_trusted_storage/test_s008/test_s008.c:87-123 | the test stores the 20-byte buffer and passes exactly when the table expects success at entries 1, 2 and 4, visiting all ten ranges in order; otherwise it stops at checkpoint 1, 2 or 5 |
| StorageOffsetTest.InvalidOffsetFailure | api-tests/dev_apis/internal_trusted_storage/test_s008/test_s008.c:42-85 | on the 20-byte object, every out-of-range read is refused, delivers nothing and leaves the once-zeroed buffer zero; the test passes exactly when the table holds the matching statuses, and then removes the object; on its own, without the object, it cannot pass |
| StorageOffsetTest.S008Suite | api-tests/dev_apis/internal_trusted_storage/test_s008/test_s008.c:30-35 | run in list order, the two tests pass under the stated table conditions and leave a store without the uid as they found it |
| OptionalStorageTests.OptionalApiCheck | api-tests/dev_apis/protected_storage/test_p016/test_p016.c:96-118 | an unexpected `get_support` answer is a skip with `VAL_STATUS_UNSUPPORTED`; otherwise the inner verdict is returned unchanged |
| OptionalStorageTests.CapacityTest | api-tests/dev_apis/protected_storage/test_p016/test_p016.c:37-94 | from a store without the uid, the test passes exactly when the table holds the reference's answers, and its capacity and size checks never fail; a leftover object makes the first `create` fail |
| OptionalStorageTests.CapacityOverride | api-tests/dev_apis/protected_storage/test_p016/test_p016.c:57-91 | after `set` with 8 bytes, the rest of the test passes exactly when the table expects the reference's answers at checkpoints 6, 7 and 10-14; the capacity and size read back always match |
| OptionalStorageTests.CapacityRecreate | api-tests/dev_apis/protected_storage/test_p016/test_p016.c:69-91 | on an 8-byte-capacity object, writing 10 bytes with `set_extended` is refused, and the rest passes exactly when the table expects that refusal and the answers at 11-14; it stops only at checkpoints 10-14 |
| OptionalStorageTests.CapacityRefill | api-tests/dev_apis/protected_storage/test_p016/test_p016.c:78-91 | whatever the store holds, `set`, then `create` on the same uid, then `remove` answer success, already-exists and success; the steps stop only at checkpoints 12-14 and leave the uid absent |
| OptionalStorageTests.CapacityTestRestoresStore | api-tests/dev_apis/protected_storage/test_p016/test_p016.c:37-94 | from a store without the uid, a run to the end leaves the store exactly as it found it |
| OptionalStorageTests.CapacityCheck | api-tests/dev_apis/protected_storage/test_p016/test_p016.c:96-118 | skip when unsupported; otherwise pass exactly when the table agrees with the reference; no other status is returned |
| OptionalStorageTests.PartialWriteTest | api-tests/dev_apis/protected_storage/test_p017/test_p017.c:36-72 | from a store without the uid, the test passes exactly when the table agrees with the reference (the gap write refused), and the size and capacity checks never fail; a leftover object makes the first `create` fail |
| OptionalStorageTests.PartialWriteFills | api-tests/dev_apis/protected_storage/test_p017/test_p017.c:41-58 | on a store without the uid, `create` and the first-half write succeed, the write leaving a gap is refused with invalid-argument, the overwrite-and-extend succeeds, and the store then holds the first ten bytes in a 14-byte object and nothing else new |
| OptionalStorageTests.PartialWriteVerify | api-tests/dev_apis/protected_storage/test_p017/test_p017.c:60-69 | on that object only the status answers at checkpoints 5 and 8 can fail; a completed run has removed exactly the uid |
| OptionalStorageTests.PartialWriteRestoresStore | api-tests/dev_apis/protected_storage/test_p017/test_p017.c:36-72 | from a store without the uid, the object built is that 14-byte object, and a run to the end leaves the store exactly as it found it |
| OptionalStorageTests.PartialWriteCheck | api-tests/dev_apis/protected_storage/test_p017/test_p017.c:74-96 | skip when unsupported; otherwise pass exactly when the table agrees with the reference |
| CryptoTypes.DigestLength | api-tests/dev_apis/crypto/test_c006/test_c006.c:37-76 | every digest fits the 64-byte buffer; SHA-384 is 48 bytes and SHA-512 is 64 |
| CryptoTypes.HashSize | api-tests/dev_apis/crypto/test_c006/test_c006.c:76 | `PSA_HASH_SIZE` is nonzero exactly for hash algorithms and at most 64 |
| CryptoTypes.SetKeyType | api-tests/dev_apis/crypto/test_c010/test_c010.c:84-93 | the type reads back as set, and no other field changes |
| CryptoTypes.SetKeyBits | api-tests/dev_apis/crypto/test_c010/test_c010.c:85-108 | the size reads back as set, and no other field changes |
| CryptoTypes.SetKeyUsageFlags | api-tests/dev_apis/crypto/test_c010/test_c010.c:86-102 | the usage reads back as set, and no other field changes |
| CryptoTypes.SetKeyId | api-tests/dev_apis/crypto/test_c010/test_c010.c:87-96 | the id reads back as set, and no other field changes |
| CryptoTypes.SetKeyLifetime | api-tests/dev_apis/crypto/test_c010/test_c010.c:88-99 | the lifetime reads back as set, and no other field changes |
| CryptoTypes.SetKeyAlgorithm | api-tests/dev_apis/crypto/test_c010/test_c010.c:89-105 | the algorithm reads back as set, and no other field changes |
| CryptoTypes.ResetKeyAttributes | api-tests/dev_apis/crypto/test_c010/test_c010.c:111-130 | after a reset every getter reads zero, whatever was set |
| CryptoTypes.SetAllReadsBack | api-tests/dev_apis/crypto/test_c010/test_c010.c:84-108 | the six setters in the test's order leave each field holding its own input, whatever the record held |
| KeyManagement.Import | api-tests/dev_apis/crypto/test_c002/test_c002.c:99-102 | import succeeds exactly when a type is set, the engine accepts the data and a nonzero size matches it; success stores the key under a fresh nonzero handle recording the parsed size; failure hands back handle 0 and changes nothing |
| KeyManagement.GetKeyAttributes | api-tests/dev_apis/crypto/test_c002/test_c002.c:108-111 | a stored key's attributes are reported; an unknown handle is an invalid handle |
| KeyManagement.Export | api-tests/dev_apis/crypto/test_c002/test_c002.c:122-125 | export succeeds exactly for a stored, exportable key that fits the buffer, and then returns its bytes; otherwise nothing |
| KeyManagement.Destroy | api-tests/dev_apis/crypto/test_c037/test_c037.c:110-112 | destroy succeeds for handle 0 or a stored key and removes only that key; any other handle is refused and nothing changes |
| KeyManagement.DecryptWithKey | api-tests/dev_apis/crypto/test_c040/test_c040.c:131-135 | decryption with a key needs the decrypt usage and the matching algorithm, and succeeds exactly when the engine does and its output fits; output is never larger than the buffer |
| KeyManagement.AsymmetricDecrypt | api-tests/dev_apis/crypto/test_c040/test_c040.c:192-203 | a handle naming no key is refused before anything else is looked at |
| KeyManagement.VerifyWithKey | api-tests/dev_apis/crypto/test_c042/test_c042.c:105-109 | verification needs the verify usage and the matching algorithm; then the engine decides |
| KeyManagement.AsymmetricVerify | api-tests/dev_apis/crypto/test_c042/test_c042.c:137-149 | a handle naming no key is refused before anything else is looked at |
| KeyManagement.HashCompute | api-tests/dev_apis/crypto/test_c006/test_c006.c:66-69 | the one-shot hash succeeds exactly for a supported hash whose digest fits; a non-hash is an invalid argument and an unsupported hash not-supported |
| KeyManagement.AttributesAfterImport | api-tests/dev_apis/crypto/test_c002/test_c002.c:108-120 | after a successful import the stored attributes are the caller's, with the size set to the requested size or, if that was 0, the parsed one |
| KeyManagement.ExportAfterImport | api-tests/dev_apis/crypto/test_c002/test_c002.c:122-136 | an exportable key that fits comes back byte for byte |
| KeyManagement.DestroyAfterImport | api-tests/dev_apis/crypto/test_c002/test_c002.c:146 | destroying a freshly imported key succeeds, restores the slots and invalidates the handle |
| KeyManagement.ImportClearedFails | api-tests/dev_apis/crypto/test_c002/test_c002.c:143-153 | importing with reset attributes fails with an invalid argument, hands back handle 0 and changes nothing |
| KeyManagement.ZeroHandleInvalid | api-tests/dev_apis/crypto/test_c042/test_c042.c:143-149 | in a valid store, handle 0 is refused by decrypt, verify, export and get-attributes |
| Operations.HashSetup | api-tests/dev_apis/crypto/test_c015/test_c015.c:53-61 | setup succeeds exactly from the inactive state with a supported hash, and starts an empty message |
| Operations.HashUpdate | api-tests/dev_apis/crypto/test_c015/test_c015.c:102-104 | update appends to an active operation and is a bad-state error on an inactive one |
| Operations.HashFinish | api-tests/dev_apis/crypto/test_c015/test_c015.c:110-113 | finish on an inactive operation is a bad-state error; it succeeds exactly when active and the digest fits, returning the digest of everything added |
| Operations.HashAbort | api-tests/dev_apis/crypto/test_c015/test_c015.c:63-69 | abort succeeds from any state and leaves the operation inactive |
| Operations.HashAbortIdempotent | api-tests/dev_apis/crypto/test_c015/test_c015.c:67-69 | a second abort answers and ends like the first |
| Operations.HashFinishAfterAbort | api-tests/dev_apis/crypto/test_c015/test_c015.c:106-113 | whatever came before, finish after abort is a bad-state error |
| Operations.MultipartHashMatchesCompute | api-tests/dev_apis/crypto/test_c015/test_c015.c:98-104 | setup, updates with any fragments and finish give the same answer as the one-shot hash of their concatenation |
| Operations.UpdateAllAppends | api-tests/dev_apis/crypto/test_c015/test_c015.c:102-104 | updates on an active operation accumulate the fragments in order |
| Operations.CipherSetup | api-tests/dev_apis/crypto/test_c037/test_c037.c:74-87 | setup from inactive succeeds exactly for a stored key whose policy permits the direction and algorithm; an unknown handle is refused; an active operation is a bad state |
| Operations.CipherSetIv | api-tests/dev_apis/crypto/test_c037/test_c037.c:89-92 | the IV can be set once, on an active operation that has consumed nothing; otherwise bad state |
| Operations.CipherUpdate | api-tests/dev_apis/crypto/test_c037/test_c037.c:94-97 | update on an inactive operation is a bad-state error; a success appends the input to what was consumed and returns the engine's output |
| Operations.CipherFinish | api-tests/dev_apis/crypto/test_c037/test_c037.c:99-127 | finish on an inactive operation is a bad-state error; a success returns the engine's final output and ends the operation |
| Operations.CipherAbort | api-tests/dev_apis/crypto/test_c037/test_c037.c:129-135 | abort succeeds on any operation, including one never set up, and leaves it inactive |
| Operations.CipherFinishOnce | api-tests/dev_apis/crypto/test_c037/test_c037.c:124-127 | after a successful finish, or after an abort, another finish is a bad-state error |
| KeyMaterial.SelectKeyData | api-tests/dev_apis/crypto/test_c002/test_c002.c:63-92 | an RSA vector gets the pair or public blob of its expected size, if the test knows that size; an ECC vector the ECC pair or public blob; any other type its own data |
| KeyMaterial.SelectionFailsOnlyForUnknownRsa | api-tests/dev_apis/crypto/test_c040/test_c040.c:78-111 | selection ends the test with `VAL_STATUS_INVALID` exactly for an RSA vector whose size is not 3072 or 2048 bits, or 1024 where the 128-byte keys are known |
| KeyMaterial.IsBufferEmpty | api-tests/dev_apis/crypto/test_c040/test_c040.c:31-42 | true exactly when the first `size` bytes are all zero, so true for size 0 |
| KeyMaterial.NormalizeSalt | api-tests/dev_apis/crypto/test_c040/test_c040.c:123-129 | an all-zero salt becomes no salt and its table length 0; any other salt is passed unchanged with its length |
| KeyMaterial.NormalizeSaltIdempotent | api-tests/dev_apis/crypto/test_c040/test_c040.c:123-129 | normalising a normalised table entry changes nothing, so repeated runs see the same salt |
| KeyMaterial.SetPolicy | api-tests/dev_apis/crypto/test_c040/test_c040.c:113-116 | the three policy setters set type, algorithm and usage and keep id, lifetime and size; on a blank record the result is fully determined |
| AttributesTest.AttributesCheck | api-tests/dev_apis/crypto/test_c010/test_c010.c:64-130 | from the initial record the iteration completes and leaves the initial record again, so the record is all-zero at the top of every iteration; a record that is not all-zero stops at one of checkpoints 3-8 |
| AttributesTest.SetGetTest | api-tests/dev_apis/crypto/test_c010/test_c010.c:32-134 | `psa_key_attributes_set_get_test` passes exactly when the table is non-empty, initialisation succeeds and the watchdog rearms in every iteration: no vector can fail it; otherwise it is skipped or stops at checkpoint 1 or 2 |
| AttributesTest.SetGetTestVerdict | api-tests/dev_apis/crypto/test_c010/test_c010.c:32-134 | the same verdicts, for the frame run with the loop body |
| ImportTest.Reference | api-tests/dev_apis/crypto/test_c002/test_c002.c:99-110 | the key API the test calls, bound to the reference key store |
| ImportTest.ImportCheck | api-tests/dev_apis/crypto/test_c002/test_c002.c:63-153 | an unknown RSA size returns `VAL_STATUS_INVALID`; the iteration stops only at checkpoints 3-13 or with `VAL_STATUS_INVALID`, never with an early pass |
| ImportTest.ReferenceCheck | api-tests/dev_apis/crypto/test_c002/test_c002.c:63-153 | against the reference, in either revision and from any state, an iteration completes exactly when the vector agrees: the selected data imports with the expected status, and on success the size reads back, the key exports whole with the expected length, and its type is comparable |
| ImportTest.ReferenceCheckImported | api-tests/dev_apis/crypto/test_c002/test_c002.c:108-153 | the same, once the key has imported as the vector expects |
| ImportTest.ImportKeyTest | api-tests/dev_apis/crypto/test_c002/test_c002.c:32-157 | `psa_import_key_test` passes against the reference exactly when the table is non-empty, initialisation succeeds, the watchdog rearms in every iteration and every vector agrees |
| ImportTest.ImportKeyTestPassesIff | api-tests/dev_apis/crypto/test_c002/test_c002.c:32-157 | the same pass condition, for the frame run with the loop body |
| ImportTest.DestroyFailureUndetected | api-tests/dev_apis/crypto/test_c002/test_c002.c:146-147 | against an implementation whose destroy fails, the test as written completes the iteration; the corrected test stops at checkpoint 11 |
| ImportTest.WrongTypeUndetected | api-tests/dev_apis/crypto/test_c002/test_c002.c:113-114 | against an implementation that reports a wrong key type, the test as written completes the iteration; the corrected test stops at checkpoint 5 |
| HashTests.AbortCheck | api-tests/dev_apis/crypto/test_c015/test_c015.c:53-69 | an iteration completes exactly when the vector names a supported hash and expects aborts to succeed, leaving the operation inactive; otherwise it stops at checkpoint 3 or 4, never 5, because a second abort answers like the first |
| HashTests.AbortTest | api-tests/dev_apis/crypto/test_c015/test_c015.c:33-74 | `psa_hash_abort_test` passes exactly when the table is non-empty, initialisation succeeds, the watchdog rearms in every iteration and every vector names a supported hash and expects success |
| HashTests.AbortTestPassesIff | api-tests/dev_apis/crypto/test_c015/test_c015.c:33-74 | the same pass condition, for the frame run with the loop body |
| HashTests.AbortBeforeFinish | api-tests/dev_apis/crypto/test_c015/test_c015.c:76-116 | the test passes exactly when the platform services succeed and SHA-256 is supported; finish after abort always reports a bad state |
| HashTests.ExpectedHash | api-tests/dev_apis/crypto/test_c006/test_c006.c:59-64 | SHA-384 vectors compare with the shared SHA-384 digest, SHA-512 with the shared SHA-512 digest, any other with their own |
| HashTests.ComputeCheck | api-tests/dev_apis/crypto/test_c006/test_c006.c:66-77 | an iteration stops only at the status check (5), the length check (7) or the content check (8) |
| HashTests.DigestAgreesSized | api-tests/dev_apis/crypto/test_c006/test_c006.c:76-77 | for an engine whose digests have their algorithm's length, the length check cannot fail |
| HashTests.ComputeTest | api-tests/dev_apis/crypto/test_c006/test_c006.c:32-81 | `psa_hash_compute_test` passes exactly when the table is non-empty, initialisation succeeds, the watchdog rearms in every iteration and every vector agrees with the reference's status and digest |
| HashTests.ComputeTestPassesIff | api-tests/dev_apis/crypto/test_c006/test_c006.c:32-81 | the same pass condition, for the frame run with the loop body |
| CipherTest.InitialState | api-tests/dev_apis/crypto/test_c037/test_c037.c:34-42 | the loop starts with `PSA_KEY_ATTRIBUTES_INIT` and the zeroed 32-byte static output buffer |
| CipherTest.SetupFor | api-tests/dev_apis/crypto/test_c037/test_c037.c:74-87 | usage ENCRYPT selects encrypt setup (checkpoint 4), DECRYPT decrypt setup (checkpoint 5), and any other usage leaves the operation inactive |
| CipherTest.Prepare | api-tests/dev_apis/crypto/test_c037/test_c037.c:64-92 | the policy, import, setup and IV steps stop only at checkpoints 3-6 |
| CipherTest.Run | api-tests/dev_apis/crypto/test_c037/test_c037.c:94-97 | the rest of the iteration stops only at checkpoints 7-16 and never shrinks the output buffer |
| CipherTest.FinishInto | api-tests/dev_apis/crypto/test_c037/test_c037.c:99-114 | from finish on, the iteration stops only at checkpoints 8-16 and never shrinks the output buffer |
| CipherTest.Abandon | api-tests/dev_apis/crypto/test_c037/test_c037.c:104-114 | after an expected failure, abort and destroy of a stored key succeed, and only the key's slot changes |
| CipherTest.Conclude | api-tests/dev_apis/crypto/test_c037/test_c037.c:116-142 | the checks after a successful finish stop only at checkpoints 11-16; completing them leaves the key destroyed, the attributes reset and the never-set-up operation inactive |
| CipherTest.FinishCheck | api-tests/dev_apis/crypto/test_c037/test_c037.c:64-142 | an iteration stops only at checkpoints 3-16 and never shrinks the output buffer |
| CipherTest.FinishStatus | api-tests/dev_apis/crypto/test_c037/test_c037.c:99-102 | finish succeeds exactly when the engine succeeds and its output fits the second output size |
| CipherTest.VectorKey | api-tests/dev_apis/crypto/test_c037/test_c037.c:64-72 | the key the reference stores for a vector carries its type, usage, algorithm and first `key_length` bytes |
| CipherTest.ReferencePrepare | api-tests/dev_apis/crypto/test_c037/test_c037.c:64-92 | against the reference, from a settled state, preparation completes exactly when the key imports and its usage is exactly encrypt or exactly decrypt (any other usage leaves the operation inactive, so setting the IV fails); it yields an active operation on the stored key with the vector's IV |
| CipherTest.ReferenceRun | api-tests/dev_apis/crypto/test_c037/test_c037.c:94-102 | against the reference, on the prepared operation, the rest of the iteration completes exactly when the engine's update and finish agree with the vector, and it leaves the state settled |
| CipherTest.ReferenceRunUpdated | api-tests/dev_apis/crypto/test_c037/test_c037.c:94-142 | the same, once the update has succeeded within its buffer |
| CipherTest.RunUpdates | api-tests/dev_apis/crypto/test_c037/test_c037.c:94-101 | a successful update writes its output at the start of the buffer and hands on the operation with the input consumed, with the finish writing right after that output |
| CipherTest.ReferenceFinishInto | api-tests/dev_apis/crypto/test_c037/test_c037.c:99-142 | against the reference, the iteration from finish on completes exactly when finish answers the expected status and, on success, the finish length and the concatenated output match, and a completed iteration leaves a settled state |
| CipherTest.FinishConcludes | api-tests/dev_apis/crypto/test_c037/test_c037.c:116-142 | the same, once finish has answered the expected success: the iteration completes exactly when the finish length and the update and finish outputs together match |
| CipherTest.ReferenceFinishCheck | api-tests/dev_apis/crypto/test_c037/test_c037.c:64-142 | against the reference, from a settled state, an iteration completes exactly when the vector agrees, and leaves a settled state |
| CipherTest.FinishTest | api-tests/dev_apis/crypto/test_c037/test_c037.c:36-146 | with `invalid_operation` inactive and a well-formed store, `psa_cipher_finish_test` passes exactly when the table is non-empty, initialisation succeeds, the watchdog rearms in every iteration and every vector agrees with the reference |
| CipherTest.FinishTestPassesIff | api-tests/dev_apis/crypto/test_c037/test_c037.c:36-146 | the same pass condition, for the frame run with the loop body |
| CipherTest.StaleOperationFails | api-tests/dev_apis/crypto/test_c037/test_c037.c:124-127 | if the uninitialised `invalid_operation` happens to look active, an otherwise agreeing vector fails at checkpoint 13 |
| CipherTest.StaleRun | api-tests/dev_apis/crypto/test_c037/test_c037.c:94-127 | from the update on, an iteration that completes with `invalid_operation` inactive stops at checkpoint 13 when that operation instead looks active and its finish does not answer bad-state |
| CipherTest.StaleFinishInto | api-tests/dev_apis/crypto/test_c037/test_c037.c:99-127 | the same from the finish on |
| CipherTest.StaleConclude | api-tests/dev_apis/crypto/test_c037/test_c037.c:116-127 | the same for the checks after a successful finish |
| AsymmetricTests.PolicyKey | api-tests/dev_apis/crypto/test_c040/test_c040.c:113-121 | the key stored for a vector carries its type, algorithm, usage and the imported data |
| AsymmetricTests.ImportForTest | api-tests/dev_apis/crypto/test_c042/test_c042.c:59-103 | an unknown RSA size returns `VAL_STATUS_INVALID`; otherwise, on a blank record, the step completes exactly when the selected data imports, and the new handle names the vector's key |
| AsymmetricTests.DecryptCheck | api-tests/dev_apis/crypto/test_c040/test_c040.c:75-157 | an iteration stops only with `VAL_STATUS_INVALID` or at checkpoints 3-10 |
| AsymmetricTests.ReferenceDecryptCheck | api-tests/dev_apis/crypto/test_c040/test_c040.c:75-157 | against the reference, an iteration completes exactly when the vector agrees: the data imports, decryption with the normalised salt answers the expected status, and on success the output length and bytes match |
| AsymmetricTests.DecryptTest | api-tests/dev_apis/crypto/test_c040/test_c040.c:47-161 | `psa_asymmetric_decrypt_test` passes exactly when the table is non-empty, initialisation succeeds, the watchdog rearms in every iteration and every vector agrees |
| AsymmetricTests.DecryptTestPassesIff | api-tests/dev_apis/crypto/test_c040/test_c040.c:47-161 | the same pass condition, for the frame run with the loop body |
| AsymmetricTests.NegativeSaltAsWritten | api-tests/dev_apis/crypto/test_c040/test_c040.c:181-187 | the negative test passes no salt for an all-zero own salt, and otherwise the paired positive vector's salt bytes, read for its own length |
| AsymmetricTests.NegativeSalt | api-tests/dev_apis/crypto/test_c040/test_c040.c:181-185 | the corrected negative salt is empty exactly when the vector's own salt is all zero, and otherwise is its own bytes |
| AsymmetricTests.NegativeSaltMismatch | api-tests/dev_apis/crypto/test_c040/test_c040.c:187 | for own salt `[1]` paired with `[2]`, the test as written passes `[2]` where `[1]` is meant |
| AsymmetricTests.DecryptNegativeCheck | api-tests/dev_apis/crypto/test_c040/test_c040.c:189-203 | an iteration stops only at checkpoint 3 or 4 and changes nothing; against a valid store, and an engine that leaves handle errors to the store, it completes exactly when the vector's handle names no key |
| AsymmetricTests.SaltSlipHarmless | api-tests/dev_apis/crypto/test_c040/test_c040.c:181-203 | against a valid store, the salt slip cannot change an iteration's outcome, because the handle is refused first |
| AsymmetricTests.DecryptNegativeTest | api-tests/dev_apis/crypto/test_c040/test_c040.c:163-207 | with the intended salt (the vector's own), against a valid store and an engine that leaves handles to the store, the negative test passes exactly when initialisation succeeds, the watchdog rearms in every iteration, and no vector's handle names a key; an empty table passes |
| AsymmetricTests.PairWithPositive | api-tests/dev_apis/crypto/test_c040/test_c040.c:174-187 | iteration `i` of the negative loop sees negative vector `i` and, when there is a positive vector `i`, its salt bytes; the table may be shorter than the negative one wherever the negative salts are all zero, since those iterations never read it |
| AsymmetricTests.DecryptNegativeTestAsWritten | api-tests/dev_apis/crypto/test_c040/test_c040.c:163-207 | the negative test as written, salt slip included, reports the same verdict as `DecryptNegativeTest` against a valid store and an engine that leaves handles to the store |
| AsymmetricTests.SaltSlipHarmlessInLoop | api-tests/dev_apis/crypto/test_c040/test_c040.c:174-204 | over the whole loop, the as-written salt and the intended salt give the same verdict under the same assumptions |
| AsymmetricTests.DecryptNegativeTestPassesIff | api-tests/dev_apis/crypto/test_c040/test_c040.c:163-207 | the same pass condition, for the frame run with the loop body |
| AsymmetricTests.VerifyCheck | api-tests/dev_apis/crypto/test_c042/test_c042.c:94-113 | an iteration stops only with `VAL_STATUS_INVALID` or at checkpoints 3-5 |
| AsymmetricTests.ReferenceVerifyCheck | api-tests/dev_apis/crypto/test_c042/test_c042.c:94-113 | against the reference, an iteration completes exactly when the data imports and verification answers the expected status; the key is destroyed whatever that status was |
| AsymmetricTests.VerifyTest | api-tests/dev_apis/crypto/test_c042/test_c042.c:33-117 | `psa_asymmetric_verify_test` passes exactly when the table is non-empty, initialisation succeeds, the watchdog rearms in every iteration and every vector agrees |
| AsymmetricTests.VerifyTestPassesIff | api-tests/dev_apis/crypto/test_c042/test_c042.c:33-117 | the same pass condition, for the frame run with the loop body |
| AsymmetricTests.VerifyNegativeCheck | api-tests/dev_apis/crypto/test_c042/test_c042.c:137-149 | an iteration stops only at checkpoint 3 or 4 and changes nothing; against a valid store, and an engine that leaves handle errors to the store, it completes exactly when the vector's handle names no key |
| AsymmetricTests.VerifyNegativeTest | api-tests/dev_apis/crypto/test_c042/test_c042.c:119-154 | against a valid store and an engine that leaves handles to the store, the negative test passes exactly when initialisation succeeds, the watchdog rearms in every iteration, and no vector's handle names a key; an empty table passes |
| AsymmetricTests.VerifyNegativeTestPassesIff | api-tests/dev_apis/crypto/test_c042/test_c042.c:119-154 | the same pass condition, for the frame run with the loop body |

## Left out

- The cryptography is not modelled: key parsing, RSA decryption, signature verification, digests and cipher output. It is the opaque `Engine` record, and every theorem holds for any engine. A few theorems assume a property of it, and say so: `DigestsSized`, and `HandlesOwned` (the engine never reports an invalid handle itself).
- Real memory access to another partition is an input: fault (device reset), ignored, or completed with a value. So are the IPC handles and statuses, and whether each boot-flag write succeeds. The boot-record reader is not part of this model.
- The watchdog timer is only the status each iteration's rearm returns (`Platform.watchdog(j)` for iteration `j`); a failure ends that iteration at checkpoint 2. The timer expiring is not modelled. `val->print`, `g_test_count` and all console text are not modelled.
- The data tables (`s008_data`, `p016_data`, `p017_data`, `check1`, `check2`, the key blobs, the expected digests) are parameters. The `ITS_TEST`/`PS_TEST` selection is the choice of table.
- test_p016.h holds only prototypes and aliasing macros, and is not modelled.
- Storage flags other than `PSA_STORAGE_FLAG_NONE`, and running out of space, are not modelled.
- C integer widths are not modelled. Lengths and offsets are unbounded naturals. For `offset + length` in `get` this is the intended reading: the top-of-range offset must not wrap. The halving `>>= 1` and doubling `<<= 1` of test_s008 are `/ 2` and `* 2`, which agree for the values the loops reach.
- Buffer overruns are not modelled. A call given a length reads at most what the buffer holds (`Take`), and a write past the end of an output buffer grows the sequence (`WriteAt`) instead of corrupting memory.
- The key handle stored back into a vector's table entry is not kept. Each iteration uses the handle import returned.
- The PSA 1.0 coupling between key id and lifetime is not modelled. test_c010 sets and reads the six fields independently.
- Whether a cipher needs an IV, and which IV sizes are accepted, is the engine's decision and is not modelled.
- The handle `get_secure_partition_address` leaves open after a failed call is recorded in the trace, but not modelled further.
- AttributesTest.SetGetTestVerdict: the pass condition does not depend on the vectors. This holds because the reference setters cannot disagree with their getters; it is not a weaker statement.
- CipherTest.FinishTest: states the pass condition only for `invalid_operation` inactive and a well-formed key store. For any other `invalid_operation`, `StaleOperationFails` shows the outcome depends on stack contents.
- CipherTest.FinishTestPassesIff: states the pass condition only for `invalid_operation` inactive. For any other value, `StaleOperationFails` shows the outcome depends on stack contents.
- `VAL_ERROR(s)`, which decides the early error return in test_i086 (lines 70 and 108), is defined outside these files. It is modelled as `s != VAL_STATUS_SUCCESS`.
- AsymmetricTests.DecryptNegativeTestAsWritten: relates the as-written test to the intended one only against a valid store and an engine that leaves handles to the store. Against other engines the salt passed could change the outcome, and no verdict is stated.
- AsymmetricTests.DecryptNegativeCheck: the exact pass condition holds only for an engine that leaves handle errors to the key store. For other engines only the checkpoint bounds are stated.
- AsymmetricTests.VerifyNegativeCheck: the same engine assumption as for decryption.

## Findings

| source | as written | input that shows it | evidently intended | confidence | as-written member | corrected member |
|---|---|---|---|---|---|---|
| api-tests/dev_apis/crypto/test_c002/test_c002.c:146-147 | the status of `psa_destroy_key` is discarded, and checkpoint 11 re-tests the earlier export status | an implementation whose destroy fails: the iteration completes | check the destroy status at checkpoint 11 | not executed | ImportTest.DestroyFailureUndetected | ImportTest.ImportKeyTestPassesIff |
| api-tests/dev_apis/crypto/test_c002/test_c002.c:113-114 | the key type is read from the caller's own `attributes`, not from `get_attributes` | an implementation that reports no key type: the iteration completes | read the type from the record `psa_get_key_attributes` filled in | not executed | ImportTest.WrongTypeUndetected | ImportTest.ReferenceCheck |
| api-tests/dev_apis/crypto/test_c037/test_c037.c:124-135 | `invalid_operation` (declared at line 41) is never initialised before finish and abort are called on it | stack contents that look like an active operation: checkpoint 13 fails for an agreeing vector | zero-initialise `invalid_operation`, as `operation` is | not executed | CipherTest.StaleOperationFails | CipherTest.FinishTest |
| api-tests/dev_apis/crypto/test_c040/test_c040.c:187 | the negative test normalises `check2[i].salt` but passes `check1[i].salt` | own salt `[1]` of length 1, paired positive salt `[2]`: `[2]` is passed | `salt = check2[i].salt` | not executed | AsymmetricTests.NegativeSaltMismatch | AsymmetricTests.DecryptNegativeTestPassesIff |

=== FILE: asymmetric_tests.dfy ===
/**
 * test_c040 (`psa_asymmetric_decrypt`) and test_c042
 * (`psa_asymmetric_verify`): a positive test that imports each vector's key
 * and checks the operation's answer, and a negative test that checks that a
 * handle naming no key, and handle 0, are refused.
 */
module AsymmetricTests {
  import opened Base
  import opened Status
  import opened CryptoTypes
  import opened Harness
  import opened KeyManagement
  import opened KeyMaterial

  /** `SIZE_128B`: the static output buffer of test_c040. */
  const OUTPUT_SIZE: nat := 128

  /** `return VAL_STATUS_INVALID` from inside the loop. */
  const INVALID: Verdict := Returned(ValInvalid)

  /** The key a positive test imports, once its policy is set on a blank record and its data imports. */
  function PolicyKey(e: Engine, t: KeyType, alg: Alg, usage: set<Usage>, data: seq<byte>): (k: Key)
    ensures k.attributes.keyType == t && k.attributes.alg == alg && k.attributes.usage == usage
    ensures k.material == data
  {
    var parsed := e.parse(t, data);
    Key(KeyAttributes(t, 0, 0, usage, alg, if parsed.Parsed? then parsed.bits else 0), data)
  }

  /**
   * Select the key data (returning `VAL_STATUS_INVALID` for an RSA size the
   * test does not know), set the policy and import (checkpoint 3). Yields the
   * import and the attributes record.
   */
  function ImportForTest(e: Engine, tables: KeyTables, st: ClientState, t: KeyType, alg: Alg, usage: set<Usage>,
                         expectedBits: nat, own: seq<byte>, keyLength: nat): (f: Flow<(Imported, KeyAttributes)>)
    ensures SelectKeyData(tables, t, expectedBits, own, true).None? ==> f == Exit(INVALID)
    ensures f.Exit? ==> f.verdict in {INVALID, AssertFailed(3)}
    ensures f.Next? ==> f.state.0.status == Success && f.state.1 == SetPolicy(st.attributes, t, alg, usage)
    ensures Blank(st.attributes) && SelectKeyData(tables, t, expectedBits, own, true).Some? ==>
              var data := Take(SelectKeyData(tables, t, expectedBits, own, true).value, keyLength);
              && (f.Next? <==> ImportStatus(e, KeyAttributes(t, 0, 0, usage, alg, 0), data) == Success)
              && (f.Next? ==> f.state.0.handle in f.state.0.store.slots
                              && f.state.0.store.slots[f.state.0.handle] == PolicyKey(e, t, alg, usage, data))
  {
    var selected := SelectKeyData(tables, t, expectedBits, own, true);
    if selected.None? then Exit(INVALID) else
    var attributes := SetPolicy(st.attributes, t, alg, usage);
    var imported := Import(st.store, e, attributes, Take(selected.value, keyLength));
    :- Expect(imported.status == Success, 3);
    Next((imported, attributes))
  }

  // ---------------------------------------------------------------- test_c040

  /** One entry of test_c040's vector tables. */
  datatype DecryptVector = DecryptVector(
    keyType: KeyType,
    keyAlg: Alg,
    usage: set<Usage>,
    keyData: seq<byte>,
    keyLength: nat,
    expectedBitLength: nat,
    keyHandle: Handle,
    input: seq<byte>,
    inputLength: nat,
    salt: Salt,
    outputSize: nat,
    expectedStatus: PsaStatus,
    expectedOutputLength: nat,
    expectedOutput: seq<byte>)

  /**
   * One iteration of `psa_asymmetric_decrypt_test`: import, normalise the
   * salt, decrypt into the zeroed output buffer (checkpoint 6); then destroy
   * (checkpoint 7) on an expected failure, or compare the length
   * (checkpoint 8) and bytes (checkpoint 9), destroy (checkpoint 10) and
   * reset the attributes.
   */
  function DecryptCheck(e: Engine, tables: KeyTables, v: DecryptVector, st: ClientState): (f: Flow<ClientState>)
    ensures f.Exit? ==> f.verdict == INVALID || (f.verdict.AssertFailed? && 3 <= f.verdict.checkpoint <= 10)
  {
    var prepared :- ImportForTest(e, tables, st, v.keyType, v.keyAlg, v.usage, v.expectedBitLength, v.keyData, v.keyLength);
    var imported := prepared.0;
    var salt := NormalizeSalt(v.salt).1;
    var answer := AsymmetricDecrypt(imported.store, e, imported.handle, v.keyAlg,
                                    Take(v.input, v.inputLength), salt, v.outputSize);
    var output := WriteAt(Zeros(OUTPUT_SIZE), 0, answer.output);
    :- Expect(answer.status == v.expectedStatus, 6);
    if v.expectedStatus != Success then
      var destroyed := Destroy(imported.store, imported.handle);
      :- Expect(destroyed.status == Success, 7);
      Next(ClientState(destroyed.store, prepared.1))
    else
      var length := |answer.output|;
      :- Expect(length == v.expectedOutputLength, 8);
      :- Expect(SameBytes(output, v.expectedOutput, length), 9);
      var destroyed := Destroy(imported.store, imported.handle);
      :- Expect(destroyed.status == Success, 10);
      Next(ClientState(destroyed.store, ResetKeyAttributes(prepared.1)))
  }

  /** The body of the loop of `psa_asymmetric_decrypt_test`. */
  function DecryptStep(e: Engine, tables: KeyTables): (DecryptVector, ClientState) -> Flow<ClientState>
  {
    (v, s) => DecryptCheck(e, tables, v, s)
  }

  /**
   * `psa_asymmetric_decrypt_test`. Against the reference it passes exactly
   * when the table is non-empty, the platform services succeed in every
   * iteration and every vector agrees with the reference.
   */
  function DecryptTest(vs: seq<DecryptVector>, p: Platform, e: Engine, tables: KeyTables, ks: KeyStore): (v: Verdict)
    ensures v == PASS <==>
              && |vs| > 0
              && p.cryptoInit == Success
              && Rearms(p, |vs|)
              && forall j | 0 <= j < |vs| :: DecryptAgrees(e, tables, vs[j])
  {
    DecryptTestPassesIff(vs, p, e, tables, ks);
    CryptoTest(vs, p, ClientState(ks, KEY_ATTRIBUTES_INIT), DecryptStep(e, tables))
  }

  /**
   * What the reference answers for a decryption vector: the selected data
   * imports; decryption with the normalised salt answers the vector's
   * status; and on success the output has the expected length and bytes.
   */
  predicate DecryptAgrees(e: Engine, tables: KeyTables, v: DecryptVector)
  {
    var selected := SelectKeyData(tables, v.keyType, v.expectedBitLength, v.keyData, true);
    && selected.Some?
    && var data := Take(selected.value, v.keyLength);
       var key := PolicyKey(e, v.keyType, v.keyAlg, v.usage, data);
       var answer := DecryptWithKey(e, key, v.keyAlg, Take(v.input, v.inputLength), NormalizeSalt(v.salt).1, v.outputSize);
       && ImportStatus(e, KeyAttributes(v.keyType, 0, 0, v.usage, v.keyAlg, 0), data) == Success
       && answer.status == v.expectedStatus
       && (v.expectedStatus == Success ==>
             && |answer.output| == v.expectedOutputLength
             && SameBytes(answer.output, v.expectedOutput, |answer.output|))
  }

  /** The states the positive tests reach: only the policy fields of the attributes record are ever set. */
  predicate PolicyOnly(st: ClientState)
  {
    Blank(st.attributes)
  }

  /** Against the reference, from a policy-only state, one iteration completes exactly when the vector agrees. */
  lemma ReferenceDecryptCheck(e: Engine, tables: KeyTables, v: DecryptVector, st: ClientState)
    requires PolicyOnly(st)
    ensures DecryptCheck(e, tables, v, st).Next? <==> DecryptAgrees(e, tables, v)
    ensures DecryptCheck(e, tables, v, st).Next? ==> PolicyOnly(DecryptCheck(e, tables, v, st).state)
  {
    var prepared := ImportForTest(e, tables, st, v.keyType, v.keyAlg, v.usage, v.expectedBitLength, v.keyData, v.keyLength);
    if prepared.Next? {
      var imported := prepared.state.0;
      var answer := AsymmetricDecrypt(imported.store, e, imported.handle, v.keyAlg,
                                      Take(v.input, v.inputLength), NormalizeSalt(v.salt).1, v.outputSize);
      var output := WriteAt(Zeros(OUTPUT_SIZE), 0, answer.output);
      assert output[..|answer.output|] == answer.output by {
        assert output[0..|answer.output|] == answer.output;
      }
    }
  }

  /**
   * test_c040's positive test passes against the reference exactly when the
   * table is non-empty, the platform services succeed in every iteration and
   * every vector agrees with the reference.
   */
  lemma DecryptTestPassesIff(vs: seq<DecryptVector>, p: Platform, e: Engine, tables: KeyTables, ks: KeyStore)
    ensures CryptoTest(vs, p, ClientState(ks, KEY_ATTRIBUTES_INIT), DecryptStep(e, tables)) == PASS <==>
              && |vs| > 0
              && p.cryptoInit == Success
              && Rearms(p, |vs|)
              && forall j | 0 <= j < |vs| :: DecryptAgrees(e, tables, vs[j])
  {
    var check := DecryptStep(e, tables);
    var ok := (v: DecryptVector) => DecryptAgrees(e, tables, v);
    forall v, t | PolicyOnly(t)
      ensures check(v, t).Next? <==> ok(v)
      ensures check(v, t).Next? ==> PolicyOnly(check(v, t).state)
    {
      ReferenceDecryptCheck(e, tables, v, t);
    }
    CryptoTestPassesIff(vs, p, ClientState(ks, KEY_ATTRIBUTES_INIT), check, PolicyOnly, ok);
  }

  /**
   * The salt bytes the negative test passes. It normalises the negative
   * vector's own salt field, but as written then points at the salt of the
   * positive vector with the same index (`paired`), read for the negative
   * vector's length.
   */
  function NegativeSaltAsWritten(v: DecryptVector, paired: seq<byte>): (salt: seq<byte>)
    ensures AllZero(Take(v.salt.bytes, v.salt.length)) ==> salt == []
    ensures !AllZero(Take(v.salt.bytes, v.salt.length)) ==> salt == Take(paired, v.salt.length)
  {
    if NormalizeSalt(v.salt).1 == [] then [] else Take(paired, v.salt.length)
  }

  /** The salt bytes the negative test evidently means to pass: the negative vector's own. */
  function NegativeSalt(v: DecryptVector): (salt: seq<byte>)
    ensures salt == [] <==> AllZero(Take(v.salt.bytes, v.salt.length))
    ensures salt != [] ==> salt == Take(v.salt.bytes, v.salt.length)
  {
    NormalizeSalt(v.salt).1
  }

  /** A negative vector whose own salt is `[1]`, paired with a positive vector whose salt is `[2]`: the test as written passes `[2]`. */
  lemma NegativeSaltMismatch()
    ensures var v := DecryptVector(RsaKeyPair, NoAlg, {}, [], 0, 0, 7, [], 0, Salt([1], 1), 0, ErrorInvalidHandle, 0, []);
            NegativeSaltAsWritten(v, [2]) == [2] && NegativeSalt(v) == [1]
  {
    var v := DecryptVector(RsaKeyPair, NoAlg, {}, [], 0, 0, 7, [], 0, Salt([1], 1), 0, ErrorInvalidHandle, 0, []);
    assert !AllZero(Take(v.salt.bytes, v.salt.length)) by {
      assert Take(v.salt.bytes, v.salt.length)[0] == 1;
    }
  }

  /**
   * One iteration of `psa_asymmetric_decrypt_negative_test`, with the salt
   * it passes: decrypting with the vector's handle (checkpoint 3) and with
   * handle 0 (checkpoint 4) must both report an invalid handle.
   */
  function DecryptNegativeCheck(e: Engine, v: DecryptVector, salt: seq<byte>, ks: KeyStore): (f: Flow<KeyStore>)
    ensures f.Next? ==> f.state == ks
    ensures f.Exit? ==> f.verdict in {AssertFailed(3), AssertFailed(4)}
    // the salt cannot matter: a handle that names no key is refused before anything else is looked at
    ensures ks.Valid() && e.HandlesOwned() ==> (f.Next? <==> v.keyHandle !in ks.slots)
  {
    var answer := AsymmetricDecrypt(ks, e, v.keyHandle, v.keyAlg, Take(v.input, v.inputLength), salt, v.outputSize);
    :- Expect(answer.status == ErrorInvalidHandle, 3);
    var zero := AsymmetricDecrypt(ks, e, 0, v.keyAlg, Take(v.input, v.inputLength), salt, v.outputSize);
    :- Expect(zero.status == ErrorInvalidHandle, 4);
    Next(ks)
  }

  /**
   * The slip cannot change the verdict: against a valid store and an engine
   * that leaves handles to the store, the handle is refused before the salt
   * is looked at, whichever salt is passed.
   */
  lemma SaltSlipHarmless(e: Engine, v: DecryptVector, paired: seq<byte>, ks: KeyStore)
    requires ks.Valid() && e.HandlesOwned()
    ensures DecryptNegativeCheck(e, v, NegativeSaltAsWritten(v, paired), ks) == DecryptNegativeCheck(e, v, NegativeSalt(v), ks)
  {
  }

  /** The body of the loop of `psa_asymmetric_decrypt_negative_test`, with the salt it evidently means to pass. */
  function DecryptNegativeStep(e: Engine): (DecryptVector, KeyStore) -> Flow<KeyStore>
  {
    (v, s) => DecryptNegativeCheck(e, v, NegativeSalt(v), s)
  }

  /**
   * `psa_asymmetric_decrypt_negative_test` with the salt it evidently means
   * to pass. Against a valid store and an engine that leaves handles to the
   * store, it passes exactly when the library initialises, the watchdog
   * rearms in every iteration and no vector's handle names a key. An empty
   * table passes.
   */
  function DecryptNegativeTest(vs: seq<DecryptVector>, p: Platform, e: Engine, ks: KeyStore): (v: Verdict)
    ensures ks.Valid() && e.HandlesOwned() ==>
              (v == PASS <==>
                 && p.cryptoInit == Success
                 && Rearms(p, |vs|)
                 && forall j | 0 <= j < |vs| :: vs[j].keyHandle !in ks.slots)
  {
    DecryptNegativeTestPassesIff(vs, p, e, ks);
    RunChecks(vs, p, ks, DecryptNegativeStep(e))
  }

  /** One iteration of the negative loop as written: the negative vector and the salt bytes of the positive vector with the same index. */
  datatype NegativeEntry = NegativeEntry(v: DecryptVector, paired: seq<byte>)

  /**
   * The negative loop as written reads `check1[i].salt` only for a vector
   * whose own salt is not all zero; every such vector has a positive vector
   * with the same index.
   */
  predicate PairedReadable(vs: seq<DecryptVector>, positive: seq<DecryptVector>)
  {
    forall j | |positive| <= j < |vs| :: AllZero(Take(vs[j].salt.bytes, vs[j].salt.length))
  }

  /**
   * Each negative vector beside the salt bytes of the positive vector with
   * the same index (`check1[i].salt`), where there is one; a vector past the
   * end of the positive table gets no bytes, which the test never reads.
   */
  function PairWithPositive(vs: seq<DecryptVector>, positive: seq<DecryptVector>): (es: seq<NegativeEntry>)
    requires PairedReadable(vs, positive)
    ensures |es| == |vs|
    ensures forall j | 0 <= j < |vs| :: es[j].v == vs[j]
    ensures forall j | 0 <= j < |vs| && j < |positive| :: es[j].paired == positive[j].salt.bytes
  {
    seq(|vs|, j requires 0 <= j < |vs| => NegativeEntry(vs[j], if j < |positive| then positive[j].salt.bytes else []))
  }

  /** The body of the loop of `psa_asymmetric_decrypt_negative_test` as written, salt slip included. */
  function DecryptNegativeStepAsWritten(e: Engine): (NegativeEntry, KeyStore) -> Flow<KeyStore>
  {
    (n: NegativeEntry, s: KeyStore) => DecryptNegativeCheck(e, n.v, NegativeSaltAsWritten(n.v, n.paired), s)
  }

  /**
   * `psa_asymmetric_decrypt_negative_test` as written, with `positive` the
   * table of the positive test, whose salts it reads with the negative
   * loop's counter whenever a negative vector's own salt is not all zero.
   * Against a valid store and an engine that leaves handles to the store, it
   * reports the same verdict as the test with the intended salt.
   */
  function DecryptNegativeTestAsWritten(vs: seq<DecryptVector>, positive: seq<DecryptVector>, p: Platform,
                                        e: Engine, ks: KeyStore): (v: Verdict)
    requires PairedReadable(vs, positive)
    ensures ks.Valid() && e.HandlesOwned() ==> v == DecryptNegativeTest(vs, p, e, ks)
  {
    SaltSlipHarmlessInLoop(vs, positive, p, e, ks);
    RunChecks(PairWithPositive(vs, positive), p, ks, DecryptNegativeStepAsWritten(e))
  }

  /**
   * `SaltSlipHarmless` for the whole loop: against a valid store and an
   * engine that leaves handles to the store, the loop as written and the
   * loop with the intended salt report the same verdict.
   */
  lemma SaltSlipHarmlessInLoop(vs: seq<DecryptVector>, positive: seq<DecryptVector>, p: Platform, e: Engine, ks: KeyStore)
    requires PairedReadable(vs, positive)
    ensures ks.Valid() && e.HandlesOwned() ==>
              RunChecks(PairWithPositive(vs, positive), p, ks, DecryptNegativeStepAsWritten(e)) ==
              RunChecks(vs, p, ks, DecryptNegativeStep(e))
  {
    if ks.Valid() && e.HandlesOwned() {
      var es := PairWithPositive(vs, positive);
      var asWritten := DecryptNegativeStepAsWritten(e);
      var intended := DecryptNegativeStep(e);
      var inv := (s: KeyStore) => s == ks;
      forall j, t | 0 <= j < |es| && inv(t)
        ensures asWritten(es[j], t) == intended(vs[j], t)
      {
        SaltSlipHarmless(e, vs[j], es[j].paired, ks);
      }
      RunChecksAgree(es, vs, p, ks, asWritten, intended, inv);
    }
  }

  /** The pass condition of `DecryptNegativeTest`, for the frame run with its loop body. */
  lemma DecryptNegativeTestPassesIff(vs: seq<DecryptVector>, p: Platform, e: Engine, ks: KeyStore)
    ensures ks.Valid() && e.HandlesOwned() ==>
              (RunChecks(vs, p, ks, DecryptNegativeStep(e)) == PASS <==>
                 && p.cryptoInit == Success
                 && Rearms(p, |vs|)
                 && forall j | 0 <= j < |vs| :: vs[j].keyHandle !in ks.slots)
  {
    if ks.Valid() && e.HandlesOwned() {
      var check := DecryptNegativeStep(e);
      var inv := (s: KeyStore) => s == ks;
      var ok := (v: DecryptVector) => v.keyHandle !in ks.slots;
      RunChecksPassesIff(vs, p, ks, check, inv, ok);
    }
  }

  // ---------------------------------------------------------------- test_c042

  /** One entry of test_c042's vector tables. */
  datatype VerifyVector = VerifyVector(
    keyType: KeyType,
    keyAlg: Alg,
    usage: set<Usage>,
    keyData: seq<byte>,
    keyLength: nat,
    expectedBitLength: nat,
    keyHandle: Handle,
    input: seq<byte>,
    inputLength: nat,
    signature: seq<byte>,
    signatureSize: nat,
    expectedStatus: PsaStatus)

  /**
   * One iteration of `psa_asymmetric_verify_test`: import, verify
   * (checkpoint 4), then destroy the key whatever the outcome (checkpoint 5).
   * The attributes are never reset.
   */
  function VerifyCheck(e: Engine, tables: KeyTables, v: VerifyVector, st: ClientState): (f: Flow<ClientState>)
    ensures f.Exit? ==> f.verdict == INVALID || (f.verdict.AssertFailed? && 3 <= f.verdict.checkpoint <= 5)
  {
    var prepared :- ImportForTest(e, tables, st, v.keyType, v.keyAlg, v.usage, v.expectedBitLength, v.keyData, v.keyLength);
    var imported := prepared.0;
    var status := AsymmetricVerify(imported.store, e, imported.handle, v.keyAlg,
                                   Take(v.input, v.inputLength), Take(v.signature, v.signatureSize));
    :- Expect(status == v.expectedStatus, 4);
    var destroyed := Destroy(imported.store, imported.handle);
    :- Expect(destroyed.status == Success, 5);
    Next(ClientState(destroyed.store, prepared.1))
  }

  /** The body of the loop of `psa_asymmetric_verify_test`. */
  function VerifyStep(e: Engine, tables: KeyTables): (VerifyVector, ClientState) -> Flow<ClientState>
  {
    (v, s) => VerifyCheck(e, tables, v, s)
  }

  /**
   * `psa_asymmetric_verify_test`. Against the reference it passes exactly
   * when the table is non-empty, the platform services succeed in every
   * iteration and every vector agrees with the reference.
   */
  function VerifyTest(vs: seq<VerifyVector>, p: Platform, e: Engine, tables: KeyTables, ks: KeyStore): (v: Verdict)
    ensures v == PASS <==>
              && |vs| > 0
              && p.cryptoInit == Success
              && Rearms(p, |vs|)
              && forall j | 0 <= j < |vs| :: VerifyAgrees(e, tables, vs[j])
  {
    VerifyTestPassesIff(vs, p, e, tables, ks);
    CryptoTest(vs, p, ClientState(ks, KEY_ATTRIBUTES_INIT), VerifyStep(e, tables))
  }

  /** What the reference answers for a verification vector: the selected data imports and the verification answers the vector's status. */
  predicate VerifyAgrees(e: Engine, tables: KeyTables, v: VerifyVector)
  {
    var selected := SelectKeyData(tables, v.keyType, v.expectedBitLength, v.keyData, true);
    && selected.Some?
    && var data := Take(selected.value, v.keyLength);
       && ImportStatus(e, KeyAttributes(v.keyType, 0, 0, v.usage, v.keyAlg, 0), data) == Success
       && VerifyWithKey(e, PolicyKey(e, v.keyType, v.keyAlg, v.usage, data), v.keyAlg,
                        Take(v.input, v.inputLength), Take(v.signature, v.signatureSize)) == v.expectedStatus
  }

  /** Against the reference, from a policy-only state, one iteration completes exactly when the vector agrees. */
  lemma ReferenceVerifyCheck(e: Engine, tables: KeyTables, v: VerifyVector, st: ClientState)
    requires PolicyOnly(st)
    ensures VerifyCheck(e, tables, v, st).Next? <==> VerifyAgrees(e, tables, v)
    ensures VerifyCheck(e, tables, v, st).Next? ==> PolicyOnly(VerifyCheck(e, tables, v, st).state)
  {
    var prepared := ImportForTest(e, tables, st, v.keyType, v.keyAlg, v.usage, v.expectedBitLength, v.keyData, v.keyLength);
  }

  /**
   * test_c042's positive test passes against the reference exactly when the
   * table is non-empty, the platform services succeed in every iteration and
   * every vector agrees with the reference.
   */
  lemma VerifyTestPassesIff(vs: seq<VerifyVector>, p: Platform, e: Engine, tables: KeyTables, ks: KeyStore)
    ensures CryptoTest(vs, p, ClientState(ks, KEY_ATTRIBUTES_INIT), VerifyStep(e, tables)) == PASS <==>
              && |vs| > 0
              && p.cryptoInit == Success
              && Rearms(p, |vs|)
              && forall j | 0 <= j < |vs| :: VerifyAgrees(e, tables, vs[j])
  {
    var check := VerifyStep(e, tables);
    var ok := (v: VerifyVector) => VerifyAgrees(e, tables, v);
    forall v, t | PolicyOnly(t)
      ensures check(v, t).Next? <==> ok(v)
      ensures check(v, t).Next? ==> PolicyOnly(check(v, t).state)
    {
      ReferenceVerifyCheck(e, tables, v, t);
    }
    CryptoTestPassesIff(vs, p, ClientState(ks, KEY_ATTRIBUTES_INIT), check, PolicyOnly, ok);
  }

  /**
   * One iteration of `psa_asymmetric_verify_negative_test`: verifying with
   * the vector's handle (checkpoint 3) and with handle 0 (checkpoint 4) must
   * both report an invalid handle.
   */
  function VerifyNegativeCheck(e: Engine, v: VerifyVector, ks: KeyStore): (f: Flow<KeyStore>)
    ensures f.Next? ==> f.state == ks
    ensures f.Exit? ==> f.verdict in {AssertFailed(3), AssertFailed(4)}
    ensures ks.Valid() && e.HandlesOwned() ==> (f.Next? <==> v.keyHandle !in ks.slots)
  {
    var input := Take(v.input, v.inputLength);
    var signature := Take(v.signature, v.signatureSize);
    :- Expect(AsymmetricVerify(ks, e, v.keyHandle, v.keyAlg, input, signature) == ErrorInvalidHandle, 3);
    :- Expect(AsymmetricVerify(ks, e, 0, v.keyAlg, input, signature) == ErrorInvalidHandle, 4);
    Next(ks)
  }

  /** The body of the loop of `psa_asymmetric_verify_negative_test`. */
  function VerifyNegativeStep(e: Engine): (VerifyVector, KeyStore) -> Flow<KeyStore>
  {
    (v, s) => VerifyNegativeCheck(e, v, s)
  }

  /**
   * `psa_asymmetric_verify_negative_test`. Against a valid store and an
   * engine that leaves handles to the store, it passes exactly when the
   * library initialises, the watchdog rearms in every iteration and no
   * vector's handle names a key. An empty table passes.
   */
  function VerifyNegativeTest(vs: seq<VerifyVector>, p: Platform, e: Engine, ks: KeyStore): (v: Verdict)
    ensures ks.Valid() && e.HandlesOwned() ==>
              (v == PASS <==>
                 && p.cryptoInit == Success
                 && Rearms(p, |vs|)
                 && forall j | 0 <= j < |vs| :: vs[j].keyHandle !in ks.slots)
  {
    VerifyNegativeTestPassesIff(vs, p, e, ks);
    RunChecks(vs, p, ks, VerifyNegativeStep(e))
  }

  /** The pass condition of `VerifyNegativeTest`, for the frame run with its loop body. */
  lemma VerifyNegativeTestPassesIff(vs: seq<VerifyVector>, p: Platform, e: Engine, ks: KeyStore)
    ensures ks.Valid() && e.HandlesOwned() ==>
              (RunChecks(vs, p, ks, VerifyNegativeStep(e)) == PASS <==>
                 && p.cryptoInit == Success
                 && Rearms(p, |vs|)
                 && forall j | 0 <= j < |vs| :: vs[j].keyHandle !in ks.slots)
  {
    if ks.Valid() && e.HandlesOwned() {
      var check := VerifyNegativeStep(e);
      var inv := (s: KeyStore) => s == ks;
      var ok := (v: VerifyVector) => v.keyHandle !in ks.slots;
      RunChecksPassesIff(vs, p, ks, check, inv, ok);
    }
  }
}

=== FILE: attributes_test.dfy ===
/**
 * test_c010, `psa_key_attributes_set_get_test`: one attributes record is
 * carried through every vector; each iteration checks that it reads as zero,
 * sets all six fields, checks that each getter returns what was set, resets
 * it and checks that it reads as zero again.
 */
module AttributesTest {
  import opened Status
  import opened CryptoTypes
  import opened Harness

  /** One entry of the vector table (the description string is left out). */
  datatype AttributesVector = AttributesVector(
    keyType: KeyType, attrBits: nat, usage: set<Usage>, keyId: nat, keyLifetime: nat, keyAlg: Alg)

  /** The body of one iteration, from the watchdog on; the state is the attributes record. */
  function AttributesCheck(v: AttributesVector, a: KeyAttributes): (f: Flow<KeyAttributes>)
    // a cleared record passes the check and is left cleared
    ensures a == KEY_ATTRIBUTES_INIT ==> f == Next(KEY_ATTRIBUTES_INIT)
    // a record that is not cleared fails one of the six zero checks
    ensures !IsCleared(a) ==>
              f.Exit? && f.verdict in {AssertFailed(3), AssertFailed(4), AssertFailed(5), AssertFailed(6), AssertFailed(7), AssertFailed(8)}
    ensures f.Exit? ==> f.verdict.AssertFailed?
  {
    var b := SetAll(a, v.keyType, v.attrBits, v.usage, v.keyId, v.keyLifetime, v.keyAlg);
    :- Expect(a.keyType == NoKeyType, 3);
    :- Expect(a.id == 0, 4);
    :- Expect(a.lifetime == 0, 5);
    :- Expect(a.usage == {}, 6);
    :- Expect(a.alg == NoAlg, 7);
    :- Expect(a.bits == 0, 8);
    :- Expect(b.keyType == v.keyType, 9);
    :- Expect(b.id == v.keyId, 10);
    :- Expect(b.lifetime == v.keyLifetime, 11);
    :- Expect(b.usage == v.usage, 12);
    :- Expect(b.alg == v.keyAlg, 13);
    :- Expect(b.bits == v.attrBits, 14);
    var c := ResetKeyAttributes(b);
    :- Expect(c.keyType == NoKeyType, 15);
    :- Expect(c.id == 0, 16);
    :- Expect(c.lifetime == 0, 17);
    :- Expect(c.usage == {}, 18);
    :- Expect(c.alg == NoAlg, 19);
    :- Expect(c.bits == 0, 20);
    Next(c)
  }

  /**
   * The test function, starting from `PSA_KEY_ATTRIBUTES_INIT`. Against the
   * reference attributes it can fail only through the platform: it passes
   * exactly when the table is non-empty and the platform services succeed
   * in every iteration, and otherwise reports the skip or the first service
   * that did not succeed.
   */
  function SetGetTest(vs: seq<AttributesVector>, p: Platform): (v: Verdict)
    ensures v == PASS <==> |vs| > 0 && p.cryptoInit == Success && Rearms(p, |vs|)
    ensures v != PASS ==> v in {Skipped(ValNoTests), AssertFailed(1), AssertFailed(2)}
  {
    SetGetTestVerdict(vs, p);
    CryptoTest(vs, p, KEY_ATTRIBUTES_INIT, AttributesCheck)
  }

  /** The verdicts of `SetGetTest`, for the frame run with `AttributesCheck`. */
  lemma SetGetTestVerdict(vs: seq<AttributesVector>, p: Platform)
    ensures CryptoTest(vs, p, KEY_ATTRIBUTES_INIT, AttributesCheck) == PASS <==>
              |vs| > 0 && p.cryptoInit == Success && Rearms(p, |vs|)
    ensures CryptoTest(vs, p, KEY_ATTRIBUTES_INIT, AttributesCheck) != PASS ==>
              CryptoTest(vs, p, KEY_ATTRIBUTES_INIT, AttributesCheck) in {Skipped(ValNoTests), AssertFailed(1), AssertFailed(2)}
  {
    var inv := (a: KeyAttributes) => a == KEY_ATTRIBUTES_INIT;
    var ok := (v: AttributesVector) => true;
    assert NoEarlyPass(AttributesCheck) by {
      forall v, a | AttributesCheck(v, a).Exit?
        ensures AttributesCheck(v, a).verdict != PASS
      {
      }
    }
    CryptoTestPassesIff(vs, p, KEY_ATTRIBUTES_INIT, AttributesCheck, inv, ok);
    if |vs| > 0 && p.cryptoInit == Success {
      var g := Guard(p, AttributesCheck);
      var outs := (r: Verdict) => r == AssertFailed(2);
      forall j, v, t | inv(t) && g(j, v, t).Next?
        ensures inv(g(j, v, t).state)
      {
      }
      forall j, v, t | inv(t) && g(j, v, t).Exit?
        ensures outs(g(j, v, t).verdict)
      {
      }
      LoopExitsWithin(vs, 0, KEY_ATTRIBUTES_INIT, g, inv, outs);
    }
  }
}

=== FILE: base.dfy ===
/**
 * Byte buffers as the test bodies use them: memset to zero, memcpy at an
 * offset, memcmp over a length.
 */
module Base {

  newtype byte = b: int | 0 <= b < 0x100

  datatype Option<+T> = None | Some(value: T)

  function Min(a: nat, b: nat): nat { if a <= b then a else b }

  /** The buffer `memset(buf, 0, n)` leaves behind. */
  function Zeros(n: nat): (z: seq<byte>)
    ensures |z| == n
    ensures forall i | 0 <= i < n :: z[i] == 0
  {
    seq(n, _ => 0)
  }

  /** Every byte of `s` is zero. */
  predicate AllZero(s: seq<byte>)
  {
    forall i | 0 <= i < |s| :: s[i] == 0
  }

  /**
   * The bytes a (pointer, length) pair designates. A length past the end of
   * the underlying array is clamped: the model does not read foreign memory.
   */
  function Take(s: seq<byte>, n: nat): (r: seq<byte>)
    ensures |r| == Min(n, |s|)
    ensures r == s[..Min(n, |s|)]
  {
    if n <= |s| then s[..n] else s
  }

  /**
   * `memcpy(buf + offset, data, |data|)`. Bytes before `offset` and bytes after
   * the copied range keep their values; a copy running past the end grows the
   * buffer instead of overflowing it.
   */
  function WriteAt(buf: seq<byte>, offset: nat, data: seq<byte>): (r: seq<byte>)
    requires offset <= |buf|
    ensures |r| == if offset + |data| <= |buf| then |buf| else offset + |data|
    ensures r[..offset] == buf[..offset]
    ensures r[offset..offset + |data|] == data
    ensures offset + |data| <= |buf| ==> r[offset + |data|..] == buf[offset + |data|..]
  {
    if offset + |data| <= |buf| then buf[..offset] + data + buf[offset + |data|..]
    else buf[..offset] + data
  }

  /**
   * `memcmp(a, b, n) == 0`. A comparison that would read past either buffer
   * counts as a mismatch.
   */
  predicate SameBytes(a: seq<byte>, b: seq<byte>, n: nat)
  {
    n <= |a| && n <= |b| && a[..n] == b[..n]
  }

  /** Copying right after a known prefix leaves the prefix followed by the copy at the front of the buffer. */
  lemma WriteAfter(buf: seq<byte>, prefix: seq<byte>, data: seq<byte>)
    requires |prefix| <= |buf| && buf[..|prefix|] == prefix
    ensures WriteAt(buf, |prefix|, data)[..|prefix| + |data|] == prefix + data
  {
    var r := WriteAt(buf, |prefix|, data);
    assert r[..|prefix| + |data|] == r[..|prefix|] + r[|prefix|..|prefix| + |data|];
  }

  /**
   * Two consecutive copies, the second starting where the first ended, leave
   * exactly their concatenation at the front of the buffer.
   */
  lemma WriteAtConsecutive(buf: seq<byte>, first: seq<byte>, second: seq<byte>)
    ensures |first| <= |WriteAt(buf, 0, first)|
    ensures WriteAt(WriteAt(buf, 0, first), |first|, second)[..|first| + |second|] == first + second
  {
    var b1 := WriteAt(buf, 0, first);
    assert b1[..|first|] == first by {
      assert b1[0..|first|] == first;
    }
    WriteAfter(b1, first, second);
  }
}

=== FILE: cipher_test.dfy ===
/**
 * test_c037, `psa_cipher_finish_test`: per vector, import a symmetric key,
 * set up a multipart encryption or decryption, set the IV, process the
 * input in one update, finish into the output buffer right after the update's
 * output, and compare; then check that finishing an operation that was never
 * set up is a bad-state error.
 */
module CipherTest {
  import opened Base
  import opened Status
  import opened CryptoTypes
  import opened Harness
  import opened KeyManagement
  import opened Operations
  import opened KeyMaterial

  /** `SIZE_32B`: the static output buffer. */
  const OUTPUT_SIZE: nat := 32

  /** One entry of the vector table; `updateSize` and `finishSize` are `output_size[SLOT_1]` and `output_size[SLOT_2]`. */
  datatype CipherVector = CipherVector(
    keyType: KeyType,
    keyAlg: Alg,
    usage: set<Usage>,
    keyData: seq<byte>,
    keyLength: nat,
    iv: seq<byte>,
    ivSize: nat,
    input: seq<byte>,
    inputLength: nat,
    updateSize: nat,
    finishSize: nat,
    expectedStatus: PsaStatus,
    expectedOutputLength: nat,
    expectedOutput: seq<byte>)

  /**
   * What survives from one vector to the next: the key slots, the caller's
   * attributes record, the static output buffer, and `invalid_operation`,
   * which is never set up.
   */
  datatype CipherState = CipherState(store: KeyStore, attributes: KeyAttributes, output: seq<byte>, invalid: CipherOp)

  /** The state before the first vector, with `invalid` holding whatever the uninitialised variable holds. */
  function InitialState(ks: KeyStore, invalid: CipherOp): (st: CipherState)
    ensures st.attributes == KEY_ATTRIBUTES_INIT && AllZero(st.output) && |st.output| == OUTPUT_SIZE
  {
    CipherState(ks, KEY_ATTRIBUTES_INIT, Zeros(OUTPUT_SIZE), invalid)
  }

  /**
   * The setup the vector's usage selects: encryption (checkpoint 4) for
   * exactly the encrypt flag, decryption (checkpoint 5) for exactly the
   * decrypt flag, and none at all otherwise.
   */
  function SetupFor(ks: KeyStore, h: Handle, v: CipherVector): (f: Flow<CipherOp>)
    ensures v.usage != {UsageEncrypt} && v.usage != {UsageDecrypt} ==> f == Next(CipherInactive)
    ensures v.usage == {UsageEncrypt} ==>
              f == (if CipherSetup(ks, CipherInactive, h, v.keyAlg, true).0 == Success
                    then Next(CipherSetup(ks, CipherInactive, h, v.keyAlg, true).1) else Exit(AssertFailed(4)))
    ensures v.usage == {UsageDecrypt} ==>
              f == (if CipherSetup(ks, CipherInactive, h, v.keyAlg, false).0 == Success
                    then Next(CipherSetup(ks, CipherInactive, h, v.keyAlg, false).1) else Exit(AssertFailed(5)))
  {
    if v.usage == {UsageEncrypt} then
      var r := CipherSetup(ks, CipherInactive, h, v.keyAlg, true);
      :- Expect(r.0 == Success, 4);
      Next(r.1)
    else if v.usage == {UsageDecrypt} then
      var r := CipherSetup(ks, CipherInactive, h, v.keyAlg, false);
      :- Expect(r.0 == Success, 5);
      Next(r.1)
    else Next(CipherInactive)
  }

  /**
   * The first half of an iteration: set the attributes, import the key
   * (checkpoint 3), set up the operation and set its IV (checkpoint 6).
   * Yields the import and the operation ready for data.
   */
  function Prepare(e: Engine, v: CipherVector, st: CipherState): (f: Flow<(Imported, CipherOp)>)
    ensures f.Exit? ==> f.verdict.AssertFailed? && 3 <= f.verdict.checkpoint <= 6
  {
    var attributes := SetPolicy(st.attributes, v.keyType, v.keyAlg, v.usage);
    var imported := Import(st.store, e, attributes, Take(v.keyData, v.keyLength));
    :- Expect(imported.status == Success, 3);
    var op :- SetupFor(imported.store, imported.handle, v);
    var withIv := CipherSetIv(op, Take(v.iv, v.ivSize));
    :- Expect(withIv.0 == Success, 6);
    Next((imported, withIv.1))
  }

  /**
   * The second half: one update into the start of the output buffer
   * (checkpoint 7), then the finish.
   */
  function Run(e: Engine, v: CipherVector, st: CipherState, imported: Imported, op: CipherOp): (f: Flow<CipherState>)
    ensures f.Exit? ==> f.verdict.AssertFailed? && 7 <= f.verdict.checkpoint <= 16
    ensures f.Next? ==> |f.state.output| >= |st.output|
  {
    var attributes := SetPolicy(st.attributes, v.keyType, v.keyAlg, v.usage);
    var update := CipherUpdate(e, op, Take(v.input, v.inputLength), v.updateSize);
    :- Expect(update.0.status == Success, 7);
    var afterUpdate := WriteAt(st.output, 0, update.0.output);
    FinishInto(e, v, st.(attributes := attributes, output := afterUpdate), imported, update.1, update.0.output)
  }

  /**
   * Finish right after the update's output (checkpoint 8), then abandon
   * (expected failure) or conclude.
   */
  function FinishInto(e: Engine, v: CipherVector, st: CipherState, imported: Imported, op: CipherOp,
                      updateOutput: seq<byte>): (f: Flow<CipherState>)
    requires |updateOutput| <= |st.output|
    ensures f.Exit? ==> f.verdict.AssertFailed? && 8 <= f.verdict.checkpoint <= 16
    ensures f.Next? ==> |f.state.output| >= |st.output|
  {
    var finish := CipherFinish(e, op, v.finishSize);
    :- Expect(finish.0.status == v.expectedStatus, 8);
    if v.expectedStatus != Success then
      Abandon(st, imported, finish.1)
    else
      var output := WriteAt(st.output, |updateOutput|, finish.0.output);
      Conclude(e, v, st.(output := output), imported, finish.1, |updateOutput|, |finish.0.output|)
  }

  /** After the expected failure: abort (checkpoint 9) and destroy the key (checkpoint 10). */
  function Abandon(st: CipherState, imported: Imported, op: CipherOp): (f: Flow<CipherState>)
    ensures f.Exit? ==> f.verdict in {AssertFailed(9), AssertFailed(10)}
    // a key that exists is destroyed, and nothing else the loop carries changes
    ensures imported.store.Valid() && imported.handle in imported.store.slots ==>
              && f.Next?
              && f.state == st.(store := f.state.store)
              && f.state.store.Valid()
              && imported.handle !in f.state.store.slots
  {
    var abort := CipherAbort(op);
    :- Expect(abort.0 == Success, 9);
    var destroyed := Destroy(imported.store, imported.handle);
    :- Expect(destroyed.status == Success, 10);
    Next(st.(store := destroyed.store))
  }

  /**
   * After a successful finish: compare the finish length (checkpoint 11) and
   * the `updateLength + finishLength` bytes of the buffer (checkpoint 12);
   * finish `invalid` (checkpoint 13); abort both operations (checkpoints 14
   * and 15); destroy the key (checkpoint 16); reset the attributes.
   */
  function Conclude(e: Engine, v: CipherVector, st: CipherState, imported: Imported, op: CipherOp,
                    updateLength: nat, finishLength: nat): (f: Flow<CipherState>)
    ensures f.Exit? ==> f.verdict.AssertFailed? && 11 <= f.verdict.checkpoint <= 16
    ensures f.Next? ==> f.state.output == st.output && f.state.invalid == CipherInactive && IsCleared(f.state.attributes)
    ensures st.invalid == CipherInactive && imported.handle in imported.store.slots ==>
              (f.Next? <==> finishLength == v.expectedOutputLength
                            && SameBytes(st.output, v.expectedOutput, updateLength + finishLength))
    ensures imported.store.Valid() && f.Next? ==> f.state.store.Valid() && imported.handle !in f.state.store.slots
  {
    var invalidFinish := CipherFinish(e, st.invalid, v.finishSize);
    :- Expect(finishLength == v.expectedOutputLength, 11);
    :- Expect(SameBytes(st.output, v.expectedOutput, updateLength + finishLength), 12);
    :- Expect(invalidFinish.0.status == ErrorBadState, 13);
    var abort := CipherAbort(op);
    :- Expect(abort.0 == Success, 14);
    var abortInvalid := CipherAbort(invalidFinish.1);
    :- Expect(abortInvalid.0 == Success, 15);
    var destroyed := Destroy(imported.store, imported.handle);
    :- Expect(destroyed.status == Success, 16);
    Next(CipherState(destroyed.store, ResetKeyAttributes(st.attributes), st.output, abortInvalid.1))
  }

  /** The body of one iteration, from the attribute setters on. */
  function FinishCheck(e: Engine, v: CipherVector, st: CipherState): (f: Flow<CipherState>)
    ensures f.Exit? ==> f.verdict.AssertFailed? && 3 <= f.verdict.checkpoint <= 16
    ensures f.Next? ==> |f.state.output| >= |st.output|
  {
    var prepared :- Prepare(e, v, st);
    Run(e, v, st, prepared.0, prepared.1)
  }

  /** The body of the loop of `psa_cipher_finish_test`. */
  function FinishStep(e: Engine): (CipherVector, CipherState) -> Flow<CipherState>
  {
    (v, s) => FinishCheck(e, v, s)
  }

  /**
   * `psa_cipher_finish_test`, with `invalid` the initial contents of
   * `invalid_operation`. With that operation zero-initialised and a
   * well-formed key store, it passes exactly when the table is non-empty,
   * the platform services succeed in every iteration and every vector
   * agrees with the reference.
   */
  function FinishTest(vs: seq<CipherVector>, p: Platform, e: Engine, ks: KeyStore, invalid: CipherOp): (v: Verdict)
    ensures ks.Valid() && invalid == CipherInactive ==>
              (v == PASS <==>
                 && |vs| > 0
                 && p.cryptoInit == Success
                 && Rearms(p, |vs|)
                 && forall j | 0 <= j < |vs| :: FinishAgrees(e, vs[j]))
  {
    if ks.Valid() && invalid.CipherInactive? then
      FinishTestPassesIff(vs, p, e, ks);
      CryptoTest(vs, p, InitialState(ks, CipherInactive), FinishStep(e))
    else
      CryptoTest(vs, p, InitialState(ks, invalid), FinishStep(e))
  }

  /** The reference's answer to finishing into `size` bytes, given the engine's answer. */
  function FinishStatus(a: Answer, size: nat): (status: PsaStatus)
    ensures status == Success <==> a.status == Success && |a.output| <= size
  {
    if a.status != Success then a.status else if |a.output| > size then ErrorBufferTooSmall else Success
  }

  /** The key the reference stores for a vector, once its data imports. */
  function VectorKey(e: Engine, v: CipherVector): (k: Key)
    ensures k.attributes.keyType == v.keyType && k.attributes.usage == v.usage && k.attributes.alg == v.keyAlg
    ensures k.material == Take(v.keyData, v.keyLength)
  {
    var data := Take(v.keyData, v.keyLength);
    var parsed := e.parse(v.keyType, data);
    Key(KeyAttributes(v.keyType, 0, 0, v.usage, v.keyAlg, if parsed.Parsed? then parsed.bits else 0), data)
  }

  /**
   * What the engine answers for a vector's key: the update succeeds within
   * its buffer and the finish completes after its output.
   */
  predicate EngineAgrees(e: Engine, v: CipherVector, key: Key)
  {
    var update := e.cipherUpdate(key, v.keyAlg, v.usage == {UsageEncrypt}, Take(v.iv, v.ivSize), [],
                                 Take(v.input, v.inputLength));
    && update.status == Success
    && |update.output| <= v.updateSize
    && FinishCompletes(e, v, key, update.output)
  }

  /**
   * The finish after `updateOutput` answers the vector's status, and on
   * success its output has the expected length and the two outputs together
   * begin the expected output.
   */
  predicate FinishCompletes(e: Engine, v: CipherVector, key: Key, updateOutput: seq<byte>)
  {
    var finish := e.cipherFinish(key, v.keyAlg, v.usage == {UsageEncrypt}, Take(v.iv, v.ivSize),
                                 Take(v.input, v.inputLength));
    && FinishStatus(finish, v.finishSize) == v.expectedStatus
    && (v.expectedStatus == Success ==>
          && |finish.output| == v.expectedOutputLength
          && SameBytes(updateOutput + finish.output, v.expectedOutput, |updateOutput| + |finish.output|))
  }

  /**
   * What the reference answers for a vector: the key imports, its usage is
   * exactly one direction, and the engine agrees on the stored key.
   */
  predicate FinishAgrees(e: Engine, v: CipherVector)
  {
    && ImportStatus(e, KeyAttributes(v.keyType, 0, 0, v.usage, v.keyAlg, 0), Take(v.keyData, v.keyLength)) == Success
    && (v.usage == {UsageEncrypt} || v.usage == {UsageDecrypt})
    && EngineAgrees(e, v, VectorKey(e, v))
  }

  /** The states the loop reaches from a zero attributes record and a zeroed `invalid_operation`. */
  predicate Settled(st: CipherState)
  {
    st.store.Valid() && Blank(st.attributes) && st.invalid == CipherInactive
  }

  /**
   * Against the reference, from a settled state, preparation succeeds
   * exactly when the key imports and its usage is one direction, and yields
   * a fresh operation on the stored key with the vector's IV.
   */
  lemma ReferencePrepare(e: Engine, v: CipherVector, st: CipherState)
    requires Settled(st)
    ensures Prepare(e, v, st).Next? <==>
              && ImportStatus(e, KeyAttributes(v.keyType, 0, 0, v.usage, v.keyAlg, 0), Take(v.keyData, v.keyLength)) == Success
              && (v.usage == {UsageEncrypt} || v.usage == {UsageDecrypt})
    ensures Prepare(e, v, st).Next? ==>
              var imported := Prepare(e, v, st).state.0;
              && imported.store.Valid()
              && imported.handle in imported.store.slots
              && Prepare(e, v, st).state.1 ==
                   CipherActive(VectorKey(e, v), v.keyAlg, v.usage == {UsageEncrypt}, Some(Take(v.iv, v.ivSize)), [])
  {
    var attributes := SetPolicy(st.attributes, v.keyType, v.keyAlg, v.usage);
    assert attributes == KeyAttributes(v.keyType, 0, 0, v.usage, v.keyAlg, 0);
  }

  /**
   * Against the reference, from a settled state and a prepared operation on
   * the vector's key, the rest of the iteration completes exactly when the
   * engine agrees, and leaves the state settled.
   */
  lemma ReferenceRun(e: Engine, v: CipherVector, st: CipherState, imported: Imported)
    requires Settled(st)
    requires imported.store.Valid() && imported.handle in imported.store.slots
    ensures var op := CipherActive(VectorKey(e, v), v.keyAlg, v.usage == {UsageEncrypt}, Some(Take(v.iv, v.ivSize)), []);
            && (Run(e, v, st, imported, op).Next? <==> EngineAgrees(e, v, VectorKey(e, v)))
            && (Run(e, v, st, imported, op).Next? ==> Settled(Run(e, v, st, imported, op).state))
  {
    var key := VectorKey(e, v);
    var encrypt := v.usage == {UsageEncrypt};
    var iv := Take(v.iv, v.ivSize);
    var input := Take(v.input, v.inputLength);
    var op := CipherActive(key, v.keyAlg, encrypt, Some(iv), []);
    var u := e.cipherUpdate(key, v.keyAlg, encrypt, iv, [], input);
    if u.status == Success && |u.output| <= v.updateSize {
      ReferenceRunUpdated(e, v, st, imported);
    } else {
      var update := CipherUpdate(e, op, input, v.updateSize);
      assert update.0.status != Success;
      assert Run(e, v, st, imported, op) == Exit(AssertFailed(7));
    }
  }

  /** `ReferenceRun` once the update has succeeded within its buffer. */
  lemma ReferenceRunUpdated(e: Engine, v: CipherVector, st: CipherState, imported: Imported)
    requires Settled(st)
    requires imported.store.Valid() && imported.handle in imported.store.slots
    requires var u := e.cipherUpdate(VectorKey(e, v), v.keyAlg, v.usage == {UsageEncrypt}, Take(v.iv, v.ivSize), [],
                                     Take(v.input, v.inputLength));
             u.status == Success && |u.output| <= v.updateSize
    ensures var op := CipherActive(VectorKey(e, v), v.keyAlg, v.usage == {UsageEncrypt}, Some(Take(v.iv, v.ivSize)), []);
            && (Run(e, v, st, imported, op).Next? <==> EngineAgrees(e, v, VectorKey(e, v)))
            && (Run(e, v, st, imported, op).Next? ==> Settled(Run(e, v, st, imported, op).state))
  {
    var key := VectorKey(e, v);
    var encrypt := v.usage == {UsageEncrypt};
    var iv := Take(v.iv, v.ivSize);
    var input := Take(v.input, v.inputLength);
    var u := e.cipherUpdate(key, v.keyAlg, encrypt, iv, [], input);
    var st' := st.(attributes := SetPolicy(st.attributes, v.keyType, v.keyAlg, v.usage),
                   output := WriteAt(st.output, 0, u.output));
    assert st'.output[..|u.output|] == u.output by {
      assert st'.output[0..|u.output|] == u.output;
    }
    RunUpdates(e, v, st, imported);
    ReferenceFinishInto(e, v, st', imported, u.output);
  }

  /** A successful update writes its output at the start of the buffer and leaves the finish to go. */
  lemma RunUpdates(e: Engine, v: CipherVector, st: CipherState, imported: Imported)
    requires var u := e.cipherUpdate(VectorKey(e, v), v.keyAlg, v.usage == {UsageEncrypt}, Take(v.iv, v.ivSize), [],
                                     Take(v.input, v.inputLength));
             u.status == Success && |u.output| <= v.updateSize
    ensures var key := VectorKey(e, v);
            var encrypt := v.usage == {UsageEncrypt};
            var iv := Take(v.iv, v.ivSize);
            var input := Take(v.input, v.inputLength);
            var u := e.cipherUpdate(key, v.keyAlg, encrypt, iv, [], input);
            var st' := st.(attributes := SetPolicy(st.attributes, v.keyType, v.keyAlg, v.usage),
                           output := WriteAt(st.output, 0, u.output));
            Run(e, v, st, imported, CipherActive(key, v.keyAlg, encrypt, Some(iv), [])) ==
              FinishInto(e, v, st', imported, CipherActive(key, v.keyAlg, encrypt, Some(iv), input), u.output)
  {
    var key := VectorKey(e, v);
    var encrypt := v.usage == {UsageEncrypt};
    var iv := Take(v.iv, v.ivSize);
    var input := Take(v.input, v.inputLength);
    var op := CipherActive(key, v.keyAlg, encrypt, Some(iv), []);
    var update := CipherUpdate(e, op, input, v.updateSize);
    assert update.1 == op.(consumed := input) by {
      assert [] + input == input;
    }
  }

  /**
   * Against the reference, after a successful update on the vector's key,
   * the rest of the iteration completes exactly when the finish answers the
   * vector's status and, on success, the outputs compare; and it leaves the
   * state settled.
   */
  lemma ReferenceFinishInto(e: Engine, v: CipherVector, st: CipherState, imported: Imported, updateOutput: seq<byte>)
    requires Settled(st)
    requires imported.store.Valid() && imported.handle in imported.store.slots
    requires |updateOutput| <= |st.output| && st.output[..|updateOutput|] == updateOutput
    ensures var op := CipherActive(VectorKey(e, v), v.keyAlg, v.usage == {UsageEncrypt}, Some(Take(v.iv, v.ivSize)),
                                   Take(v.input, v.inputLength));
            var f := FinishInto(e, v, st, imported, op, updateOutput);
            && (f.Next? <==> FinishCompletes(e, v, VectorKey(e, v), updateOutput))
            && (f.Next? ==> Settled(f.state))
  {
    var key := VectorKey(e, v);
    var encrypt := v.usage == {UsageEncrypt};
    var iv := Take(v.iv, v.ivSize);
    var input := Take(v.input, v.inputLength);
    var op := CipherActive(key, v.keyAlg, encrypt, Some(iv), input);
    var fin := e.cipherFinish(key, v.keyAlg, encrypt, iv, input);
    var finish := CipherFinish(e, op, v.finishSize);
    assert finish.0.status == FinishStatus(fin, v.finishSize);
    if finish.0.status != v.expectedStatus {
      assert FinishInto(e, v, st, imported, op, updateOutput) == Exit(AssertFailed(8));
    } else if v.expectedStatus != Success {
      assert FinishInto(e, v, st, imported, op, updateOutput) == Abandon(st, imported, finish.1);
    } else {
      FinishConcludes(e, v, st, imported, updateOutput);
    }
  }

  /** `ReferenceFinishInto` once the finish has answered the expected success. */
  lemma FinishConcludes(e: Engine, v: CipherVector, st: CipherState, imported: Imported, updateOutput: seq<byte>)
    requires Settled(st)
    requires imported.store.Valid() && imported.handle in imported.store.slots
    requires |updateOutput| <= |st.output| && st.output[..|updateOutput|] == updateOutput
    requires v.expectedStatus == Success
    requires var fin := e.cipherFinish(VectorKey(e, v), v.keyAlg, v.usage == {UsageEncrypt}, Take(v.iv, v.ivSize),
                                       Take(v.input, v.inputLength));
             fin.status == Success && |fin.output| <= v.finishSize
    ensures var op := CipherActive(VectorKey(e, v), v.keyAlg, v.usage == {UsageEncrypt}, Some(Take(v.iv, v.ivSize)),
                                   Take(v.input, v.inputLength));
            var f := FinishInto(e, v, st, imported, op, updateOutput);
            && (f.Next? <==> FinishCompletes(e, v, VectorKey(e, v), updateOutput))
            && (f.Next? ==> Settled(f.state))
  {
    var key := VectorKey(e, v);
    var encrypt := v.usage == {UsageEncrypt};
    var iv := Take(v.iv, v.ivSize);
    var input := Take(v.input, v.inputLength);
    var op := CipherActive(key, v.keyAlg, encrypt, Some(iv), input);
    var fin := e.cipherFinish(key, v.keyAlg, encrypt, iv, input);
    var output := WriteAt(st.output, |updateOutput|, fin.output);
    WriteAfter(st.output, updateOutput, fin.output);
    assert FinishInto(e, v, st, imported, op, updateOutput) ==
           Conclude(e, v, st.(output := output), imported, CipherInactive, |updateOutput|, |fin.output|);
  }

  /**
   * Against the reference, from a settled state, one iteration completes
   * exactly when the vector agrees, and leaves the state settled.
   */
  lemma ReferenceFinishCheck(e: Engine, v: CipherVector, st: CipherState)
    requires Settled(st)
    ensures FinishCheck(e, v, st).Next? <==> FinishAgrees(e, v)
    ensures FinishCheck(e, v, st).Next? ==> Settled(FinishCheck(e, v, st).state)
  {
    ReferencePrepare(e, v, st);
    var prepared := Prepare(e, v, st);
    if prepared.Next? {
      ReferenceRun(e, v, st, prepared.state.0);
    }
  }

  /**
   * With `invalid_operation` zero-initialised and a well-formed key store,
   * test_c037 passes against the reference exactly when the table is
   * non-empty, the platform services succeed in every iteration and every
   * vector agrees with the reference.
   */
  lemma FinishTestPassesIff(vs: seq<CipherVector>, p: Platform, e: Engine, ks: KeyStore)
    requires ks.Valid()
    ensures CryptoTest(vs, p, InitialState(ks, CipherInactive), FinishStep(e)) == PASS <==>
              && |vs| > 0
              && p.cryptoInit == Success
              && Rearms(p, |vs|)
              && forall j | 0 <= j < |vs| :: FinishAgrees(e, vs[j])
  {
    var check := FinishStep(e);
    var ok := (v: CipherVector) => FinishAgrees(e, v);
    forall v, t | Settled(t)
      ensures check(v, t).Next? <==> ok(v)
      ensures check(v, t).Next? ==> Settled(check(v, t).state)
    {
      ReferenceFinishCheck(e, v, t);
    }
    CryptoTestPassesIff(vs, p, InitialState(ks, CipherInactive), check, Settled, ok);
  }

  /**
   * `invalid_operation` is declared without an initialiser. If its stack
   * contents happen to read as an active operation, finishing it is not a
   * bad-state error, and a vector the reference agrees with fails at
   * checkpoint 13.
   */
  lemma StaleOperationFails(e: Engine, v: CipherVector, st: CipherState, stale: CipherOp)
    requires Settled(st) && FinishAgrees(e, v) && v.expectedStatus == Success
    requires stale.CipherActive?
    requires e.cipherFinish(stale.key, stale.alg, stale.encrypt, IvBytes(stale), stale.consumed).status != ErrorBadState
    ensures FinishCheck(e, v, st.(invalid := stale)) == Exit(AssertFailed(13))
  {
    var st' := st.(invalid := stale);
    ReferencePrepare(e, v, st);
    var prepared := Prepare(e, v, st).state;
    ReferenceRun(e, v, st, prepared.0);
    assert Prepare(e, v, st') == Prepare(e, v, st);
    StaleRun(e, v, st, prepared.0, prepared.1, stale);
  }

  /** A run that completes from a settled state stops at checkpoint 13 once `invalid` is stale. */
  lemma StaleRun(e: Engine, v: CipherVector, st: CipherState, imported: Imported, op: CipherOp, stale: CipherOp)
    requires st.invalid == CipherInactive && imported.handle in imported.store.slots
    requires v.expectedStatus == Success && Run(e, v, st, imported, op).Next?
    requires stale.CipherActive?
    requires e.cipherFinish(stale.key, stale.alg, stale.encrypt, IvBytes(stale), stale.consumed).status != ErrorBadState
    ensures Run(e, v, st.(invalid := stale), imported, op) == Exit(AssertFailed(13))
  {
    var attributes := SetPolicy(st.attributes, v.keyType, v.keyAlg, v.usage);
    var update := CipherUpdate(e, op, Take(v.input, v.inputLength), v.updateSize);
    var st1 := st.(attributes := attributes, output := WriteAt(st.output, 0, update.0.output));
    assert Run(e, v, st, imported, op) == FinishInto(e, v, st1, imported, update.1, update.0.output);
    assert Run(e, v, st.(invalid := stale), imported, op) ==
           FinishInto(e, v, st1.(invalid := stale), imported, update.1, update.0.output);
    StaleFinishInto(e, v, st1, imported, update.1, update.0.output, stale);
  }

  /** `FinishInto` counterpart of `StaleRun`. */
  lemma StaleFinishInto(e: Engine, v: CipherVector, st: CipherState, imported: Imported, op: CipherOp,
                        updateOutput: seq<byte>, stale: CipherOp)
    requires |updateOutput| <= |st.output|
    requires st.invalid == CipherInactive && imported.handle in imported.store.slots
    requires v.expectedStatus == Success && FinishInto(e, v, st, imported, op, updateOutput).Next?
    requires stale.CipherActive?
    requires e.cipherFinish(stale.key, stale.alg, stale.encrypt, IvBytes(stale), stale.consumed).status != ErrorBadState
    ensures FinishInto(e, v, st.(invalid := stale), imported, op, updateOutput) == Exit(AssertFailed(13))
  {
    var finish := CipherFinish(e, op, v.finishSize);
    var output := WriteAt(st.output, |updateOutput|, finish.0.output);
    var st1 := st.(output := output);
    assert FinishInto(e, v, st, imported, op, updateOutput) ==
           Conclude(e, v, st1, imported, finish.1, |updateOutput|, |finish.0.output|);
    assert FinishInto(e, v, st.(invalid := stale), imported, op, updateOutput) ==
           Conclude(e, v, st1.(invalid := stale), imported, finish.1, |updateOutput|, |finish.0.output|);
    StaleConclude(e, v, st1, imported, finish.1, |updateOutput|, |finish.0.output|, stale);
  }

  /** `Conclude` counterpart of `StaleRun`: the stale finish answers something other than a bad state. */
  lemma StaleConclude(e: Engine, v: CipherVector, st: CipherState, imported: Imported, op: CipherOp,
                      updateLength: nat, finishLength: nat, stale: CipherOp)
    requires st.invalid == CipherInactive && imported.handle in imported.store.slots
    requires Conclude(e, v, st, imported, op, updateLength, finishLength).Next?
    requires stale.CipherActive?
    requires e.cipherFinish(stale.key, stale.alg, stale.encrypt, IvBytes(stale), stale.consumed).status != ErrorBadState
    ensures Conclude(e, v, st.(invalid := stale), imported, op, updateLength, finishLength) == Exit(AssertFailed(13))
  {
    assert CipherFinish(e, stale, v.finishSize).0.status != ErrorBadState;
  }
}

=== FILE: crypto_types.dfy ===
/**
 * The vocabulary of the PSA Cryptography API 1.0 that the crypto tests use:
 * algorithms, key types, usage flags and the key-attributes record with its
 * setters, getters and reset.
 */
module CryptoTypes {

  datatype HashAlg = Md5 | Ripemd160 | Sha1 | Sha224 | Sha256 | Sha384 | Sha512

  /**
   * `psa_algorithm_t`. Hash algorithms are spelled out because the tests
   * branch on them; every other algorithm is an opaque code whose meaning
   * belongs to the crypto engine. `NoAlg` is the zero value.
   */
  datatype Alg = NoAlg | Hash(hash: HashAlg) | OtherAlg(code: nat)

  const HASH_64B: nat := 64

  /** The digest length of a hash algorithm, in bytes. */
  function DigestLength(h: HashAlg): (n: nat)
    ensures 0 < n <= HASH_64B
    ensures h == Sha384 ==> n == 48
    ensures h == Sha512 ==> n == HASH_64B
  {
    match h
    case Md5 => 16
    case Ripemd160 => 20
    case Sha1 => 20
    case Sha224 => 28
    case Sha256 => 32
    case Sha384 => 48
    case Sha512 => 64
  }

  /** `PSA_HASH_SIZE(alg)`: the digest length, or 0 for anything that is not a hash. */
  function HashSize(alg: Alg): (n: nat)
    ensures n <= HASH_64B
    ensures n > 0 <==> alg.Hash?
  {
    if alg.Hash? then DigestLength(alg.hash) else 0
  }

  /** `psa_key_type_t`. `NoKeyType` is the zero value. */
  datatype KeyType =
    | NoKeyType
    | RawData
    | Hmac
    | Derive
    | Aes
    | Des
    | Camellia
    | Arc4
    | Chacha20
    | RsaPublicKey
    | RsaKeyPair
    | EccPublicKey(curve: nat)
    | EccKeyPair(curve: nat)
    | DhPublicKey(group: nat)
    | DhKeyPair(group: nat)
  {
    /** `PSA_KEY_TYPE_IS_UNSTRUCTURED`: raw bytes and symmetric keys. */
    predicate IsUnstructured()
    {
      RawData? || Hmac? || Derive? || Aes? || Des? || Camellia? || Arc4? || Chacha20?
    }

    /** `PSA_KEY_TYPE_IS_RSA`. */
    predicate IsRsa() { RsaPublicKey? || RsaKeyPair? }

    /** `PSA_KEY_TYPE_IS_ECC`. */
    predicate IsEcc() { EccPublicKey? || EccKeyPair? }

    /** `PSA_KEY_TYPE_IS_ECC_KEY_PAIR`. */
    predicate IsEccKeyPair() { EccKeyPair? }
  }

  /** One `PSA_KEY_USAGE_*` flag; a `psa_key_usage_t` is a set of them (empty is zero). */
  datatype Usage =
    | UsageExport
    | UsageCopy
    | UsageCache
    | UsageEncrypt
    | UsageDecrypt
    | UsageSignHash
    | UsageVerifyHash
    | UsageDerive

  /**
   * `psa_key_attributes_t`: six independent fields. `bits == 0` means "not
   * specified"; an import then takes the size from the key data.
   */
  datatype KeyAttributes = KeyAttributes(
    keyType: KeyType,
    id: nat,
    lifetime: nat,
    usage: set<Usage>,
    alg: Alg,
    bits: nat)

  /** `PSA_KEY_ATTRIBUTES_INIT`. */
  const KEY_ATTRIBUTES_INIT: KeyAttributes := KeyAttributes(NoKeyType, 0, 0, {}, NoAlg, 0)

  /** Every field reads back as zero. */
  predicate IsCleared(a: KeyAttributes)
  {
    && a.keyType == NoKeyType
    && a.id == 0
    && a.lifetime == 0
    && a.usage == {}
    && a.alg == NoAlg
    && a.bits == 0
  }

  /** `psa_set_key_type`. */
  function SetKeyType(a: KeyAttributes, t: KeyType): (r: KeyAttributes)
    ensures r.keyType == t
    ensures r.(keyType := a.keyType) == a
  {
    a.(keyType := t)
  }

  /** `psa_set_key_bits`. */
  function SetKeyBits(a: KeyAttributes, bits: nat): (r: KeyAttributes)
    ensures r.bits == bits
    ensures r.(bits := a.bits) == a
  {
    a.(bits := bits)
  }

  /** `psa_set_key_usage_flags`. */
  function SetKeyUsageFlags(a: KeyAttributes, usage: set<Usage>): (r: KeyAttributes)
    ensures r.usage == usage
    ensures r.(usage := a.usage) == a
  {
    a.(usage := usage)
  }

  /** `psa_set_key_id`. */
  function SetKeyId(a: KeyAttributes, id: nat): (r: KeyAttributes)
    ensures r.id == id
    ensures r.(id := a.id) == a
  {
    a.(id := id)
  }

  /** `psa_set_key_lifetime`. */
  function SetKeyLifetime(a: KeyAttributes, lifetime: nat): (r: KeyAttributes)
    ensures r.lifetime == lifetime
    ensures r.(lifetime := a.lifetime) == a
  {
    a.(lifetime := lifetime)
  }

  /** `psa_set_key_algorithm`. */
  function SetKeyAlgorithm(a: KeyAttributes, alg: Alg): (r: KeyAttributes)
    ensures r.alg == alg
    ensures r.(alg := a.alg) == a
  {
    a.(alg := alg)
  }

  /** `psa_reset_key_attributes`: whatever was set before, every getter reads zero again. */
  function ResetKeyAttributes(a: KeyAttributes): (r: KeyAttributes)
    ensures IsCleared(r)
  {
    KEY_ATTRIBUTES_INIT
  }

  /**
   * The six setters in the order test_c010 calls them: type, bits, usage, id,
   * lifetime, algorithm.
   */
  function SetAll(a: KeyAttributes, t: KeyType, bits: nat, usage: set<Usage>, id: nat, lifetime: nat, alg: Alg)
    : KeyAttributes
  {
    SetKeyAlgorithm(SetKeyLifetime(SetKeyId(SetKeyUsageFlags(SetKeyBits(SetKeyType(a, t), bits), usage), id), lifetime), alg)
  }

  /**
   * No setter clobbers another field: after all six, each getter returns its
   * own input, whatever the record held before.
   */
  lemma SetAllReadsBack(a: KeyAttributes, t: KeyType, bits: nat, usage: set<Usage>, id: nat, lifetime: nat, alg: Alg)
    ensures SetAll(a, t, bits, usage, id, lifetime, alg) == KeyAttributes(t, id, lifetime, usage, alg, bits)
  {
  }
}

=== FILE: fault_injection.dfy ===
/**
 * The client side of the inter-partition heap isolation test (test_i086):
 * fetch another partition's heap address over IPC, arm the durable boot flag,
 * touch that memory, and classify what came back.
 *
 * Everything the hardware and the other partitions decide is an input
 * (`Platform`): the handles and statuses the IPC calls return, whether each
 * boot-flag write succeeds, and what the cross-partition access does. The
 * durable boot-flag slot is threaded through explicitly, and every externally
 * visible action is logged in order, so the ordering obligations can be stated.
 */
module FaultInjection {
  import opened Base
  import opened Status
  import opened Harness

  /** What the other partition's heap holds. */
  const DATA_VALUE_ORG: byte := 0x11
  /** What the client's local variable holds before the access. */
  const DATA_VALUE: byte := 0x12
  /** Minor version passed to `psa->connect`. */
  const SERVER_VERSION: nat := 1

  /** The value held by the single durable boot-flag slot. */
  datatype BootFlag =
    | BootExpectedReenterTest
    | BootExpectedNs
    | BootExpectedButFailed
    | OtherBootFlag(code: nat)

  /** What a load or store to another partition's memory does. */
  datatype AccessOutcome =
    | Faulted               // the isolation hardware traps; the device resets
    | Ignored               // the access completes without effect
    | Completed(value: byte) // the access goes through (for a load: this value comes back)

  /** The answers of everything outside the client test function. */
  datatype Platform = Platform(
    addressHandle: int,       // psa->connect in the address fetch
    addressCall: PsaStatus,   // psa->call in the address fetch
    armFlagWrite: bool,       // the set_boot_flag before the access succeeds
    failFlagWrite: bool,      // the set_boot_flag after an unexpected read succeeds
    access: AccessOutcome,    // the cross-partition load or store
    handshakeHandle: int)     // psa->connect after the store

  /** Externally visible actions, in the order the client performs them. */
  datatype Event =
    | Connect(version: nat)
    | Call(handle: int)
    | Close(handle: int)
    | SetBootFlag(flag: BootFlag, ok: bool)
    | ReadOtherHeap
    | WriteOtherHeap(value: byte)
  {
    predicate IsAccess() { ReadOtherHeap? || WriteOtherHeap? }
  }

  /** How a client test function ends. */
  datatype Exit = Finished(verdict: Verdict) | DeviceReset

  /** A run: how it ended, what it did, and what the durable slot holds afterwards. */
  datatype Run = Run(exit: Exit, trace: seq<Event>, slot: BootFlag)

  datatype Fetch = Fetch(status: ValStatus, trace: seq<Event>)

  /** `val->set_boot_flag(flag)`: the slot changes only when the write succeeds. */
  function WriteFlag(slot: BootFlag, flag: BootFlag, ok: bool): (s: BootFlag)
    ensures ok ==> s == flag
    ensures !ok ==> s == slot
  {
    if ok then flag else slot
  }

  /** Every access in `trace` is preceded by a successful write of `flag`. */
  ghost predicate ArmedBeforeAccess(trace: seq<Event>, flag: BootFlag)
  {
    forall j | 0 <= j < |trace| && trace[j].IsAccess() ::
      exists i | 0 <= i < j :: trace[i] == SetBootFlag(flag, true)
  }

  /** No event of `trace` touches the boot flag or the other partition's memory. */
  ghost predicate IpcOnly(trace: seq<Event>)
  {
    forall e | e in trace :: e.Connect? || e.Call? || e.Close?
  }

  /**
   * `get_secure_partition_address`: connect, ask the server for its heap
   * address, close. The handle is closed exactly when the whole exchange
   * succeeded; a failed call leaves it open.
   */
  function FetchAddress(p: Platform): (f: Fetch)
    ensures f.status == ValSuccess <==> p.addressHandle >= 0 && p.addressCall == Success
    ensures p.addressHandle < 0 ==> f.status == ValInvalidHandle
    ensures p.addressHandle >= 0 && p.addressCall != Success ==> f.status == ValCallFailed
    ensures |f.trace| > 0 && f.trace[0] == Connect(SERVER_VERSION)
    ensures multiset(f.trace)[Close(p.addressHandle)] == if f.status == ValSuccess then 1 else 0
    ensures forall e | e in f.trace && e.Close? :: e.handle == p.addressHandle
    ensures IpcOnly(f.trace)
  {
    var h := p.addressHandle;
    if h < 0 then Fetch(ValInvalidHandle, [Connect(SERVER_VERSION)])
    else if p.addressCall != Success then Fetch(ValCallFailed, [Connect(SERVER_VERSION), Call(h)])
    else Fetch(ValSuccess, [Connect(SERVER_VERSION), Call(h), Close(h)])
  }

  /** The value of the client's `data` after the load. */
  function LoadedValue(a: AccessOutcome): byte
    requires !a.Faulted?
  {
    match a
    case Ignored => DATA_VALUE
    case Completed(v) => v
  }

  /**
   * `client_test_sp_read_other_sp_heap`. `heapSupported` is the
   * `SP_HEAP_MEM_SUPP` build option.
   */
  function ReadOtherHeapTest(heapSupported: bool, p: Platform, slot: BootFlag): (r: Run)
    // without heap support the test is skipped and touches nothing
    ensures !heapSupported ==> r == Run(Finished(Skipped(ValHeapNotAvailable)), [], slot)
    // a failed address fetch ends the test before the boot flag is touched
    ensures heapSupported && FetchAddress(p).status != ValSuccess ==>
              r.exit == Finished(Returned(ValError)) && r.slot == slot && IpcOnly(r.trace)
    // a failed flag write skips the read
    ensures heapSupported && FetchAddress(p).status == ValSuccess && !p.armFlagWrite ==>
              r.exit == Finished(Returned(ValError)) && ReadOtherHeap !in r.trace
    // a reset during the read finds the slot holding the armed flag
    ensures r.exit == DeviceReset ==> r.slot == BootExpectedReenterTest && ReadOtherHeap in r.trace
    // the read was ignored (or returned DATA_VALUE): pass, flag untouched after arming
    ensures r.exit == Finished(PASS) <==>
              heapSupported && FetchAddress(p).status == ValSuccess && p.armFlagWrite &&
              !p.access.Faulted? && LoadedValue(p.access) == DATA_VALUE
    ensures r.exit == Finished(PASS) ==> r.slot == BootExpectedReenterTest
    // the read returned something else: the flag records the unmet expectation
    ensures r.exit == Finished(Returned(ValSpmFailed)) ==> r.slot == BootExpectedButFailed
    ensures heapSupported && FetchAddress(p).status == ValSuccess && p.armFlagWrite &&
            !p.access.Faulted? && LoadedValue(p.access) != DATA_VALUE ==>
              r.exit == Finished(if p.failFlagWrite then Returned(ValSpmFailed) else Returned(ValError))
  {
    if !heapSupported then Run(Finished(Skipped(ValHeapNotAvailable)), [], slot)
    else
      var f := FetchAddress(p);
      if f.status != ValSuccess then Run(Finished(Returned(ValError)), f.trace, slot)
      else
        var t1 := f.trace + [SetBootFlag(BootExpectedReenterTest, p.armFlagWrite)];
        var s1 := WriteFlag(slot, BootExpectedReenterTest, p.armFlagWrite);
        if !p.armFlagWrite then Run(Finished(Returned(ValError)), t1, s1)
        else
          var t2 := t1 + [ReadOtherHeap];
          if p.access.Faulted? then Run(DeviceReset, t2, s1)
          else if LoadedValue(p.access) == DATA_VALUE then Run(Finished(PASS), t2, s1)
          else
            var t3 := t2 + [SetBootFlag(BootExpectedButFailed, p.failFlagWrite)];
            var s3 := WriteFlag(s1, BootExpectedButFailed, p.failFlagWrite);
            if !p.failFlagWrite then Run(Finished(Returned(ValError)), t3, s3)
            else Run(Finished(Returned(ValSpmFailed)), t3, s3)
  }

  /**
   * `client_test_sp_write_other_sp_heap`. After the store, a successful
   * reconnection to the server means the server survived the write, which is
   * the failure this check looks for.
   */
  function WriteOtherHeapTest(heapSupported: bool, p: Platform, slot: BootFlag): (r: Run)
    ensures !heapSupported ==> r == Run(Finished(Skipped(ValHeapNotAvailable)), [], slot)
    ensures heapSupported && FetchAddress(p).status != ValSuccess ==>
              r.exit == Finished(Returned(ValError)) && r.slot == slot && IpcOnly(r.trace)
    ensures heapSupported && FetchAddress(p).status == ValSuccess && !p.armFlagWrite ==>
              r.exit == Finished(Returned(ValError)) && WriteOtherHeap(DATA_VALUE) !in r.trace
    ensures r.exit == DeviceReset ==> r.slot == BootExpectedNs && WriteOtherHeap(DATA_VALUE) in r.trace
    // once the store returns, only the handshake decides
    ensures heapSupported && FetchAddress(p).status == ValSuccess && p.armFlagWrite && !p.access.Faulted? ==>
              && r.exit == Finished(if p.handshakeHandle > 0 then Returned(ValInvalidHandle) else PASS)
              && r.slot == BootExpectedNs
              && |r.trace| > 0 && r.trace[|r.trace| - 1] == Connect(SERVER_VERSION)
  {
    if !heapSupported then Run(Finished(Skipped(ValHeapNotAvailable)), [], slot)
    else
      var f := FetchAddress(p);
      if f.status != ValSuccess then Run(Finished(Returned(ValError)), f.trace, slot)
      else
        var t1 := f.trace + [SetBootFlag(BootExpectedNs, p.armFlagWrite)];
        var s1 := WriteFlag(slot, BootExpectedNs, p.armFlagWrite);
        if !p.armFlagWrite then Run(Finished(Returned(ValError)), t1, s1)
        else
          var t2 := t1 + [WriteOtherHeap(DATA_VALUE)];
          if p.access.Faulted? then Run(DeviceReset, t2, s1)
          else
            var t3 := t2 + [Connect(SERVER_VERSION)];
            if p.handshakeHandle > 0 then Run(Finished(Returned(ValInvalidHandle)), t3, s1)
            else Run(Finished(PASS), t3, s1)
  }

  /**
   * A trace of IPC events, then a boot-flag write, then anything: every
   * access in it comes after the write, so a successful write arms them all
   * and a failed one leaves nothing after it.
   */
  lemma {:induction false} ArmedAfterWrite(prefix: seq<Event>, flag: BootFlag, ok: bool, rest: seq<Event>)
    requires IpcOnly(prefix)
    requires ok || rest == []
    ensures ArmedBeforeAccess(prefix + [SetBootFlag(flag, ok)] + rest, flag)
  {
    var t := prefix + [SetBootFlag(flag, ok)] + rest;
    assert forall k | 0 <= k < |prefix| :: t[k] == prefix[k] && prefix[k] in prefix;
    forall j | 0 <= j < |t| && t[j].IsAccess()
      ensures exists i | 0 <= i < j :: t[i] == SetBootFlag(flag, true)
    {
      assert t[|prefix|] == SetBootFlag(flag, ok);
    }
  }

  /** The flag is durable before the read: every read follows a successful write of `BOOT_EXPECTED_REENTER_TEST`. */
  lemma ReadArmedBeforeAccess(heapSupported: bool, p: Platform, slot: BootFlag)
    ensures ArmedBeforeAccess(ReadOtherHeapTest(heapSupported, p, slot).trace, BootExpectedReenterTest)
  {
    var f := FetchAddress(p);
    var r := ReadOtherHeapTest(heapSupported, p, slot);
    if heapSupported && f.status == ValSuccess {
      var w := [SetBootFlag(BootExpectedReenterTest, p.armFlagWrite)];
      if !p.armFlagWrite || p.access.Faulted? || LoadedValue(p.access) == DATA_VALUE {
        var rest := if p.armFlagWrite then [ReadOtherHeap] else [];
        assert r.trace == f.trace + w + rest;
        ArmedAfterWrite(f.trace, BootExpectedReenterTest, p.armFlagWrite, rest);
      } else {
        var rest := [ReadOtherHeap, SetBootFlag(BootExpectedButFailed, p.failFlagWrite)];
        assert r.trace == f.trace + w + rest;
        ArmedAfterWrite(f.trace, BootExpectedReenterTest, true, rest);
      }
    } else if heapSupported {
      assert forall j | 0 <= j < |r.trace| :: r.trace[j] in r.trace;
    }
  }

  /** Every store to the other heap follows a successful write of `BOOT_EXPECTED_NS`. */
  lemma WriteArmedBeforeAccess(heapSupported: bool, p: Platform, slot: BootFlag)
    ensures ArmedBeforeAccess(WriteOtherHeapTest(heapSupported, p, slot).trace, BootExpectedNs)
  {
    var f := FetchAddress(p);
    var r := WriteOtherHeapTest(heapSupported, p, slot);
    if heapSupported && f.status == ValSuccess {
      var w := [SetBootFlag(BootExpectedNs, p.armFlagWrite)];
      var rest := if !p.armFlagWrite then []
                  else if p.access.Faulted? then [WriteOtherHeap(DATA_VALUE)]
                  else [WriteOtherHeap(DATA_VALUE), Connect(SERVER_VERSION)];
      assert r.trace == f.trace + w + rest;
      ArmedAfterWrite(f.trace, BootExpectedNs, p.armFlagWrite, rest);
    } else if heapSupported {
      assert forall j | 0 <= j < |r.trace| :: r.trace[j] in r.trace;
    }
  }
}

=== FILE: harness.dfy ===
/**
 * The checkpoint protocol every test body follows. A failed `TEST_ASSERT_*`
 * returns from the test function at once, carrying its checkpoint number;
 * `RESULT_SKIP(x)` ends the test as skipped; any other `return` hands a
 * `VAL_STATUS_*` code to the runner.
 */
module Harness {
  import opened Status

  datatype Verdict =
    | Returned(status: ValStatus)
    | Skipped(reason: ValStatus)
    | AssertFailed(checkpoint: nat)

  /** `return VAL_STATUS_SUCCESS`: the test passed. */
  const PASS: Verdict := Returned(ValSuccess)

  /**
   * The state a test body carries from one statement to the next, or the
   * verdict it returned early with.
   */
  datatype Flow<+S> = Next(state: S) | Exit(verdict: Verdict) {
    predicate IsFailure() { Exit? }
    function PropagateFailure<U>(): Flow<U>
      requires Exit?
    {
      Exit(verdict)
    }
    function Extract(): S
      requires Next?
    {
      state
    }
  }

  /**
   * The outcome of one assertion: execution continues, or the test returns.
   * Propagation is total (an open gate is never propagated by `:-`) so that an
   * assertion that cannot fail leaves no obligation in its dead branch.
   */
  datatype Gate = Open | Shut(verdict: Verdict) {
    predicate IsFailure() { Shut? }
    function PropagateFailure<U>(): Flow<U>
    {
      match this
      case Shut(v) => Exit(v)
      case Open => Exit(PASS)
    }
  }

  /**
   * `TEST_ASSERT_EQUAL`, `TEST_ASSERT_NOT_EQUAL` and `TEST_ASSERT_MEMCMP`, with
   * the compared condition already evaluated.
   */
  function Expect(condition: bool, checkpoint: nat): (g: Gate)
    ensures g.Open? <==> condition
    ensures g.Shut? ==> g.verdict == AssertFailed(checkpoint)
  {
    if condition then Open else Shut(AssertFailed(checkpoint))
  }

  /** The value the test function returns once its body has run to the end. */
  function VerdictOf<S>(f: Flow<S>): (v: Verdict)
    ensures f.Next? ==> v == PASS
    ensures f.Exit? ==> v == f.verdict
  {
    match f
    case Next(_) => PASS
    case Exit(verdict) => verdict
  }

  /** A step that never returns early with `VAL_STATUS_SUCCESS`. */
  ghost predicate NoEarlyPass<V(!new), S(!new)>(step: (V, S) -> Flow<S>)
  {
    forall v, s :: step(v, s).Exit? ==> step(v, s).verdict != PASS
  }

  /**
   * `for (i = start; i < num_checks; i++) body`, where `body` may `continue`
   * (returns `Next`) or return from the test (returns `Exit`). The body is
   * given the iteration's index, its vector and the carried state. The loop
   * only ever returns what one of its iterations returned.
   */
  function Loop<V, S(!new)>(vs: seq<V>, i: nat, s: S, step: (nat, V, S) -> Flow<S>): (f: Flow<S>)
    requires i <= |vs|
    ensures i == |vs| ==> f == Next(s)
    ensures f.Exit? ==> exists j, t | i <= j < |vs| :: step(j, vs[j], t) == f
    decreases |vs| - i
  {
    if i == |vs| then Next(s)
    else
      var s' :- step(i, vs[i], s);
      Loop(vs, i + 1, s', step)
  }

  /**
   * A loop runs to completion exactly when every iteration does, provided an
   * iteration's success depends on its index and vector alone (`ok`) for
   * every state the loop can reach (`inv`).
   */
  lemma {:induction false} LoopCompletesIff<V, S(!new)>(
    vs: seq<V>, i: nat, s: S, step: (nat, V, S) -> Flow<S>, inv: S -> bool, ok: (nat, V) -> bool)
    requires i <= |vs|
    requires inv(s)
    requires forall j, v, t :: inv(t) ==> (step(j, v, t).Next? <==> ok(j, v))
    requires forall j, v, t :: inv(t) && step(j, v, t).Next? ==> inv(step(j, v, t).state)
    ensures Loop(vs, i, s, step).Next? <==> forall j | i <= j < |vs| :: ok(j, vs[j])
    decreases |vs| - i
  {
    if i < |vs| {
      var f := step(i, vs[i], s);
      if f.Next? {
        LoopCompletesIff(vs, i + 1, f.state, step, inv, ok);
      }
    }
  }

  /** A loop whose body never returns `VAL_STATUS_SUCCESS` early does not either. */
  lemma LoopNoEarlyPass<V, S(!new)>(vs: seq<V>, i: nat, s: S, step: (nat, V, S) -> Flow<S>)
    requires i <= |vs|
    requires forall j, v, t :: step(j, v, t).Exit? ==> step(j, v, t).verdict != PASS
    ensures Loop(vs, i, s, step).Exit? ==> Loop(vs, i, s, step).verdict != PASS
  {
  }

  /**
   * A loop whose every early exit from a reachable state (`inv`) reports a
   * verdict in `outs` reports one in `outs` when it exits early.
   */
  lemma {:induction false} LoopExitsWithin<V, S(!new)>(
    vs: seq<V>, i: nat, s: S, step: (nat, V, S) -> Flow<S>, inv: S -> bool, outs: Verdict -> bool)
    requires i <= |vs|
    requires inv(s)
    requires forall j, v, t :: inv(t) && step(j, v, t).Next? ==> inv(step(j, v, t).state)
    requires forall j, v, t :: inv(t) && step(j, v, t).Exit? ==> outs(step(j, v, t).verdict)
    ensures Loop(vs, i, s, step).Exit? ==> outs(Loop(vs, i, s, step).verdict)
    decreases |vs| - i
  {
    if i < |vs| {
      var f := step(i, vs[i], s);
      if f.Next? {
        LoopExitsWithin(vs, i + 1, f.state, step, inv, outs);
      }
    }
  }

  /**
   * Two loops over tables of the same length, whose iterations agree index
   * by index in every state the loop can reach (`inv`), end the same way.
   */
  lemma {:induction false} LoopsAgree<V, W, S(!new)>(
    vs: seq<V>, ws: seq<W>, i: nat, s: S, step: (nat, V, S) -> Flow<S>, other: (nat, W, S) -> Flow<S>, inv: S -> bool)
    requires |vs| == |ws| && i <= |vs|
    requires inv(s)
    requires forall j, t | i <= j < |vs| && inv(t) :: step(j, vs[j], t) == other(j, ws[j], t)
    requires forall j, t | i <= j < |vs| && inv(t) && step(j, vs[j], t).Next? :: inv(step(j, vs[j], t).state)
    ensures Loop(vs, i, s, step) == Loop(ws, i, s, other)
    decreases |vs| - i
  {
    if i < |vs| {
      var f := step(i, vs[i], s);
      if f.Next? {
        LoopsAgree(vs, ws, i + 1, f.state, step, other, inv);
      }
    }
  }

  /**
   * The platform services a crypto test relies on besides the API under test:
   * `psa_crypto_init`, and the watchdog reprogramming, which each iteration
   * repeats (`watchdog(j)` is what the rearm at iteration `j` answers).
   */
  datatype Platform = Platform(cryptoInit: PsaStatus, watchdog: nat -> ValStatus)

  /** The rearms of the first `n` iterations all succeed. */
  predicate Rearms(p: Platform, n: nat)
  {
    forall j | 0 <= j < n :: p.watchdog(j) == ValSuccess
  }

  /** Iteration `i` of a crypto test: rearm the watchdog (checkpoint 2), then run the check. */
  function Guarded<V, S>(p: Platform, i: nat, check: (V, S) -> Flow<S>, v: V, s: S): (f: Flow<S>)
    ensures p.watchdog(i) != ValSuccess ==> f == Exit(AssertFailed(2))
    ensures p.watchdog(i) == ValSuccess ==> f == check(v, s)
  {
    if p.watchdog(i) != ValSuccess then Exit(AssertFailed(2)) else check(v, s)
  }

  /** `Guarded` as the step of a loop. */
  function Guard<V, S>(p: Platform, check: (V, S) -> Flow<S>): (nat, V, S) -> Flow<S>
  {
    (i: nat, v: V, s: S) => Guarded(p, i, check, v, s)
  }

  /**
   * Initialise the library (checkpoint 1), then run every check in order.
   * The negative tests use this frame directly: they have no empty-table skip.
   */
  function RunChecks<V, S(!new)>(vs: seq<V>, p: Platform, s: S, check: (V, S) -> Flow<S>): (v: Verdict)
    ensures p.cryptoInit != Success ==> v == AssertFailed(1)
    ensures |vs| > 0 && p.cryptoInit == Success && p.watchdog(0) != ValSuccess ==> v == AssertFailed(2)
  {
    if p.cryptoInit != Success then AssertFailed(1)
    else
      var step := Guard(p, check);
      assert |vs| > 0 && p.watchdog(0) != ValSuccess ==> step(0, vs[0], s) == Exit(AssertFailed(2));
      VerdictOf(Loop(vs, 0, s, step))
  }

  /**
   * The frame shared by the table-driven crypto tests: skip when the vector
   * table is empty, otherwise run the checks.
   */
  function CryptoTest<V, S(!new)>(vs: seq<V>, p: Platform, s: S, check: (V, S) -> Flow<S>): (v: Verdict)
    ensures |vs| == 0 ==> v == Skipped(ValNoTests)
    ensures |vs| > 0 ==> v == RunChecks(vs, p, s, check)
  {
    if |vs| == 0 then Skipped(ValNoTests) else RunChecks(vs, p, s, check)
  }

  /**
   * The checks pass exactly when the library initialises, the watchdog
   * rearms in every iteration and every vector's check succeeds, provided a
   * check's success depends on its vector alone (`ok`) in every state the
   * loop can reach (`inv`) and no check returns `VAL_STATUS_SUCCESS` early.
   */
  lemma RunChecksPassesIff<V(!new), S(!new)>(vs: seq<V>, p: Platform, s: S, check: (V, S) -> Flow<S>,
                                             inv: S -> bool, ok: V -> bool)
    requires inv(s)
    requires forall v, t :: inv(t) ==> (check(v, t).Next? <==> ok(v))
    requires forall v, t :: inv(t) && check(v, t).Next? ==> inv(check(v, t).state)
    requires NoEarlyPass(check)
    ensures RunChecks(vs, p, s, check) == PASS <==>
              && p.cryptoInit == Success
              && Rearms(p, |vs|)
              && forall j | 0 <= j < |vs| :: ok(vs[j])
  {
    if p.cryptoInit == Success {
      var g := Guard(p, check);
      var okg := (j: nat, v: V) => p.watchdog(j) == ValSuccess && ok(v);
      forall j, v, t | inv(t)
        ensures g(j, v, t).Next? <==> okg(j, v)
      {
      }
      forall j, v, t | inv(t) && g(j, v, t).Next?
        ensures inv(g(j, v, t).state)
      {
      }
      forall j, v, t | g(j, v, t).Exit?
        ensures g(j, v, t).verdict != PASS
      {
        if p.watchdog(j) == ValSuccess {
          assert g(j, v, t) == check(v, t);
        }
      }
      LoopCompletesIff(vs, 0, s, g, inv, okg);
      LoopNoEarlyPass(vs, 0, s, g);
      assert forall j | 0 <= j < |vs| :: okg(j, vs[j]) == (p.watchdog(j) == ValSuccess && ok(vs[j]));
      assert (forall j | 0 <= j < |vs| :: okg(j, vs[j])) <==>
             Rearms(p, |vs|) && forall j | 0 <= j < |vs| :: ok(vs[j]);
    }
  }

  /**
   * Two runs over tables of the same length, whose checks agree vector by
   * vector in every state the loop can reach (`inv`), report the same verdict.
   */
  lemma RunChecksAgree<V, W, S(!new)>(vs: seq<V>, ws: seq<W>, p: Platform, s: S,
                                      check: (V, S) -> Flow<S>, other: (W, S) -> Flow<S>, inv: S -> bool)
    requires |vs| == |ws|
    requires inv(s)
    requires forall j, t | 0 <= j < |vs| && inv(t) :: check(vs[j], t) == other(ws[j], t)
    requires forall j, t | 0 <= j < |vs| && inv(t) && check(vs[j], t).Next? :: inv(check(vs[j], t).state)
    ensures RunChecks(vs, p, s, check) == RunChecks(ws, p, s, other)
  {
    if p.cryptoInit == Success {
      var g := Guard(p, check);
      var h := Guard(p, other);
      forall j, t | 0 <= j < |vs| && inv(t)
        ensures g(j, vs[j], t) == h(j, ws[j], t)
      {
        assert check(vs[j], t) == other(ws[j], t);
      }
      forall j, t | 0 <= j < |vs| && inv(t) && g(j, vs[j], t).Next?
        ensures inv(g(j, vs[j], t).state)
      {
        assert g(j, vs[j], t) == check(vs[j], t);
      }
      LoopsAgree(vs, ws, 0, s, g, h, inv);
    }
  }

  /**
   * A table-driven crypto test passes exactly when the table is non-empty,
   * the platform services succeed and every vector's check succeeds.
   */
  lemma CryptoTestPassesIff<V(!new), S(!new)>(vs: seq<V>, p: Platform, s: S, check: (V, S) -> Flow<S>,
                                              inv: S -> bool, ok: V -> bool)
    requires inv(s)
    requires forall v, t :: inv(t) ==> (check(v, t).Next? <==> ok(v))
    requires forall v, t :: inv(t) && check(v, t).Next? ==> inv(check(v, t).state)
    requires NoEarlyPass(check)
    ensures CryptoTest(vs, p, s, check) == PASS <==>
              && |vs| > 0
              && p.cryptoInit == Success
              && Rearms(p, |vs|)
              && forall j | 0 <= j < |vs| :: ok(vs[j])
  {
    if |vs| > 0 {
      RunChecksPassesIff(vs, p, s, check, inv, ok);
    }
  }
}

=== FILE: hash_tests.dfy ===
/**
 * test_c015 (aborting a multipart hash) and test_c006 (one-shot
 * `psa_hash_compute`), run against the hash reference of the key store and
 * the operation lifecycle.
 */
module HashTests {
  import opened Base
  import opened Status
  import opened CryptoTypes
  import opened Harness
  import opened KeyManagement
  import opened Operations

  // ---------------------------------------------------------------- test_c015

  /** One entry of test_c015's vector table. */
  datatype AbortVector = AbortVector(alg: Alg, expectedStatus: PsaStatus)

  /**
   * One iteration of `psa_hash_abort_test`: a zeroed operation is set up and
   * then aborted twice, each abort answering the vector's status.
   */
  function AbortCheck(e: Engine, v: AbortVector, op: HashOp): (f: Flow<HashOp>)
    ensures f.Next? <==> v.alg.Hash? && v.alg.hash in e.hashes && v.expectedStatus == Success
    ensures f.Next? ==> f.state == HashInactive
    ensures f.Exit? ==> f.verdict in {AssertFailed(3), AssertFailed(4)}
  {
    var setup := HashSetup(e, HashInactive, v.alg);
    :- Expect(setup.0 == Success, 3);
    var first := HashAbort(setup.1);
    :- Expect(first.0 == v.expectedStatus, 4);
    var second := HashAbort(first.1);
    :- Expect(second.0 == v.expectedStatus, 5);
    Next(second.1)
  }

  /** The body of the loop of `psa_hash_abort_test`. */
  function AbortStep(e: Engine): (AbortVector, HashOp) -> Flow<HashOp>
  {
    (v, s) => AbortCheck(e, v, s)
  }

  /**
   * `psa_hash_abort_test`. It passes exactly when the table is non-empty,
   * the platform services succeed in every iteration, and every vector names
   * a supported hash and expects aborts to succeed: a second abort answers
   * like the first.
   */
  function AbortTest(vs: seq<AbortVector>, p: Platform, e: Engine, op: HashOp): (v: Verdict)
    ensures v == PASS <==>
              && |vs| > 0
              && p.cryptoInit == Success
              && Rearms(p, |vs|)
              && forall j | 0 <= j < |vs| :: vs[j].alg.Hash? && vs[j].alg.hash in e.hashes && vs[j].expectedStatus == Success
  {
    AbortTestPassesIff(vs, p, e, op);
    CryptoTest(vs, p, op, AbortStep(e))
  }

  /** The pass condition of `AbortTest`, for the frame run with its loop body. */
  lemma AbortTestPassesIff(vs: seq<AbortVector>, p: Platform, e: Engine, op: HashOp)
    ensures CryptoTest(vs, p, op, AbortStep(e)) == PASS <==>
              && |vs| > 0
              && p.cryptoInit == Success
              && Rearms(p, |vs|)
              && forall j | 0 <= j < |vs| :: vs[j].alg.Hash? && vs[j].alg.hash in e.hashes && vs[j].expectedStatus == Success
  {
    var check := AbortStep(e);
    var ok := (v: AbortVector) => v.alg.Hash? && v.alg.hash in e.hashes && v.expectedStatus == Success;
    CryptoTestPassesIff(vs, p, op, check, (s: HashOp) => true, ok);
  }

  /** The one-byte message of `psa_hash_abort_before_operation_finish`. */
  const ABORT_INPUT: seq<byte> := [0xbd]

  /**
   * `psa_hash_abort_before_operation_finish`: set up SHA-256, add one byte,
   * abort, then finish into a 64-byte buffer, which must be a bad-state
   * error. There is no vector table, so no skip.
   */
  function AbortBeforeFinish(p: Platform, e: Engine): (v: Verdict)
    // only the platform and the availability of SHA-256 can fail the test:
    // after an abort, finish always reports a bad state
    ensures v == PASS <==> p.cryptoInit == Success && p.watchdog(0) == ValSuccess && Sha256 in e.hashes
    ensures v != PASS ==> v in {AssertFailed(1), AssertFailed(2), AssertFailed(3)}
  {
    VerdictOf(
      :- Expect(p.cryptoInit == Success, 1);
      :- Expect(p.watchdog(0) == ValSuccess, 2);
      var setup := HashSetup(e, HashInactive, Hash(Sha256));
      :- Expect(setup.0 == Success, 3);
      var update := HashUpdate(setup.1, ABORT_INPUT);
      :- Expect(update.0 == Success, 4);
      var abort := HashAbort(update.1);
      :- Expect(abort.0 == Success, 5);
      var finish := HashFinish(e, abort.1, HASH_64B);
      :- Expect(finish.0.status == ErrorBadState, 6);
      Next(finish.1))
  }

  // ---------------------------------------------------------------- test_c006

  /** The expected digests test_c006 keeps outside its vector table. */
  datatype DigestTables = DigestTables(sha384: seq<byte>, sha512: seq<byte>)

  /** One entry of test_c006's vector table. */
  datatype ComputeVector = ComputeVector(
    alg: Alg, input: seq<byte>, inputLength: nat, hash: seq<byte>, expectedStatus: PsaStatus)

  /** The digest a vector is compared with: the shared one for SHA-384 and SHA-512, else its own. */
  function ExpectedHash(tables: DigestTables, v: ComputeVector): (h: seq<byte>)
    ensures v.alg == Hash(Sha384) ==> h == tables.sha384
    ensures v.alg == Hash(Sha512) ==> h == tables.sha512
    ensures v.alg != Hash(Sha384) && v.alg != Hash(Sha512) ==> h == v.hash
  {
    if v.alg == Hash(Sha384) then tables.sha384
    else if v.alg == Hash(Sha512) then tables.sha512
    else v.hash
  }

  /** One iteration of `psa_hash_compute_test`, hashing into a 64-byte buffer. */
  function ComputeCheck(e: Engine, tables: DigestTables, v: ComputeVector, s: ()): (f: Flow<()>)
    ensures f.Exit? ==> f.verdict in {AssertFailed(5), AssertFailed(7), AssertFailed(8)}
  {
    var expected := ExpectedHash(tables, v);
    var computed := HashCompute(e, v.alg, Take(v.input, v.inputLength), HASH_64B);
    :- Expect(computed.status == v.expectedStatus, 5);
    if v.expectedStatus != Success then Next(()) else
    var length := |computed.output|;
    :- Expect(length == HashSize(v.alg), 7);
    :- Expect(SameBytes(computed.output, expected, length), 8);
    Next(())
  }

  /** The body of the loop of `psa_hash_compute_test`. */
  function ComputeStep(e: Engine, tables: DigestTables): (ComputeVector, ()) -> Flow<()>
  {
    (v, s) => ComputeCheck(e, tables, v, s)
  }

  /**
   * `psa_hash_compute_test`. It passes exactly when the table is non-empty,
   * the platform services succeed in every iteration and every vector
   * agrees with the reference.
   */
  function ComputeTest(vs: seq<ComputeVector>, p: Platform, e: Engine, tables: DigestTables): (v: Verdict)
    ensures v == PASS <==>
              && |vs| > 0
              && p.cryptoInit == Success
              && Rearms(p, |vs|)
              && forall j | 0 <= j < |vs| :: DigestAgrees(e, tables, vs[j])
  {
    ComputeTestPassesIff(vs, p, e, tables);
    CryptoTest(vs, p, (), ComputeStep(e, tables))
  }

  /**
   * What the reference answers for a vector: its expected status, and on
   * success a digest that begins with the expected digest's bytes.
   */
  predicate DigestAgrees(e: Engine, tables: DigestTables, v: ComputeVector)
  {
    var status := HashCompute(e, v.alg, Take(v.input, v.inputLength), HASH_64B).status;
    && status == v.expectedStatus
    && (status == Success ==>
          var digest := e.digest(v.alg.hash, Take(v.input, v.inputLength));
          && |digest| == HashSize(v.alg)
          && SameBytes(digest, ExpectedHash(tables, v), |digest|))
  }

  /** For an engine whose digests have their algorithm's length, the length check cannot fail. */
  lemma DigestAgreesSized(e: Engine, tables: DigestTables, v: ComputeVector)
    requires e.DigestsSized()
    ensures DigestAgrees(e, tables, v) <==>
              var computed := HashCompute(e, v.alg, Take(v.input, v.inputLength), HASH_64B);
              && computed.status == v.expectedStatus
              && (computed.status == Success ==> SameBytes(computed.output, ExpectedHash(tables, v), HashSize(v.alg)))
  {
  }

  /** The pass condition of `ComputeTest`, for the frame run with its loop body. */
  lemma ComputeTestPassesIff(vs: seq<ComputeVector>, p: Platform, e: Engine, tables: DigestTables)
    ensures CryptoTest(vs, p, (), ComputeStep(e, tables)) == PASS <==>
              && |vs| > 0
              && p.cryptoInit == Success
              && Rearms(p, |vs|)
              && forall j | 0 <= j < |vs| :: DigestAgrees(e, tables, vs[j])
  {
    var check := ComputeStep(e, tables);
    var ok := (v: ComputeVector) => DigestAgrees(e, tables, v);
    CryptoTestPassesIff(vs, p, (), check, (s: ()) => true, ok);
  }
}

=== FILE: import_test.dfy ===
/**
 * test_c002, `psa_import_key_test`: import each vector's key, read its
 * attributes back, export it and compare, destroy it, then check that an
 * import with reset attributes is refused. The test is a client of any key
 * API; `Reference` is the one the key store defines.
 */
module ImportTest {
  import opened Base
  import opened Status
  import opened CryptoTypes
  import opened Harness
  import opened KeyManagement
  import opened KeyMaterial

  /** The key-management calls the test makes, as an implementation under test provides them. */
  datatype KeyApi = KeyApi(
    importKey: (KeyStore, KeyAttributes, seq<byte>) -> Imported,
    getAttributes: (KeyStore, Handle) -> AttributesResult,
    exportKey: (KeyStore, Handle, nat) -> Answer,
    destroyKey: (KeyStore, Handle) -> Destroyed)

  /** The reference implementation of the key-management calls. */
  function Reference(e: Engine): (api: KeyApi)
    ensures forall ks, a, data :: api.importKey(ks, a, data) == Import(ks, e, a, data)
    ensures forall ks, h :: api.getAttributes(ks, h) == GetKeyAttributes(ks, h)
    ensures forall ks, h, n :: api.exportKey(ks, h, n) == Export(ks, h, n)
    ensures forall ks, h :: api.destroyKey(ks, h) == Destroy(ks, h)
  {
    KeyApi((ks, a, data) => Import(ks, e, a, data), GetKeyAttributes, Export, Destroy)
  }

  /** One entry of the vector table (the description and the handle slot are left out). */
  datatype ImportVector = ImportVector(
    keyType: KeyType,
    attrBits: nat,
    usage: set<Usage>,
    keyData: seq<byte>,
    keyLength: nat,
    expectedBitLength: nat,
    expectedKeyLength: nat,
    expectedStatus: PsaStatus)

  /**
   * The test as written, or with its two slips corrected: checkpoint 5 reads
   * the key type from the caller's own record instead of the one
   * `psa_get_key_attributes` filled in, and checkpoint 11 tests the status
   * of the earlier export instead of the discarded status of
   * `psa_destroy_key`.
   */
  datatype Revision = AsWritten | Corrected

  /** `return VAL_STATUS_INVALID` from inside the loop. */
  const INVALID: Verdict := Returned(ValInvalid)

  /** The body of one iteration, from the key-data selection on. */
  function ImportCheck(rev: Revision, api: KeyApi, tables: KeyTables, bufferSize: nat, v: ImportVector, st: ClientState)
    : (f: Flow<ClientState>)
    ensures f.Exit? ==> f.verdict != PASS
    ensures f.Exit? && f.verdict.AssertFailed? ==> 3 <= f.verdict.checkpoint <= 13
    ensures SelectKeyData(tables, v.keyType, v.expectedBitLength, v.keyData, false).None? ==> f == Exit(INVALID)
  {
    var selected := SelectKeyData(tables, v.keyType, v.expectedBitLength, v.keyData, false);
    if selected.None? then Exit(INVALID) else
    var keyData := selected.value;
    var attributes := SetKeyUsageFlags(SetKeyBits(SetKeyType(st.attributes, v.keyType), v.attrBits), v.usage);
    var imported := api.importKey(st.store, attributes, Take(keyData, v.keyLength));
    :- Expect(imported.status == v.expectedStatus, 3);
    if v.expectedStatus != Success then Next(ClientState(imported.store, attributes)) else
    var got := api.getAttributes(imported.store, imported.handle);
    :- Expect(got.status == Success, 4);
    var typeRead := if rev == AsWritten then attributes.keyType else got.attributes.keyType;
    :- Expect(typeRead == v.keyType, 5);
    :- if v.attrBits != 0 then Expect(got.attributes.bits == v.attrBits, 6)
       else Expect(got.attributes.bits == v.expectedBitLength, 7);
    var exported := api.exportKey(imported.store, imported.handle, bufferSize);
    :- Expect(exported.status == Success, 7);
    var length := |exported.output|;
    :- Expect(length == v.expectedKeyLength, 8);
    :- if v.keyType.IsUnstructured() then Expect(SameBytes(exported.output, v.keyData, length), 9)
       else if v.keyType.IsRsa() || v.keyType.IsEcc() then Expect(SameBytes(keyData, exported.output, length), 10)
       else Shut(INVALID);
    var cleared := ResetKeyAttributes(attributes);
    var destroyed := api.destroyKey(imported.store, imported.handle);
    var statusRead := if rev == AsWritten then exported.status else destroyed.status;
    :- Expect(statusRead == Success, 11);
    var reimported := api.importKey(destroyed.store, cleared, Take(keyData, v.keyLength));
    :- Expect(reimported.status == ErrorInvalidArgument, 12);
    :- Expect(reimported.handle == 0, 13);
    Next(ClientState(reimported.store, cleared))
  }

  /** The body of the loop of `psa_import_key_test`. */
  function ImportStep(rev: Revision, api: KeyApi, tables: KeyTables, bufferSize: nat): (ImportVector, ClientState) -> Flow<ClientState>
  {
    (v, s) => ImportCheck(rev, api, tables, bufferSize, v, s)
  }

  /**
   * The test function. Against the reference it passes exactly when the
   * table is non-empty, the platform services succeed in every iteration and
   * every vector agrees with the reference.
   */
  function ImportKeyTest(rev: Revision, vs: seq<ImportVector>, p: Platform, api: KeyApi, tables: KeyTables,
                         bufferSize: nat, st: ClientState): (v: Verdict)
    ensures forall e | api == Reference(e) ::
              (v == PASS <==>
                 && |vs| > 0
                 && p.cryptoInit == Success
                 && Rearms(p, |vs|)
                 && forall j | 0 <= j < |vs| :: VectorAgrees(e, tables, bufferSize, vs[j]))
  {
    ImportKeyTestPassesIff(rev, vs, p, api, tables, bufferSize, st);
    CryptoTest(vs, p, st, ImportStep(rev, api, tables, bufferSize))
  }

  /**
   * What the reference answers for a vector, independently of the slots
   * already in use: the data selected and cut to the vector's length
   * imports with the vector's status, and a key that imports can be read
   * back with the expected size, exported whole into the buffer with the
   * expected length, and is of a type the test knows how to compare.
   */
  predicate VectorAgrees(e: Engine, tables: KeyTables, bufferSize: nat, v: ImportVector)
  {
    var selected := SelectKeyData(tables, v.keyType, v.expectedBitLength, v.keyData, false);
    && selected.Some?
    && var data := Take(selected.value, v.keyLength);
       var a := KeyAttributes(v.keyType, 0, 0, v.usage, NoAlg, v.attrBits);
       && ImportStatus(e, a, data) == v.expectedStatus
       && (v.expectedStatus == Success ==>
             && (v.attrBits != 0 || e.parse(v.keyType, data).bits == v.expectedBitLength)
             && UsageExport in v.usage
             && |data| <= bufferSize
             && |data| == v.expectedKeyLength
             && (v.keyType.IsUnstructured() || v.keyType.IsRsa() || v.keyType.IsEcc()))
  }

  /** Against the reference one iteration completes exactly when the vector agrees, whatever the state. */
  lemma ReferenceCheck(rev: Revision, e: Engine, tables: KeyTables, bufferSize: nat, v: ImportVector, st: ClientState)
    ensures ImportCheck(rev, Reference(e), tables, bufferSize, v, st).Next? <==> VectorAgrees(e, tables, bufferSize, v)
  {
    var selected := SelectKeyData(tables, v.keyType, v.expectedBitLength, v.keyData, false);
    if selected.Some? {
      var data := Take(selected.value, v.keyLength);
      var attributes := SetKeyUsageFlags(SetKeyBits(SetKeyType(st.attributes, v.keyType), v.attrBits), v.usage);
      var a := KeyAttributes(v.keyType, 0, 0, v.usage, NoAlg, v.attrBits);
      assert ImportStatus(e, attributes, data) == ImportStatus(e, a, data);
      if ImportStatus(e, a, data) == Success && v.expectedStatus == Success {
        ReferenceCheckImported(rev, e, tables, bufferSize, v, st);
      }
    }
  }

  /** `ReferenceCheck` once the key has imported as the vector expects. */
  lemma ReferenceCheckImported(rev: Revision, e: Engine, tables: KeyTables, bufferSize: nat, v: ImportVector,
                               st: ClientState)
    requires var selected := SelectKeyData(tables, v.keyType, v.expectedBitLength, v.keyData, false);
             && selected.Some?
             && v.expectedStatus == Success
             && ImportStatus(e, KeyAttributes(v.keyType, 0, 0, v.usage, NoAlg, v.attrBits),
                             Take(selected.value, v.keyLength)) == Success
    ensures ImportCheck(rev, Reference(e), tables, bufferSize, v, st).Next? <==> VectorAgrees(e, tables, bufferSize, v)
  {
    var selected := SelectKeyData(tables, v.keyType, v.expectedBitLength, v.keyData, false);
    var data := Take(selected.value, v.keyLength);
    var attributes := SetKeyUsageFlags(SetKeyBits(SetKeyType(st.attributes, v.keyType), v.attrBits), v.usage);
    var a := KeyAttributes(v.keyType, 0, 0, v.usage, NoAlg, v.attrBits);
    assert ImportStatus(e, attributes, data) == ImportStatus(e, a, data);
    var imported := Import(st.store, e, attributes, data);
    assert imported.store.slots[imported.handle] == Key(attributes.(bits := e.parse(v.keyType, data).bits), data);
    assert v.keyType.IsUnstructured() ==> data == v.keyData[..|data|];
  }

  /**
   * test_c002 passes against the reference exactly when the table is
   * non-empty, the platform services succeed in every iteration and every
   * vector agrees with the reference.
   */
  lemma ImportKeyTestPassesIff(rev: Revision, vs: seq<ImportVector>, p: Platform, api: KeyApi, tables: KeyTables,
                               bufferSize: nat, st: ClientState)
    ensures forall e | api == Reference(e) ::
              (CryptoTest(vs, p, st, ImportStep(rev, api, tables, bufferSize)) == PASS <==>
                 && |vs| > 0
                 && p.cryptoInit == Success
                 && Rearms(p, |vs|)
                 && forall j | 0 <= j < |vs| :: VectorAgrees(e, tables, bufferSize, vs[j]))
  {
    forall e | api == Reference(e)
      ensures CryptoTest(vs, p, st, ImportStep(rev, api, tables, bufferSize)) == PASS <==>
                && |vs| > 0
                && p.cryptoInit == Success
                && Rearms(p, |vs|)
                && forall j | 0 <= j < |vs| :: VectorAgrees(e, tables, bufferSize, vs[j])
    {
      var check := ImportStep(rev, api, tables, bufferSize);
      var inv := (s: ClientState) => true;
      var ok := (v: ImportVector) => VectorAgrees(e, tables, bufferSize, v);
      forall v, t | inv(t)
        ensures check(v, t).Next? <==> ok(v)
      {
        ReferenceCheck(rev, e, tables, bufferSize, v, t);
      }
      CryptoTestPassesIff(vs, p, st, check, inv, ok);
    }
  }

  // ---------------------------------------------------------------- findings

  /** The reference, except that `psa_destroy_key` fails and keeps the key. */
  function DestroyRefused(e: Engine): KeyApi
  {
    Reference(e).(destroyKey := (ks: KeyStore, h: Handle) => Destroyed(ErrorGenericError, ks))
  }

  /**
   * The discarded destroy status: against an implementation whose destroy
   * fails, the test as written completes the iteration, while the corrected
   * test stops at checkpoint 11.
   */
  lemma DestroyFailureUndetected(e: Engine, tables: KeyTables, bufferSize: nat, v: ImportVector, st: ClientState)
    requires VectorAgrees(e, tables, bufferSize, v) && v.expectedStatus == Success
    ensures ImportCheck(AsWritten, DestroyRefused(e), tables, bufferSize, v, st).Next?
    ensures ImportCheck(Corrected, DestroyRefused(e), tables, bufferSize, v, st) == Exit(AssertFailed(11))
  {
    ReferenceCheck(AsWritten, e, tables, bufferSize, v, st);
    ReferenceCheck(Corrected, e, tables, bufferSize, v, st);
  }

  /** The reference, except that `psa_get_key_attributes` reports no key type. */
  function TypeForgotten(e: Engine): KeyApi
  {
    Reference(e).(getAttributes := (ks: KeyStore, h: Handle) =>
      var got := GetKeyAttributes(ks, h);
      got.(attributes := got.attributes.(keyType := NoKeyType)))
  }

  /**
   * The type read from the caller's record: against an implementation that
   * reports a wrong key type, the test as written completes the iteration,
   * while the corrected test stops at checkpoint 5.
   */
  lemma WrongTypeUndetected(e: Engine, tables: KeyTables, bufferSize: nat, v: ImportVector, st: ClientState)
    requires VectorAgrees(e, tables, bufferSize, v) && v.expectedStatus == Success
    ensures ImportCheck(AsWritten, TypeForgotten(e), tables, bufferSize, v, st).Next?
    ensures ImportCheck(Corrected, TypeForgotten(e), tables, bufferSize, v, st) == Exit(AssertFailed(5))
  {
    ReferenceCheck(AsWritten, e, tables, bufferSize, v, st);
    ReferenceCheck(Corrected, e, tables, bufferSize, v, st);
  }
}

=== FILE: key_material.dfy ===
/**
 * Client-side helpers shared by the crypto tests: choosing the key data to
 * import for a vector (test_c002, test_c040, test_c042), `is_buffer_empty`
 * and the salt normalisation of test_c040.
 */
module KeyMaterial {
  import opened Base
  import opened CryptoTypes
  import opened KeyManagement

  /** The fixed key blobs of the test data: RSA key pairs and public keys by size, and one ECC pair and public key. */
  datatype KeyTables = KeyTables(
    rsa384Pair: seq<byte>, rsa256Pair: seq<byte>, rsa128Pair: seq<byte>,
    rsa384Public: seq<byte>, rsa256Public: seq<byte>, rsa128Public: seq<byte>,
    eccPair: seq<byte>, eccPublic: seq<byte>)

  /** `BYTES_TO_BITS`. */
  function BytesToBits(n: nat): nat
  {
    n * 8
  }

  /**
   * The RSA blobs a test knows, by bit length. test_c002 knows the 384- and
   * 256-byte keys; test_c040 and test_c042 also know the 128-byte ones.
   */
  function RsaBlobs(tables: KeyTables, pair: bool, with128: bool): map<nat, seq<byte>>
  {
    var known := map[BytesToBits(384) := (if pair then tables.rsa384Pair else tables.rsa384Public),
                     BytesToBits(256) := (if pair then tables.rsa256Pair else tables.rsa256Public)];
    if with128 then known[BytesToBits(128) := (if pair then tables.rsa128Pair else tables.rsa128Public)]
    else known
  }

  /**
   * The key data a vector imports: the RSA blob of its expected length (or
   * `None`, which ends the test with `VAL_STATUS_INVALID`), the ECC pair or
   * public blob, or else the vector's own data.
   */
  function SelectKeyData(tables: KeyTables, t: KeyType, expectedBits: nat, own: seq<byte>, with128: bool)
    : (r: Option<seq<byte>>)
    ensures t.IsRsa() ==>
              var blobs := RsaBlobs(tables, t == RsaKeyPair, with128);
              (r.Some? <==> expectedBits in blobs) && (r.Some? ==> r.value == blobs[expectedBits])
    ensures t.IsEcc() ==> r == Some(if t.IsEccKeyPair() then tables.eccPair else tables.eccPublic)
    ensures !t.IsRsa() && !t.IsEcc() ==> r == Some(own)
  {
    if t.IsRsa() then
      if t == RsaKeyPair then
        if expectedBits == BytesToBits(384) then Some(tables.rsa384Pair)
        else if expectedBits == BytesToBits(256) then Some(tables.rsa256Pair)
        else if with128 && expectedBits == BytesToBits(128) then Some(tables.rsa128Pair)
        else None
      else
        if expectedBits == BytesToBits(384) then Some(tables.rsa384Public)
        else if expectedBits == BytesToBits(256) then Some(tables.rsa256Public)
        else if with128 && expectedBits == BytesToBits(128) then Some(tables.rsa128Public)
        else None
    else if t.IsEcc() then
      if t.IsEccKeyPair() then Some(tables.eccPair) else Some(tables.eccPublic)
    else Some(own)
  }

  /** Only an RSA vector with a length the test does not know ends the test early. */
  lemma SelectionFailsOnlyForUnknownRsa(tables: KeyTables, t: KeyType, expectedBits: nat, own: seq<byte>, with128: bool)
    ensures SelectKeyData(tables, t, expectedBits, own, with128).None? <==>
              t.IsRsa() && expectedBits != 3072 && expectedBits != 2048 && (!with128 || expectedBits != 1024)
  {
  }

  /** `is_buffer_empty`: true exactly when the first `size` bytes are all zero. */
  method IsBufferEmpty(buffer: seq<byte>, size: nat) returns (empty: bool)
    requires size <= |buffer|
    ensures empty <==> AllZero(buffer[..size])
  {
    var i := 0;
    while i < size
      invariant i <= size
      invariant AllZero(buffer[..i])
    {
      if buffer[i] != 0 {
        assert buffer[..size][i] != 0;
        return false;
      }
      assert buffer[..i + 1] == buffer[..i] + [buffer[i]];
      i := i + 1;
    }
    return true;
  }

  /** A vector's salt field: the bytes and the recorded length. */
  datatype Salt = Salt(bytes: seq<byte>, length: nat)

  /**
   * The salt normalisation of test_c040: an all-zero salt is replaced by no
   * salt and its recorded length is set to 0 (the table entry itself is
   * updated). Returns the updated field and the bytes the decryption is given.
   */
  function NormalizeSalt(s: Salt): (r: (Salt, seq<byte>))
    ensures r.0.bytes == s.bytes && r.0.length <= s.length
    ensures r.1 == [] <==> AllZero(Take(s.bytes, s.length))
    ensures r.1 != [] ==> r == (s, Take(s.bytes, s.length))
    ensures r.1 == [] ==> r.0.length == 0
  {
    if AllZero(Take(s.bytes, s.length)) then (s.(length := 0), []) else (s, Take(s.bytes, s.length))
  }

  /** Normalising a normalised salt changes nothing, so a table entry may be normalised on every run. */
  lemma NormalizeSaltIdempotent(s: Salt)
    ensures NormalizeSalt(NormalizeSalt(s).0) == NormalizeSalt(s)
  {
    if AllZero(Take(s.bytes, s.length)) {
      assert Take(s.bytes, 0) == [];
    }
  }

  /** What a crypto test carries from one vector to the next: the key slots and its attributes record. */
  datatype ClientState = ClientState(store: KeyStore, attributes: KeyAttributes)

  /** Identifier, lifetime and size still zero: the tests that only set a key's policy never touch them. */
  predicate Blank(a: KeyAttributes)
  {
    a.id == 0 && a.lifetime == 0 && a.bits == 0
  }

  /**
   * The three setters test_c037, test_c040 and test_c042 call, in their order:
   * type, algorithm, usage. On a blank record the result is fully determined.
   */
  function SetPolicy(a: KeyAttributes, t: KeyType, alg: Alg, usage: set<Usage>): (r: KeyAttributes)
    ensures r.keyType == t && r.alg == alg && r.usage == usage
    ensures r.id == a.id && r.lifetime == a.lifetime && r.bits == a.bits
    ensures Blank(a) ==> r == KeyAttributes(t, 0, 0, usage, alg, 0)
  {
    SetKeyUsageFlags(SetKeyAlgorithm(SetKeyType(a, t), alg), usage)
  }
}

=== FILE: key_store.dfy ===
/**
 * The reference the crypto tests drive: key slots reached by handle, with
 * import, attribute query, export and destroy, and the one-shot operations
 * that take a handle. The cryptography itself (parsing key data, digests,
 * decryption, signature checks, cipher output) is delegated to an opaque
 * `Engine`; the reference decides only what the PSA Cryptography API 1.0
 * fixes independently of the mathematics: handle validation, usage policy,
 * buffer sizes and the statuses these produce.
 */
module KeyManagement {
  import opened Base
  import opened Status
  import opened CryptoTypes

  /** `psa_key_handle_t`. 0 never names a key. */
  type Handle = nat

  datatype Key = Key(attributes: KeyAttributes, material: seq<byte>)

  /** Why the engine refuses key data. */
  datatype Rejection = UnsupportedKey | MalformedKey

  /** The engine's reading of key data: refused, or accepted with its size in bits. */
  datatype Parse = Rejected(why: Rejection) | Parsed(bits: nat)

  /** A status together with the bytes written to the caller's output buffer. */
  datatype Answer = Answer(status: PsaStatus, output: seq<byte>)

  /** The mathematics the reference delegates. */
  datatype Engine = Engine(
    parse: (KeyType, seq<byte>) -> Parse,
    hashes: set<HashAlg>,                                           // supported hash algorithms
    digest: (HashAlg, seq<byte>) -> seq<byte>,
    decrypt: (Key, Alg, seq<byte>, seq<byte>) -> Answer,            // key, alg, input, salt
    verify: (Key, Alg, seq<byte>, seq<byte>) -> PsaStatus,          // key, alg, hash, signature
    cipherUpdate: (Key, Alg, bool, seq<byte>, seq<byte>, seq<byte>) -> Answer, // key, alg, encrypt, iv, consumed, input
    cipherFinish: (Key, Alg, bool, seq<byte>, seq<byte>) -> Answer)           // key, alg, encrypt, iv, consumed
  {
    /** Every digest has its algorithm's length. */
    ghost predicate DigestsSized()
    {
      forall h, m :: |digest(h, m)| == DigestLength(h)
    }

    /** Handles are the key store's business: the engine never reports an invalid handle for a key it is given. */
    ghost predicate HandlesOwned()
    {
      && (forall k, alg, input, salt :: decrypt(k, alg, input, salt).status != ErrorInvalidHandle)
      && (forall k, alg, hash, signature :: verify(k, alg, hash, signature) != ErrorInvalidHandle)
    }
  }

  /** The key slots, and the handle the next import will return. */
  datatype KeyStore = KeyStore(slots: map<Handle, Key>, next: Handle)
  {
    /** Handle 0 is never in use, and every handle in use was handed out before `next`. */
    predicate Valid()
    {
      next > 0 && forall h | h in slots :: 0 < h < next
    }
  }

  const EMPTY_KEY_STORE: KeyStore := KeyStore(map[], 1)

  datatype Imported = Imported(status: PsaStatus, handle: Handle, store: KeyStore)

  /** The status an import of `data` under `attributes` ends with; it does not depend on the store. */
  function ImportStatus(e: Engine, attributes: KeyAttributes, data: seq<byte>): PsaStatus
  {
    if attributes.keyType == NoKeyType then ErrorInvalidArgument
    else match e.parse(attributes.keyType, data)
      case Rejected(UnsupportedKey) => ErrorNotSupported
      case Rejected(MalformedKey) => ErrorInvalidArgument
      case Parsed(bits) =>
        if attributes.bits != 0 && attributes.bits != bits then ErrorInvalidArgument else Success
  }

  /**
   * `psa_import_key`. The attributes must name a key type; a nonzero size in
   * the attributes must match the data. On success the key gets a fresh
   * handle and records the data's size; on failure the handle is 0 and
   * nothing changes.
   */
  function Import(ks: KeyStore, e: Engine, attributes: KeyAttributes, data: seq<byte>): (r: Imported)
    ensures r.status == ImportStatus(e, attributes, data)
    ensures r.status == Success <==>
              && attributes.keyType != NoKeyType
              && e.parse(attributes.keyType, data).Parsed?
              && (attributes.bits == 0 || attributes.bits == e.parse(attributes.keyType, data).bits)
    ensures r.status != Success ==> r.handle == 0 && r.store == ks
    ensures r.status == Success ==>
              && r.handle == ks.next
              && r.store.slots == ks.slots[r.handle := Key(attributes.(bits := e.parse(attributes.keyType, data).bits), data)]
    ensures ks.Valid() ==> r.store.Valid()
    ensures ks.Valid() && r.status == Success ==> r.handle != 0 && r.handle !in ks.slots
  {
    var status := ImportStatus(e, attributes, data);
    if status != Success then Imported(status, 0, ks)
    else
      var key := Key(attributes.(bits := e.parse(attributes.keyType, data).bits), data);
      Imported(Success, ks.next, KeyStore(ks.slots[ks.next := key], ks.next + 1))
  }

  datatype AttributesResult = AttributesResult(status: PsaStatus, attributes: KeyAttributes)

  /** `psa_get_key_attributes`; an unknown handle leaves the record cleared. */
  function GetKeyAttributes(ks: KeyStore, h: Handle): (r: AttributesResult)
    ensures h !in ks.slots ==> r == AttributesResult(ErrorInvalidHandle, KEY_ATTRIBUTES_INIT)
    ensures h in ks.slots ==> r == AttributesResult(Success, ks.slots[h].attributes)
  {
    if h !in ks.slots then AttributesResult(ErrorInvalidHandle, KEY_ATTRIBUTES_INIT)
    else AttributesResult(Success, ks.slots[h].attributes)
  }

  /**
   * `psa_export_key` into a buffer of `size` bytes: the key must allow export
   * and fit the buffer; the output is the data it was imported from.
   */
  function Export(ks: KeyStore, h: Handle, size: nat): (r: Answer)
    ensures r.status == Success <==>
              h in ks.slots && UsageExport in ks.slots[h].attributes.usage && |ks.slots[h].material| <= size
    ensures h !in ks.slots ==> r.status == ErrorInvalidHandle
    ensures h in ks.slots && UsageExport !in ks.slots[h].attributes.usage ==> r.status == ErrorNotPermitted
    ensures r.status == Success ==> r.output == ks.slots[h].material
    ensures r.status != Success ==> r.output == []
    ensures |r.output| <= size
  {
    if h !in ks.slots then Answer(ErrorInvalidHandle, [])
    else if UsageExport !in ks.slots[h].attributes.usage then Answer(ErrorNotPermitted, [])
    else if |ks.slots[h].material| > size then Answer(ErrorBufferTooSmall, [])
    else Answer(Success, ks.slots[h].material)
  }

  datatype Destroyed = Destroyed(status: PsaStatus, store: KeyStore)

  /** `psa_destroy_key`. Handle 0 is accepted and does nothing; any other unknown handle is refused. */
  function Destroy(ks: KeyStore, h: Handle): (r: Destroyed)
    ensures r.status == Success <==> h == 0 || h in ks.slots
    ensures r.status != Success ==> r.status == ErrorInvalidHandle && r.store == ks
    ensures h != 0 || ks.Valid() ==> h !in r.store.slots
    ensures r.store.next == ks.next
    ensures forall g | g != h :: (g in r.store.slots <==> g in ks.slots) && (g in ks.slots ==> r.store.slots[g] == ks.slots[g])
    ensures ks.Valid() ==> r.store.Valid()
  {
    if h == 0 then Destroyed(Success, ks)
    else if h !in ks.slots then Destroyed(ErrorInvalidHandle, ks)
    else Destroyed(Success, KeyStore(ks.slots - {h}, ks.next))
  }

  /** The key may be used for `flag` with `alg`: the usage policy of the PSA Cryptography API 1.0. */
  predicate Permits(k: Key, flag: Usage, alg: Alg)
  {
    flag in k.attributes.usage && k.attributes.alg == alg
  }

  /**
   * The part of `psa_asymmetric_decrypt` that follows a valid handle: the
   * key's policy must allow decryption with `alg`; then the engine decides,
   * and its output must fit `size` bytes.
   */
  function DecryptWithKey(e: Engine, k: Key, alg: Alg, input: seq<byte>, salt: seq<byte>, size: nat): (r: Answer)
    ensures !Permits(k, UsageDecrypt, alg) ==> r == Answer(ErrorNotPermitted, [])
    ensures r.status == Success <==>
              && Permits(k, UsageDecrypt, alg)
              && e.decrypt(k, alg, input, salt).status == Success
              && |e.decrypt(k, alg, input, salt).output| <= size
    ensures r.status == Success ==> r == e.decrypt(k, alg, input, salt)
    ensures r.status != Success ==> r.output == []
    ensures |r.output| <= size
  {
    if !Permits(k, UsageDecrypt, alg) then Answer(ErrorNotPermitted, [])
    else
      var a := e.decrypt(k, alg, input, salt);
      if a.status != Success then Answer(a.status, [])
      else if |a.output| > size then Answer(ErrorBufferTooSmall, [])
      else a
  }

  /** `psa_asymmetric_decrypt` into a buffer of `size` bytes: the handle is checked first. */
  function AsymmetricDecrypt(ks: KeyStore, e: Engine, h: Handle, alg: Alg, input: seq<byte>, salt: seq<byte>, size: nat)
    : (r: Answer)
    ensures h !in ks.slots ==> r == Answer(ErrorInvalidHandle, [])
    ensures h in ks.slots ==> r == DecryptWithKey(e, ks.slots[h], alg, input, salt, size)
  {
    if h !in ks.slots then Answer(ErrorInvalidHandle, [])
    else DecryptWithKey(e, ks.slots[h], alg, input, salt, size)
  }

  /** The part of `psa_asymmetric_verify` that follows a valid handle: policy, then the engine's verdict. */
  function VerifyWithKey(e: Engine, k: Key, alg: Alg, hash: seq<byte>, signature: seq<byte>): (status: PsaStatus)
    ensures !Permits(k, UsageVerifyHash, alg) ==> status == ErrorNotPermitted
    ensures Permits(k, UsageVerifyHash, alg) ==> status == e.verify(k, alg, hash, signature)
  {
    if !Permits(k, UsageVerifyHash, alg) then ErrorNotPermitted
    else e.verify(k, alg, hash, signature)
  }

  /** `psa_asymmetric_verify`: the handle is checked first. */
  function AsymmetricVerify(ks: KeyStore, e: Engine, h: Handle, alg: Alg, hash: seq<byte>, signature: seq<byte>)
    : (status: PsaStatus)
    ensures h !in ks.slots ==> status == ErrorInvalidHandle
    ensures h in ks.slots ==> status == VerifyWithKey(e, ks.slots[h], alg, hash, signature)
  {
    if h !in ks.slots then ErrorInvalidHandle
    else VerifyWithKey(e, ks.slots[h], alg, hash, signature)
  }

  /**
   * `psa_hash_compute` into a buffer of `size` bytes: `alg` must be a
   * supported hash, and the buffer must hold its digest.
   */
  function HashCompute(e: Engine, alg: Alg, input: seq<byte>, size: nat): (r: Answer)
    ensures r.status == Success <==> alg.Hash? && alg.hash in e.hashes && HashSize(alg) <= size
    ensures !alg.Hash? ==> r.status == ErrorInvalidArgument
    ensures alg.Hash? && alg.hash !in e.hashes ==> r.status == ErrorNotSupported
    ensures r.status == Success ==> r.output == e.digest(alg.hash, input)
    ensures r.status == Success && e.DigestsSized() ==> |r.output| == HashSize(alg)
    ensures r.status != Success ==> r.output == []
  {
    if !alg.Hash? then Answer(ErrorInvalidArgument, [])
    else if alg.hash !in e.hashes then Answer(ErrorNotSupported, [])
    else if size < HashSize(alg) then Answer(ErrorBufferTooSmall, [])
    else Answer(Success, e.digest(alg.hash, input))
  }

  // ------------------------------------------------------------------ lemmas

  /**
   * Import then query: the attributes come back as given, except that the
   * size is the one given when nonzero and the data's size otherwise.
   */
  lemma AttributesAfterImport(ks: KeyStore, e: Engine, attributes: KeyAttributes, data: seq<byte>)
    requires Import(ks, e, attributes, data).status == Success
    ensures var r := Import(ks, e, attributes, data);
            var got := GetKeyAttributes(r.store, r.handle);
            && got.status == Success
            && got.attributes.keyType == attributes.keyType
            && got.attributes.usage == attributes.usage
            && got.attributes.bits == (if attributes.bits != 0 then attributes.bits else e.parse(attributes.keyType, data).bits)
  {
  }

  /** Import then export: an exportable key comes back byte for byte. */
  lemma ExportAfterImport(ks: KeyStore, e: Engine, attributes: KeyAttributes, data: seq<byte>, size: nat)
    requires Import(ks, e, attributes, data).status == Success
    requires UsageExport in attributes.usage && |data| <= size
    ensures var r := Import(ks, e, attributes, data);
            Export(r.store, r.handle, size) == Answer(Success, data)
  {
  }

  /** Import then destroy: the slots are as before, and the handle is no longer valid. */
  lemma DestroyAfterImport(ks: KeyStore, e: Engine, attributes: KeyAttributes, data: seq<byte>)
    requires ks.Valid()
    requires Import(ks, e, attributes, data).status == Success
    ensures var r := Import(ks, e, attributes, data);
            var d := Destroy(r.store, r.handle);
            && d.status == Success
            && d.store.slots == ks.slots
            && d.store.Valid()
            && GetKeyAttributes(d.store, r.handle).status == ErrorInvalidHandle
  {
    var r := Import(ks, e, attributes, data);
    assert r.store.slots - {r.handle} == ks.slots;
  }

  /** Importing with cleared attributes fails with an invalid argument and hands back handle 0. */
  lemma ImportClearedFails(ks: KeyStore, e: Engine, a: KeyAttributes, data: seq<byte>)
    requires IsCleared(a)
    ensures Import(ks, e, a, data) == Imported(ErrorInvalidArgument, 0, ks)
  {
  }

  /** In a valid store, handle 0 names no key, so every handle-taking call refuses it. */
  lemma ZeroHandleInvalid(ks: KeyStore, e: Engine, alg: Alg, input: seq<byte>, extra: seq<byte>, size: nat)
    requires ks.Valid()
    ensures AsymmetricDecrypt(ks, e, 0, alg, input, extra, size) == Answer(ErrorInvalidHandle, [])
    ensures AsymmetricVerify(ks, e, 0, alg, input, extra) == ErrorInvalidHandle
    ensures Export(ks, 0, size).status == ErrorInvalidHandle
    ensures GetKeyAttributes(ks, 0).status == ErrorInvalidHandle
  {
  }
}

=== FILE: operations.dfy ===
/**
 * The lifecycles of multipart hash and cipher operations in the PSA
 * Cryptography API 1.0. A zero-filled operation object is inactive; setup
 * makes it active; finish returns it to inactive when it succeeds; abort
 * always succeeds and always leaves it inactive. Calling update or finish
 * on an inactive operation is a bad-state error. A failing update or finish
 * leaves the operation active, to be aborted.
 */
module Operations {
  import opened Base
  import opened Status
  import opened CryptoTypes
  import opened KeyManagement

  // ---------------------------------------------------------------- hashing

  /** `psa_hash_operation_t`: inactive, or hashing with `alg` over the input so far. */
  datatype HashOp = HashInactive | HashActive(alg: HashAlg, input: seq<byte>)

  /** `psa_hash_setup`. */
  function HashSetup(e: Engine, op: HashOp, alg: Alg): (r: (PsaStatus, HashOp))
    ensures op.HashActive? ==> r == (ErrorBadState, op)
    ensures r.0 == Success <==> op.HashInactive? && alg.Hash? && alg.hash in e.hashes
    ensures r.0 == Success ==> r.1 == HashActive(alg.hash, [])
    ensures r.0 != Success ==> r.1 == op
  {
    if op.HashActive? then (ErrorBadState, op)
    else if !alg.Hash? then (ErrorInvalidArgument, op)
    else if alg.hash !in e.hashes then (ErrorNotSupported, op)
    else (Success, HashActive(alg.hash, []))
  }

  /** `psa_hash_update`: appends to the message. */
  function HashUpdate(op: HashOp, data: seq<byte>): (r: (PsaStatus, HashOp))
    ensures op.HashInactive? ==> r == (ErrorBadState, op)
    ensures op.HashActive? ==> r == (Success, HashActive(op.alg, op.input + data))
  {
    if op.HashInactive? then (ErrorBadState, op)
    else (Success, op.(input := op.input + data))
  }

  /** `psa_hash_finish` into a buffer of `size` bytes. */
  function HashFinish(e: Engine, op: HashOp, size: nat): (r: (Answer, HashOp))
    ensures op.HashInactive? ==> r == (Answer(ErrorBadState, []), op)
    ensures r.0.status == Success <==> op.HashActive? && DigestLength(op.alg) <= size
    ensures r.0.status == Success ==> r.0.output == e.digest(op.alg, op.input) && r.1 == HashInactive
    ensures r.0.status != Success ==> r.0.output == [] && r.1 == op
  {
    if op.HashInactive? then (Answer(ErrorBadState, []), op)
    else if size < DigestLength(op.alg) then (Answer(ErrorBufferTooSmall, []), op)
    else (Answer(Success, e.digest(op.alg, op.input)), HashInactive)
  }

  /** `psa_hash_abort`: succeeds from any state and leaves the operation inactive. */
  function HashAbort(op: HashOp): (r: (PsaStatus, HashOp))
    ensures r.0 == Success && r.1 == HashInactive
  {
    (Success, HashInactive)
  }

  /** Aborting twice is the same as aborting once. */
  lemma HashAbortIdempotent(op: HashOp)
    ensures HashAbort(HashAbort(op).1) == HashAbort(op)
  {
  }

  /** Whatever happened before, finishing after an abort is a bad-state error. */
  lemma HashFinishAfterAbort(e: Engine, op: HashOp, size: nat)
    ensures HashFinish(e, HashAbort(op).1, size) == (Answer(ErrorBadState, []), HashInactive)
  {
  }

  /**
   * Multipart and one-shot hashing agree: setup, one update per fragment and
   * finish yield what `psa_hash_compute` yields on the concatenated message.
   */
  lemma {:induction false} MultipartHashMatchesCompute(e: Engine, alg: Alg, fragments: seq<seq<byte>>, size: nat)
    requires alg.Hash? && alg.hash in e.hashes
    ensures var op := UpdateAll(HashSetup(e, HashInactive, alg).1, fragments);
            HashFinish(e, op, size).0 == HashCompute(e, alg, Concat(fragments), size)
  {
    assert HashSetup(e, HashInactive, alg).1 == HashActive(alg.hash, []);
    UpdateAllAppends(alg.hash, [], fragments);
    assert [] + Concat(fragments) == Concat(fragments);
  }

  /** The fragments joined in order. */
  function Concat(fragments: seq<seq<byte>>): seq<byte>
  {
    if |fragments| == 0 then [] else Concat(fragments[..|fragments| - 1]) + fragments[|fragments| - 1]
  }

  /** One update per fragment, in order, stopping at the first failure. */
  function UpdateAll(op: HashOp, fragments: seq<seq<byte>>): HashOp
  {
    if |fragments| == 0 then op
    else
      var before := UpdateAll(op, fragments[..|fragments| - 1]);
      var r := HashUpdate(before, fragments[|fragments| - 1]);
      if r.0 == Success then r.1 else before
  }

  /** On an active operation, updates accumulate the fragments. */
  lemma {:induction false} UpdateAllAppends(alg: HashAlg, prefix: seq<byte>, fragments: seq<seq<byte>>)
    ensures UpdateAll(HashActive(alg, prefix), fragments) == HashActive(alg, prefix + Concat(fragments))
    decreases |fragments|
  {
    if |fragments| > 0 {
      UpdateAllAppends(alg, prefix, fragments[..|fragments| - 1]);
      assert prefix + Concat(fragments) == prefix + Concat(fragments[..|fragments| - 1]) + fragments[|fragments| - 1];
    } else {
      assert prefix + Concat(fragments) == prefix;
    }
  }

  // ---------------------------------------------------------------- ciphers

  /**
   * `psa_cipher_operation_t`: inactive, or set up with a key, algorithm and
   * direction, an IV once one is set, and the input consumed so far.
   */
  datatype CipherOp =
    | CipherInactive
    | CipherActive(key: Key, alg: Alg, encrypt: bool, iv: Option<seq<byte>>, consumed: seq<byte>)

  /** The IV as the engine sees it: empty when none was set. */
  function IvBytes(op: CipherOp): seq<byte>
    requires op.CipherActive?
  {
    if op.iv.Some? then op.iv.value else []
  }

  /**
   * `psa_cipher_encrypt_setup` (`encrypt`) and `psa_cipher_decrypt_setup`:
   * the operation must be inactive, the handle valid, and the key's policy
   * must allow the direction with this algorithm.
   */
  function CipherSetup(ks: KeyStore, op: CipherOp, h: Handle, alg: Alg, encrypt: bool): (r: (PsaStatus, CipherOp))
    ensures op.CipherActive? ==> r == (ErrorBadState, op)
    ensures op.CipherInactive? && h !in ks.slots ==> r == (ErrorInvalidHandle, op)
    ensures r.0 == Success <==>
              op.CipherInactive? && h in ks.slots &&
              Permits(ks.slots[h], if encrypt then UsageEncrypt else UsageDecrypt, alg)
    ensures r.0 == Success ==> r.1 == CipherActive(ks.slots[h], alg, encrypt, None, [])
    ensures r.0 != Success ==> r.1 == op
  {
    if op.CipherActive? then (ErrorBadState, op)
    else if h !in ks.slots then (ErrorInvalidHandle, op)
    else if !Permits(ks.slots[h], if encrypt then UsageEncrypt else UsageDecrypt, alg) then (ErrorNotPermitted, op)
    else (Success, CipherActive(ks.slots[h], alg, encrypt, None, []))
  }

  /** `psa_cipher_set_iv`: once, on an active operation that has consumed nothing. */
  function CipherSetIv(op: CipherOp, iv: seq<byte>): (r: (PsaStatus, CipherOp))
    ensures r.0 == Success <==> op.CipherActive? && op.iv.None? && op.consumed == []
    ensures r.0 == Success ==> r.1 == op.(iv := Some(iv))
    ensures r.0 != Success ==> r.0 == ErrorBadState && r.1 == op
  {
    if op.CipherInactive? || op.iv.Some? || op.consumed != [] then (ErrorBadState, op)
    else (Success, op.(iv := Some(iv)))
  }

  /** `psa_cipher_update` into a buffer of `size` bytes. */
  function CipherUpdate(e: Engine, op: CipherOp, input: seq<byte>, size: nat): (r: (Answer, CipherOp))
    ensures op.CipherInactive? ==> r == (Answer(ErrorBadState, []), op)
    ensures r.0.status == Success ==>
              && op.CipherActive?
              && r.0 == e.cipherUpdate(op.key, op.alg, op.encrypt, IvBytes(op), op.consumed, input)
              && |r.0.output| <= size
              && r.1 == op.(consumed := op.consumed + input)
    ensures r.0.status != Success ==> r.0.output == [] && r.1 == op
  {
    if op.CipherInactive? then (Answer(ErrorBadState, []), op)
    else
      var a := e.cipherUpdate(op.key, op.alg, op.encrypt, IvBytes(op), op.consumed, input);
      if a.status != Success then (Answer(a.status, []), op)
      else if |a.output| > size then (Answer(ErrorBufferTooSmall, []), op)
      else (a, op.(consumed := op.consumed + input))
  }

  /** `psa_cipher_finish` into a buffer of `size` bytes. */
  function CipherFinish(e: Engine, op: CipherOp, size: nat): (r: (Answer, CipherOp))
    ensures op.CipherInactive? ==> r == (Answer(ErrorBadState, []), op)
    ensures r.0.status == Success ==>
              && op.CipherActive?
              && r.0 == e.cipherFinish(op.key, op.alg, op.encrypt, IvBytes(op), op.consumed)
              && |r.0.output| <= size
              && r.1 == CipherInactive
    ensures r.0.status != Success ==> r.0.output == [] && r.1 == op
  {
    if op.CipherInactive? then (Answer(ErrorBadState, []), op)
    else
      var a := e.cipherFinish(op.key, op.alg, op.encrypt, IvBytes(op), op.consumed);
      if a.status != Success then (Answer(a.status, []), op)
      else if |a.output| > size then (Answer(ErrorBufferTooSmall, []), op)
      else (a, CipherInactive)
  }

  /** `psa_cipher_abort`: succeeds from any state and leaves the operation inactive. */
  function CipherAbort(op: CipherOp): (r: (PsaStatus, CipherOp))
    ensures r.0 == Success && r.1 == CipherInactive
  {
    (Success, CipherInactive)
  }

  /**
   * An operation is finished at most once: after a successful finish, or an
   * abort, a further finish is a bad-state error that writes nothing.
   */
  lemma CipherFinishOnce(e: Engine, op: CipherOp, size: nat, size': nat)
    ensures CipherFinish(e, op, size).0.status == Success ==>
              CipherFinish(e, CipherFinish(e, op, size).1, size').0 == Answer(ErrorBadState, [])
    ensures CipherFinish(e, CipherAbort(op).1, size').0 == Answer(ErrorBadState, [])
  {
  }
}

=== FILE: status.dfy ===
/**
 * The two status vocabularies the test bodies compare against: the native
 * `psa_status_t` codes of the PSA Cryptography and Secure Storage APIs, and
 * the harness's own `VAL_STATUS_*` codes that a test function returns.
 */
module Status {

  /** `psa_status_t`, by name. */
  datatype PsaStatus =
    | Success
    | ErrorGenericError
    | ErrorNotSupported
    | ErrorNotPermitted
    | ErrorBufferTooSmall
    | ErrorAlreadyExists
    | ErrorDoesNotExist
    | ErrorBadState
    | ErrorInvalidArgument
    | ErrorInsufficientMemory
    | ErrorInsufficientStorage
    | ErrorCommunicationFailure
    | ErrorStorageFailure
    | ErrorHardwareFailure
    | ErrorCorruptionDetected
    | ErrorInsufficientEntropy
    | ErrorInvalidSignature
    | ErrorInvalidPadding
    | ErrorInsufficientData
    | ErrorInvalidHandle

  /** The `VAL_STATUS_*` codes named in the test bodies; anything else is `ValOther`. */
  datatype ValStatus =
    | ValSuccess
    | ValInvalid
    | ValError
    | ValInvalidHandle
    | ValCallFailed
    | ValSpmFailed
    | ValHeapNotAvailable
    | ValUnsupported
    | ValNoTests
    | ValOther(code: nat)
}

=== FILE: storage.dfy ===
/**
 * The reference the storage tests drive: the PSA Internal Trusted Storage /
 * Protected Storage object model. Each uid names an object with a capacity
 * and its current contents; `size` is the length of the contents.
 *
 * The optional API (`create`, `set_extended`) is modelled alongside the
 * mandatory one (`set`, `get`, `get_info`, `remove`). Storage flags other than
 * `PSA_STORAGE_FLAG_NONE` and running out of space are not modelled.
 */
module SecureStorage {
  import opened Base
  import opened Status

  type Uid = nat

  datatype StorageObject = StorageObject(capacity: nat, data: seq<byte>)
  {
    function Size(): nat { |data| }
    predicate Valid() { |data| <= capacity }
  }

  type Store = map<Uid, StorageObject>

  /** Every object's contents fit in its capacity. */
  predicate ValidStore(s: Store)
  {
    forall u | u in s :: s[u].Valid()
  }

  /** `struct psa_storage_info_t`. */
  datatype Info = Info(capacity: nat, size: nat)

  /** A read: the status and the bytes delivered (`*p_data_length` is their count). */
  datatype Read = Read(status: PsaStatus, data: seq<byte>)

  /** A write: the status and the store afterwards. */
  datatype Write = Write(status: PsaStatus, store: Store)

  /** A status query: the status and the information reported. */
  datatype InfoResult = InfoResult(status: PsaStatus, info: Info)

  /** `s'` agrees with `s` on every uid other than `uid`. */
  ghost predicate OthersUnchanged(s: Store, s': Store, uid: Uid)
  {
    forall u :: u != uid ==> (u in s <==> u in s') && (u in s ==> s'[u] == s[u])
  }

  /**
   * `get(uid, offset, length)`. The requested range must lie inside the
   * current contents; `offset + length` is computed without wrap-around, so an
   * offset near the top of the 32-bit range is rejected however short the
   * length. A failed read delivers nothing.
   */
  function Get(s: Store, uid: Uid, offset: nat, length: nat): (r: Read)
    ensures uid !in s ==> r == Read(ErrorDoesNotExist, [])
    ensures r.status == Success <==> uid in s && offset + length <= s[uid].Size()
    ensures r.status == Success ==> r.data == s[uid].data[offset..offset + length]
    ensures r.status != Success ==> r.data == []
    ensures |r.data| <= length
  {
    if uid !in s then Read(ErrorDoesNotExist, [])
    else if offset + length > s[uid].Size() then Read(ErrorInvalidArgument, [])
    else Read(Success, s[uid].data[offset..offset + length])
  }

  /**
   * `set(uid, data)`: creates the object or replaces it outright; the new
   * object's capacity and size are both the length of `data`.
   */
  function Set(s: Store, uid: Uid, data: seq<byte>): (w: Write)
    ensures w.status == Success
    ensures uid in w.store && w.store[uid] == StorageObject(|data|, data)
    ensures OthersUnchanged(s, w.store, uid)
    ensures ValidStore(s) ==> ValidStore(w.store)
  {
    Write(Success, s[uid := StorageObject(|data|, data)])
  }

  /** `create(uid, capacity)`: an empty object, refused when the uid is taken. */
  function Create(s: Store, uid: Uid, capacity: nat): (w: Write)
    ensures uid in s ==> w == Write(ErrorAlreadyExists, s)
    ensures uid !in s ==> w.status == Success && uid in w.store && w.store[uid] == StorageObject(capacity, [])
    ensures OthersUnchanged(s, w.store, uid)
    ensures ValidStore(s) ==> ValidStore(w.store)
  {
    if uid in s then Write(ErrorAlreadyExists, s)
    else Write(Success, s[uid := StorageObject(capacity, [])])
  }

  /**
   * `set_extended(uid, offset, data)`: a partial write. It may overwrite and
   * extend the contents but may not leave a gap after them nor run past the
   * capacity; on success the capacity is unchanged and the size becomes the
   * larger of the old size and `offset + |data|`.
   */
  function SetExtended(s: Store, uid: Uid, offset: nat, data: seq<byte>): (w: Write)
    requires ValidStore(s)
    ensures uid !in s ==> w == Write(ErrorDoesNotExist, s)
    ensures w.status == Success <==>
              uid in s && offset <= s[uid].Size() && offset + |data| <= s[uid].capacity
    ensures w.status != Success ==> w.store == s
    ensures w.status == Success ==>
              && uid in w.store
              && w.store[uid].capacity == s[uid].capacity
              && w.store[uid].Size() == (if offset + |data| <= s[uid].Size() then s[uid].Size() else offset + |data|)
              && w.store[uid].data[..offset] == s[uid].data[..offset]
              && w.store[uid].data[offset..offset + |data|] == data
              && (offset + |data| <= s[uid].Size() ==> w.store[uid].data[offset + |data|..] == s[uid].data[offset + |data|..])
    ensures OthersUnchanged(s, w.store, uid)
    ensures ValidStore(w.store)
  {
    if uid !in s then Write(ErrorDoesNotExist, s)
    else
      var obj := s[uid];
      if offset > obj.Size() || offset + |data| > obj.capacity then Write(ErrorInvalidArgument, s)
      else
        var obj' := StorageObject(obj.capacity, WriteAt(obj.data, offset, data));
        Write(Success, s[uid := obj'])
  }

  /** `get_info(uid)`. A missing uid reports an all-zero record. */
  function GetInfo(s: Store, uid: Uid): (r: InfoResult)
    ensures uid !in s ==> r == InfoResult(ErrorDoesNotExist, Info(0, 0))
    ensures uid in s ==> r == InfoResult(Success, Info(s[uid].capacity, s[uid].Size()))
  {
    if uid !in s then InfoResult(ErrorDoesNotExist, Info(0, 0))
    else InfoResult(Success, Info(s[uid].capacity, s[uid].Size()))
  }

  /** `remove(uid)`. */
  function Remove(s: Store, uid: Uid): (w: Write)
    ensures uid !in s ==> w == Write(ErrorDoesNotExist, s)
    ensures uid in s ==> w.status == Success
    ensures uid !in w.store
    ensures OthersUnchanged(s, w.store, uid)
    ensures ValidStore(s) ==> ValidStore(w.store)
  {
    if uid !in s then Write(ErrorDoesNotExist, s)
    else Write(Success, s - {uid})
  }

  /** Reading back what `set` stored, over any range inside it, returns exactly those bytes. */
  lemma GetAfterSet(s: Store, uid: Uid, data: seq<byte>, offset: nat, length: nat)
    requires offset + length <= |data|
    ensures Get(Set(s, uid, data).store, uid, offset, length) == Read(Success, data[offset..offset + length])
  {
  }

  /** `create` never disturbs an object that already exists. */
  lemma CreateKeepsExisting(s: Store, uid: Uid, capacity: nat)
    requires uid in s
    ensures Create(s, uid, capacity).status == ErrorAlreadyExists
    ensures GetInfo(Create(s, uid, capacity).store, uid) == GetInfo(s, uid)
  {
  }

  /** After `remove`, `set` makes a fresh object, and `create` on it then fails. */
  lemma SetAfterRemoveIsFresh(s: Store, uid: Uid, data: seq<byte>, capacity: nat)
    ensures var s1 := Remove(s, uid).store;
            var s2 := Set(s1, uid, data).store;
            && GetInfo(s2, uid) == InfoResult(Success, Info(|data|, |data|))
            && Create(s2, uid, capacity).status == ErrorAlreadyExists
  {
  }

  /** `remove` forgets whatever was last stored under the uid, leaving only the other objects. */
  lemma RemoveForgets(s: Store, uid: Uid, obj: StorageObject)
    ensures Remove(s[uid := obj], uid) == Write(Success, s - {uid})
  {
    assert s[uid := obj] - {uid} == s - {uid};
  }

  /** Without the uid, taking it out changes nothing. */
  lemma WithoutAbsent(s: Store, uid: Uid)
    requires uid !in s
    ensures s - {uid} == s
  {
  }
}

=== FILE: storage_offset_test.dfy ===
/**
 * test_s008: reads of a stored object at valid and invalid offsets, run
 * against the reference store. `tbl` is the expected-status table
 * (`s008_data[k].status`); its contents are not fixed by the model.
 */
module StorageOffsetTest {
  import opened Base
  import opened Status
  import opened Harness
  import opened SecureStorage

  const TEST_BUFF_SIZE: nat := 20
  const TEST_MAX_UINT32: nat := 0xFFFF_FFFF

  const WRITE_BUFF: seq<byte> :=
    [0x99, 0x01, 0x02, 0x03, 0x04, 0x23, 0xF6, 0x07, 0x08, 0x0D,
     0x70, 0xA1, 0xFF, 0xFF, 0x14, 0x73, 0x46, 0x97, 0xE8, 0xDD]

  /** The (offset, length) reads of the first loop from `offset` on: each read runs to the end. */
  function FirstSweep(offset: nat): seq<(nat, nat)>
    requires offset <= TEST_BUFF_SIZE
    decreases offset
  {
    if offset == 0 then [] else [(offset, TEST_BUFF_SIZE - offset)] + FirstSweep(offset / 2)
  }

  /** The (offset, length) reads of the second loop: the offset halves while the length doubles. */
  function SecondSweep(offset: nat, length: nat): seq<(nat, nat)>
    decreases offset
  {
    if offset == 0 then [] else [(offset, length)] + SecondSweep(offset / 2, length * 2)
  }

  /** All reads of the valid-offset test, in order. */
  function ValidReads(): seq<(nat, nat)>
  {
    FirstSweep(TEST_BUFF_SIZE) + SecondSweep(TEST_BUFF_SIZE - 2, 1)
  }

  /** The first loop reads (20,0), (10,10), (5,15), (2,18), (1,19): each ends exactly at the end of the object. */
  lemma FirstSweepValues()
    ensures FirstSweep(TEST_BUFF_SIZE) == [(20, 0), (10, 10), (5, 15), (2, 18), (1, 19)]
  {
    assert FirstSweep(1) == [(1, 19)];
    assert FirstSweep(2) == [(2, 18)] + FirstSweep(1);
    assert FirstSweep(5) == [(5, 15)] + FirstSweep(2);
    assert FirstSweep(10) == [(10, 10)] + FirstSweep(5);
    assert FirstSweep(20) == [(20, 0)] + FirstSweep(10);
  }

  /** The second loop reads (18,1), (9,2), (4,4), (2,8), (1,16): each ends strictly inside the object. */
  lemma SecondSweepValues()
    ensures SecondSweep(TEST_BUFF_SIZE - 2, 1) == [(18, 1), (9, 2), (4, 4), (2, 8), (1, 16)]
  {
    assert SecondSweep(1, 16) == [(1, 16)];
    assert SecondSweep(2, 8) == [(2, 8)] + SecondSweep(1, 16);
    assert SecondSweep(4, 4) == [(4, 4)] + SecondSweep(2, 8);
    assert SecondSweep(9, 2) == [(9, 2)] + SecondSweep(4, 4);
    assert SecondSweep(18, 1) == [(18, 1)] + SecondSweep(9, 2);
  }

  /** Every read of the first loop that happens ends at the end of the object. */
  lemma FirstSweepEndsAtEnd(ranges: seq<(nat, nat)>)
    requires ranges <= FirstSweep(TEST_BUFF_SIZE)
    ensures forall k | 0 <= k < |ranges| :: ranges[k].0 + ranges[k].1 == TEST_BUFF_SIZE
  {
    FirstSweepValues();
  }

  /** Every read of the second loop that happens ends strictly inside the object. */
  lemma SecondSweepEndsInside(ranges: seq<(nat, nat)>)
    requires ranges <= SecondSweep(TEST_BUFF_SIZE - 2, 1)
    ensures forall k | 0 <= k < |ranges| :: ranges[k].0 + ranges[k].1 < TEST_BUFF_SIZE
  {
    SecondSweepValues();
  }

  /** Appending one read to the reads done keeps them a prefix of the sweep. */
  lemma Advance(done: seq<(nat, nat)>, read: (nat, nat), rest: seq<(nat, nat)>, whole: seq<(nat, nat)>)
    requires done + ([read] + rest) == whole
    ensures (done + [read]) + rest == whole
    ensures done + [read] <= whole
  {
    assert (done + [read]) + rest == done + ([read] + rest);
  }

  /**
   * One read of the valid-offset test into `buf`: the status check
   * (checkpoint `cp`), the contents check (`cp + 1`) and the length check
   * (`cp + 2`), in that order. Returns the gate and the buffer afterwards.
   */
  function ReadBack(s: Store, uid: Uid, offset: nat, length: nat, expected: PsaStatus, cp: nat, buf: seq<byte>)
    : (r: (Gate, seq<byte>))
    requires |buf| == TEST_BUFF_SIZE
    requires offset <= TEST_BUFF_SIZE
    // on the stored buffer, a read inside it can fail only its status check
    ensures uid in s && s[uid].data == WRITE_BUFF && offset + length <= TEST_BUFF_SIZE ==>
              r.0 == Expect(expected == Success, cp) && |r.1| == TEST_BUFF_SIZE
  {
    assert |WRITE_BUFF| == TEST_BUFF_SIZE;
    var got := Get(s, uid, offset, length);
    var buf' := WriteAt(buf, 0, got.data);
    if got.status != expected then (Shut(AssertFailed(cp)), buf')
    else if !SameBytes(buf', WRITE_BUFF[offset..], length) then (Shut(AssertFailed(cp + 1)), buf')
    else if |got.data| != length then (Shut(AssertFailed(cp + 2)), buf')
    else (Open, buf')
  }

  /**
   * The first loop of the valid-offset test: reads from `offset` 20, 10, 5, 2, 1
   * to the end of the object, each into a cleared buffer, expecting `expected`.
   */
  method ReadToEnd(s: Store, uid: Uid, expected: PsaStatus, buf: seq<byte>)
    returns (g: Gate, buf': seq<byte>, ranges: seq<(nat, nat)>)
    requires uid in s && s[uid].data == WRITE_BUFF
    requires |buf| == TEST_BUFF_SIZE
    ensures g == Expect(expected == Success, 2)
    ensures |buf'| == TEST_BUFF_SIZE
    ensures ranges <= FirstSweep(TEST_BUFF_SIZE)
    ensures g.Open? ==> ranges == FirstSweep(TEST_BUFF_SIZE)
    ensures forall k | 0 <= k < |ranges| :: ranges[k].0 + ranges[k].1 == TEST_BUFF_SIZE
  {
    buf' := buf;
    ranges := [];
    ghost var whole := FirstSweep(TEST_BUFF_SIZE);
    var offset: nat := TEST_BUFF_SIZE;
    while offset > 0
      invariant offset <= TEST_BUFF_SIZE
      invariant ranges + FirstSweep(offset) == whole
      invariant offset < TEST_BUFF_SIZE ==> expected == Success
      invariant |buf'| == TEST_BUFF_SIZE
      decreases offset
    {
      var length := TEST_BUFF_SIZE - offset;
      var step := ReadBack(s, uid, offset, length, expected, 2, Zeros(TEST_BUFF_SIZE));
      g := step.0;
      buf' := step.1;
      Advance(ranges, (offset, length), FirstSweep(offset / 2), whole);
      ranges := ranges + [(offset, length)];
      if g.Shut? {
        FirstSweepEndsAtEnd(ranges);
        return;
      }
      offset := offset / 2;
    }
    g := Open;
    FirstSweepEndsAtEnd(ranges);
  }

  /**
   * The second loop of the valid-offset test: reads (18,1), (9,2), (4,4),
   * (2,8), (1,16), into the buffer as the first loop left it.
   */
  method ReadInside(s: Store, uid: Uid, expected: PsaStatus, buf: seq<byte>)
    returns (g: Gate, buf': seq<byte>, ranges: seq<(nat, nat)>)
    requires uid in s && s[uid].data == WRITE_BUFF
    requires |buf| == TEST_BUFF_SIZE
    ensures g == Expect(expected == Success, 5)
    ensures |buf'| == TEST_BUFF_SIZE
    ensures ranges <= SecondSweep(TEST_BUFF_SIZE - 2, 1)
    ensures g.Open? ==> ranges == SecondSweep(TEST_BUFF_SIZE - 2, 1)
    ensures forall k | 0 <= k < |ranges| :: ranges[k].0 + ranges[k].1 < TEST_BUFF_SIZE
  {
    buf' := buf;
    ranges := [];
    ghost var whole := SecondSweep(TEST_BUFF_SIZE - 2, 1);
    var offset: nat := TEST_BUFF_SIZE - 2;
    var length: nat := 1;
    while offset > 0
      invariant (offset, length) in {(18, 1), (9, 2), (4, 4), (2, 8), (1, 16), (0, 32)}
      invariant ranges + SecondSweep(offset, length) == whole
      invariant offset < TEST_BUFF_SIZE - 2 ==> expected == Success
      invariant |buf'| == TEST_BUFF_SIZE
      decreases offset
    {
      var step := ReadBack(s, uid, offset, length, expected, 5, buf');
      g := step.0;
      buf' := step.1;
      Advance(ranges, (offset, length), SecondSweep(offset / 2, length * 2), whole);
      ranges := ranges + [(offset, length)];
      if g.Shut? {
        SecondSweepEndsInside(ranges);
        return;
      }
      offset := offset / 2;
      length := length * 2;
    }
    g := Open;
    SecondSweepEndsInside(ranges);
  }

  /**
   * `psa_sst_valid_offset_success`: store the 20-byte buffer, then read it
   * back over the ranges of `ValidReads`. `buf` is the shared static
   * `read_buff`, cleared before each read of the first loop only.
   *
   * Against the reference, only the status expectations can fail: the test
   * passes exactly when the table expects success for the store and for both
   * kinds of read, and every read stays inside the stored object.
   */
  method ValidOffsetSuccess(tbl: seq<PsaStatus>, uid: Uid, s: Store, buf: seq<byte>)
    returns (v: Verdict, s': Store, buf': seq<byte>, ranges: seq<(nat, nat)>)
    requires |tbl| > 4
    requires |buf| == TEST_BUFF_SIZE
    ensures s' == Set(s, uid, WRITE_BUFF).store
    ensures |buf'| == TEST_BUFF_SIZE
    ensures v == PASS <==> tbl[1] == Success && tbl[2] == Success && tbl[4] == Success
    ensures v != PASS ==> v == AssertFailed(1) || v == AssertFailed(2) || v == AssertFailed(5)
    ensures ranges <= ValidReads()
    ensures v == PASS ==> ranges == ValidReads()
    ensures forall k | 0 <= k < |ranges| :: ranges[k].0 + ranges[k].1 <= TEST_BUFF_SIZE
  {
    buf' := buf;
    ranges := [];
    s' := Set(s, uid, WRITE_BUFF).store;
    if Success != tbl[1] {
      v := AssertFailed(1);
      return;
    }
    var g, first, second;
    g, buf', first := ReadToEnd(s', uid, tbl[2], buf');
    ranges := first;
    if g.Shut? {
      v := g.verdict;
      return;
    }
    g, buf', second := ReadInside(s', uid, tbl[4], buf');
    ranges := first + second;
    if g.Shut? {
      v := g.verdict;
      return;
    }
    v := PASS;
  }

  /**
   * `psa_sst_invalid_offset_failure`: four ranges outside the stored object,
   * each of which must deliver nothing into the zeroed `read_buff`, then
   * removal of the object. The function zeroes `read_buff` on entry, so the
   * caller's buffer does not reach it. Returns the store and buffer afterwards.
   */
  function InvalidOffsetFailure(tbl: seq<PsaStatus>, uid: Uid, s: Store): (f: Flow<(Store, seq<byte>)>)
    requires |tbl| > 13
    // on the object the valid-offset test stored, every read is refused with
    // an invalid-argument error, nothing is delivered, and the object is removed
    ensures uid in s && s[uid].Size() == TEST_BUFF_SIZE ==>
              && (VerdictOf(f) == PASS <==>
                    && tbl[6] != ErrorInvalidArgument
                    && tbl[8] == ErrorInvalidArgument
                    && tbl[10] == ErrorInvalidArgument
                    && tbl[12] != ErrorInvalidArgument
                    && tbl[13] == Success)
              && (f.Exit? ==> f.verdict in {AssertFailed(8), AssertFailed(11), AssertFailed(14), AssertFailed(17), AssertFailed(18)})
              && (f.Next? ==> f.state.0 == s - {uid} && AllZero(f.state.1))
    // the test depends on the object stored before it: on its own it cannot pass
    ensures uid !in s && tbl[13] == Success ==> VerdictOf(f) != PASS
  {
    var b0 := Zeros(TEST_BUFF_SIZE);
    var r1 := Get(s, uid, TEST_BUFF_SIZE + 1, 0);
    var b1 := WriteAt(b0, 0, r1.data);
    :- Expect(r1.status != tbl[6], 8);
    :- Expect(|r1.data| == 0, 9);
    :- Expect(AllZero(b1[..TEST_BUFF_SIZE]), 10);

    var r2 := Get(s, uid, TEST_BUFF_SIZE, 1);
    var b2 := WriteAt(b1, 0, r2.data);
    :- Expect(r2.status == tbl[8], 11);
    :- Expect(|r2.data| == 0, 12);
    :- Expect(AllZero(b2[..TEST_BUFF_SIZE]), 13);

    var r3 := Get(s, uid, 0, TEST_BUFF_SIZE + 1);
    var b3 := WriteAt(b2, 0, r3.data);
    :- Expect(r3.status == tbl[10], 14);
    :- Expect(|r3.data| == 0, 15);
    :- Expect(AllZero(b3[..TEST_BUFF_SIZE]), 16);

    var r4 := Get(s, uid, TEST_MAX_UINT32, TEST_BUFF_SIZE / 2);
    :- Expect(r4.status != tbl[12], 17);

    var rm := Remove(s, uid);
    :- Expect(rm.status == tbl[13], 18);
    Next((rm.store, b3))
  }

  /**
   * `test_s008_sst_list`: the valid-offset test runs first and leaves the
   * 20-byte object the invalid-offset test ranges. Starting from a store
   * without the uid, the suite passes when the table holds the reference's
   * answers, and leaves the store as it found it.
   */
  method S008Suite(tbl: seq<PsaStatus>, uid: Uid, s: Store, buf: seq<byte>)
    returns (verdicts: seq<Verdict>, s': Store)
    requires |tbl| > 13
    requires |buf| == TEST_BUFF_SIZE
    ensures |verdicts| == 2
    ensures verdicts[0] == PASS <==> tbl[1] == Success && tbl[2] == Success && tbl[4] == Success
    ensures verdicts[1] == PASS <==>
              && tbl[6] != ErrorInvalidArgument
              && tbl[8] == ErrorInvalidArgument
              && tbl[10] == ErrorInvalidArgument
              && tbl[12] != ErrorInvalidArgument
              && tbl[13] == Success
    ensures verdicts == [PASS, PASS] && uid !in s ==> s' == s
  {
    var v1, s1, _, _ := ValidOffsetSuccess(tbl, uid, s, buf);
    var f := InvalidOffsetFailure(tbl, uid, s1);
    verdicts := [v1, VerdictOf(f)];
    s' := if f.Next? then f.state.0 else s1;
    if verdicts == [PASS, PASS] && uid !in s {
      assert s' == s1 - {uid};
      assert s' == s;
    }
  }
}

=== FILE: storage_optional_tests.dfy ===
/**
 * test_p016 and test_p017: the optional Protected Storage API (`create`,
 * `set_extended`), exercised only when `get_support` reports it. Both tests
 * use the same uid and expected-status tables indexed by checkpoint
 * (`tbl[k]` is `p01x_data[k].status`).
 */
module OptionalStorageTests {
  import opened Base
  import opened Status
  import opened Harness
  import opened SecureStorage

  const WRITE_BUFF: seq<byte> :=
    [0x03, 0x04, 0x05, 0x07, 0xFF, 0x00, 0x32, 0x67, 0x99, 0x78, 0x43, 0x20, 0xFF, 0x91]

  /**
   * The wrapper both tests share: skip unless `get_support` answers the
   * table's value, otherwise hand on the body's verdict.
   */
  function OptionalApiCheck(support: nat, expectedSupport: nat, body: Verdict): (v: Verdict)
    ensures support != expectedSupport ==> v == Skipped(ValUnsupported)
    ensures support == expectedSupport ==> v == body
  {
    if support != expectedSupport then Skipped(ValUnsupported) else body
  }

  // ---------------------------------------------------------------- test_p016

  const P016_SIZE_1: nat := 10
  const P016_SIZE_2: nat := 14
  const P016_SIZE_3: nat := 8

  /** The answers the reference gives to the calls of the capacity test, on a store without its uid. */
  predicate P016TableAgrees(tbl: seq<PsaStatus>)
    requires |tbl| > 14
  {
    && tbl[1] == Success
    && tbl[2] == ErrorAlreadyExists
    && tbl[3] == Success
    && tbl[6] == Success
    && tbl[7] == Success
    && tbl[10] == ErrorInvalidArgument
    && tbl[11] == Success
    && tbl[12] == Success
    && tbl[13] == ErrorAlreadyExists
    && tbl[14] == Success
  }

  /**
   * `psa_sst_optional_api_sst_capacity`: `create` does not disturb an existing
   * object, `set` replaces the capacity along with the contents, and
   * `set_extended` cannot reach past the new capacity.
   */
  function CapacityTest(tbl: seq<PsaStatus>, uid: Uid, s: Store): (f: Flow<Store>)
    requires |tbl| > 14
    requires ValidStore(s)
    // from a store without the uid: pass exactly when the table holds the
    // reference's answers, and the attribute checks themselves never fail
    ensures uid !in s ==> (VerdictOf(f) == PASS <==> P016TableAgrees(tbl))
    ensures uid !in s && f.Exit? ==>
              f.verdict !in {AssertFailed(4), AssertFailed(5), AssertFailed(8), AssertFailed(9)}
    // an object left behind under the uid makes the first create fail
    ensures uid in s && tbl[1] == Success ==> f == Exit(AssertFailed(1))
  {
    var w1 := Create(s, uid, P016_SIZE_1);
    :- Expect(w1.status == tbl[1], 1);
    var w2 := Create(w1.store, uid, P016_SIZE_2);
    :- Expect(w2.status == tbl[2], 2);
    var i3 := GetInfo(w2.store, uid);
    :- Expect(i3.status == tbl[3], 3);
    :- Expect(i3.info.capacity == P016_SIZE_1, 4);
    :- Expect(i3.info.size == 0, 5);
    CapacityOverride(tbl, uid, w2.store)
  }

  /**
   * Checkpoints 6 to 9: `set` replaces the object with 8 bytes, and its
   * capacity and size are read back; then the recreate steps.
   */
  function CapacityOverride(tbl: seq<PsaStatus>, uid: Uid, s: Store): (f: Flow<Store>)
    requires |tbl| > 14
    requires ValidStore(s)
    ensures VerdictOf(f) == PASS <==>
              && tbl[6] == Success && tbl[7] == Success && tbl[10] == ErrorInvalidArgument
              && tbl[11] == Success && tbl[12] == Success && tbl[13] == ErrorAlreadyExists && tbl[14] == Success
    ensures f.Exit? ==> f.verdict !in {AssertFailed(4), AssertFailed(5), AssertFailed(8), AssertFailed(9)}
  {
    var w6 := Set(s, uid, WRITE_BUFF[..P016_SIZE_3]);
    :- Expect(w6.status == tbl[6], 6);
    var i7 := GetInfo(w6.store, uid);
    :- Expect(i7.status == tbl[7], 7);
    :- Expect(i7.info.capacity == P016_SIZE_3, 8);
    :- Expect(i7.info.size == P016_SIZE_3, 9);
    CapacityRecreate(tbl, uid, w6.store)
  }

  /**
   * Checkpoints 10 and 11: `set_extended` cannot write 10 bytes into the
   * 8-byte object, which is then removed; then the refill steps.
   */
  function CapacityRecreate(tbl: seq<PsaStatus>, uid: Uid, s: Store): (f: Flow<Store>)
    requires |tbl| > 14
    requires ValidStore(s)
    ensures uid in s && s[uid].capacity == P016_SIZE_3 ==>
              && (VerdictOf(f) == PASS <==>
                    && tbl[10] == ErrorInvalidArgument && tbl[11] == Success && tbl[12] == Success
                    && tbl[13] == ErrorAlreadyExists && tbl[14] == Success)
              && (f.Exit? ==> f.verdict.AssertFailed? && 10 <= f.verdict.checkpoint <= 14)
  {
    var w10 := SetExtended(s, uid, 0, WRITE_BUFF[..P016_SIZE_1]);
    :- Expect(w10.status == tbl[10], 10);
    var w11 := Remove(w10.store, uid);
    :- Expect(w11.status == tbl[11], 11);
    CapacityRefill(tbl, uid, w11.store)
  }

  /**
   * Checkpoints 12 to 14: `set` the uid with 14 bytes, `create` must then
   * refuse it, and it is removed. Whatever the store held, these answers
   * are fixed.
   */
  function CapacityRefill(tbl: seq<PsaStatus>, uid: Uid, s: Store): (f: Flow<Store>)
    requires |tbl| > 14
    ensures VerdictOf(f) == PASS <==> tbl[12] == Success && tbl[13] == ErrorAlreadyExists && tbl[14] == Success
    ensures f.Exit? ==> f.verdict.AssertFailed? && 12 <= f.verdict.checkpoint <= 14
    ensures f.Next? ==> uid !in f.state
  {
    var w12 := Set(s, uid, WRITE_BUFF[..P016_SIZE_2]);
    :- Expect(w12.status == tbl[12], 12);
    var w13 := Create(w12.store, uid, P016_SIZE_2);
    :- Expect(w13.status == tbl[13], 13);
    var w14 := Remove(w13.store, uid);
    :- Expect(w14.status == tbl[14], 14);
    Next(w14.store)
  }

  /**
   * From a store without the uid, a capacity test that runs to the end
   * leaves the store as it found it: both objects it makes are removed.
   */
  lemma CapacityTestRestoresStore(tbl: seq<PsaStatus>, uid: Uid, s: Store)
    requires |tbl| > 14
    requires ValidStore(s)
    requires uid !in s
    ensures CapacityTest(tbl, uid, s).Next? ==> CapacityTest(tbl, uid, s).state == s
  {
    var obj6 := StorageObject(P016_SIZE_3, WRITE_BUFF[..P016_SIZE_3]);
    var w6 := Set(s[uid := StorageObject(P016_SIZE_1, [])], uid, WRITE_BUFF[..P016_SIZE_3]);
    assert w6.store == s[uid := obj6];
    RemoveForgets(s, uid, obj6);
    WithoutAbsent(s, uid);
    RemoveForgets(s, uid, StorageObject(P016_SIZE_2, WRITE_BUFF[..P016_SIZE_2]));
  }

  /** `psa_sst_optional_api_sst_capacity_check`. */
  function CapacityCheck(support: nat, expectedSupport: nat, tbl: seq<PsaStatus>, uid: Uid, s: Store): (v: Verdict)
    requires |tbl| > 14
    requires ValidStore(s)
    ensures support != expectedSupport ==> v == Skipped(ValUnsupported)
    ensures support == expectedSupport && uid !in s ==> (v == PASS <==> P016TableAgrees(tbl))
    ensures v.Returned? ==> v == PASS
  {
    OptionalApiCheck(support, expectedSupport, VerdictOf(CapacityTest(tbl, uid, s)))
  }

  // ---------------------------------------------------------------- test_p017

  const P017_SIZE_1: nat := 14
  const P017_SIZE_2: nat := 10

  /** The answers the reference gives to the calls of the partial-write test, on a store without its uid. */
  predicate P017TableAgrees(tbl: seq<PsaStatus>)
    requires |tbl| > 8
  {
    && tbl[1] == Success
    && tbl[2] == Success
    && tbl[3] == ErrorInvalidArgument
    && tbl[4] == Success
    && tbl[5] == Success
    && tbl[8] == Success
  }

  /**
   * `psa_sst_optional_api_partial_write`: fill the first half, try to write
   * across a gap, then overwrite and extend. Returns the test's flow and the
   * object it built before removing it (`None` when it stopped earlier).
   */
  function PartialWriteTest(tbl: seq<PsaStatus>, uid: Uid, s: Store): (r: (Flow<Store>, Option<StorageObject>))
    requires |tbl| > 8
    requires ValidStore(s)
    ensures uid !in s ==> (VerdictOf(r.0) == PASS <==> P017TableAgrees(tbl))
    ensures uid !in s && r.0.Exit? ==> r.0.verdict !in {AssertFailed(6), AssertFailed(7)}
    ensures uid in s && tbl[1] == Success ==> r.0 == Exit(AssertFailed(1))
  {
    var w1 := Create(s, uid, P017_SIZE_1);
    if w1.status != tbl[1] then (Exit(AssertFailed(1)), None) else
    var w2 := SetExtended(w1.store, uid, 0, WRITE_BUFF[..P017_SIZE_1 / 2]);
    if w2.status != tbl[2] then (Exit(AssertFailed(2)), None) else
    var w3 := SetExtended(w2.store, uid, P017_SIZE_1 / 2 + 2, WRITE_BUFF[..2]);
    if w3.status != tbl[3] then (Exit(AssertFailed(3)), None) else
    var w4 := SetExtended(w3.store, uid, 0, WRITE_BUFF[..P017_SIZE_2]);
    if w4.status != tbl[4] then (Exit(AssertFailed(4)), None) else
    var built := if uid in w4.store then Some(w4.store[uid]) else None;
    (PartialWriteVerify(tbl, uid, w4.store), built)
  }

  /** The object the partial writes build: the first ten bytes of the buffer in a 14-byte object. */
  const PARTIAL_OBJECT: StorageObject := StorageObject(P017_SIZE_1, WRITE_BUFF[..P017_SIZE_2])

  /**
   * On a store without the uid, the four writes of the partial-write test
   * answer as the table expects and leave the built object under the uid
   * and every other object as it was.
   */
  lemma PartialWriteFills(s: Store, uid: Uid)
    requires ValidStore(s)
    requires uid !in s
    ensures var w1 := Create(s, uid, P017_SIZE_1);
            var w2 := SetExtended(w1.store, uid, 0, WRITE_BUFF[..P017_SIZE_1 / 2]);
            var w3 := SetExtended(w2.store, uid, P017_SIZE_1 / 2 + 2, WRITE_BUFF[..2]);
            var w4 := SetExtended(w3.store, uid, 0, WRITE_BUFF[..P017_SIZE_2]);
            && w1.status == Success && w2.status == Success
            && w3.status == ErrorInvalidArgument && w4.status == Success
            && w4.store == s[uid := PARTIAL_OBJECT]
  {
    var w1 := Create(s, uid, P017_SIZE_1);
    var w2 := SetExtended(w1.store, uid, 0, WRITE_BUFF[..P017_SIZE_1 / 2]);
    var w3 := SetExtended(w2.store, uid, P017_SIZE_1 / 2 + 2, WRITE_BUFF[..2]);
    assert w2.store == s[uid := StorageObject(P017_SIZE_1, WRITE_BUFF[..P017_SIZE_1 / 2])];
    assert w3.store == w2.store;
  }

  /**
   * Checkpoints 5 to 8: the object's size and capacity are read back and it
   * is removed. On the object the partial writes build, only the status
   * answers can fail.
   */
  function PartialWriteVerify(tbl: seq<PsaStatus>, uid: Uid, s: Store): (f: Flow<Store>)
    requires |tbl| > 8
    ensures uid in s && s[uid] == PARTIAL_OBJECT ==>
              && (VerdictOf(f) == PASS <==> tbl[5] == Success && tbl[8] == Success)
              && (f.Exit? ==> f.verdict.AssertFailed? && f.verdict.checkpoint in {5, 8})
    ensures f.Next? ==> uid in s && f.state == s - {uid}
  {
    var i5 := GetInfo(s, uid);
    :- Expect(i5.status == tbl[5], 5);
    :- Expect(i5.info.size == P017_SIZE_2, 6);
    :- Expect(i5.info.capacity == P017_SIZE_1, 7);
    var w8 := Remove(s, uid);
    :- Expect(w8.status == tbl[8], 8);
    Next(w8.store)
  }

  /**
   * From a store without the uid, the object the partial-write test builds
   * is the first ten bytes of the buffer in a 14-byte object, and a run to
   * the end leaves the store as it found it.
   */
  lemma PartialWriteRestoresStore(tbl: seq<PsaStatus>, uid: Uid, s: Store)
    requires |tbl| > 8
    requires ValidStore(s)
    requires uid !in s
    ensures var r := PartialWriteTest(tbl, uid, s);
            && (r.1.Some? ==> r.1.value == PARTIAL_OBJECT)
            && (r.0.Next? ==> r.0.state == s)
  {
    PartialWriteFills(s, uid);
    assert s[uid := PARTIAL_OBJECT] - {uid} == s;
  }

  /** `psa_sst_optional_api_partial_write_check`. */
  function PartialWriteCheck(support: nat, expectedSupport: nat, tbl: seq<PsaStatus>, uid: Uid, s: Store): (v: Verdict)
    requires |tbl| > 8
    requires ValidStore(s)
    ensures support != expectedSupport ==> v == Skipped(ValUnsupported)
    ensures support == expectedSupport && uid !in s ==> (v == PASS <==> P017TableAgrees(tbl))
    ensures v.Returned? ==> v == PASS
  {
    OptionalApiCheck(support, expectedSupport, VerdictOf(PartialWriteTest(tbl, uid, s).0))
  }
}
